=== FILE: README.md ===
# ebpf_llvm_jit in Dafny

A model of the core of `ebpf_llvm_jit`. The project has three parts:

1. **The eBPF-to-LLVM translator.** This is `generateModule` with its helpers `split_blocks` and `update_array`.
   - The translator is a pure function from a sequence of eBPF instructions to either a program of basic blocks or the first error the C++ loop would report.
   - The basic blocks are keyed by the index of their first instruction.
   - Each block holds abstract straight-line operations and a terminator.
   - An abstract machine gives every emitted block a meaning. Its state is:
     - eleven 64-bit registers;
     - the explicit call stack and its item counter;
     - byte memory.
2. **The front ends.** These are `CompilerXDP`, `vm` and `bpftime_llvm_jit_vm`, each modelled as an immutable record:
   - instruction loading in 8-byte records;
   - the bounded external-function table (8192 entries, never overwritten);
   - the helper-name lists handed to the translator;
   - the `jitted_function` state;
   - the helper symbol name `_bpf_helper_ext_NNNN`.
3. **The bare-metal RISC-V runtime the translated programs link against:**
   - `uart_puts`, `strlen`, `strcpy`, `reverse_string`, `itoa` and `hextoa` over character buffers;
   - the `bpf_printk` helper (`_bpf_helper_ext_0006`): pointer rebasing and the s0/s1/s2 format state machine;
   - the packet loader that splits a memory region at runs of four `0xFFFF` words.

The variants in `examples/02_qemu_riscv` and `examples/99_baremetal_runtime` are modelled where they differ:
- `hextoa` without padding, for 64-bit values;
- the format-pointer relocation of the example `bpf_printk`.

The example `reverse_string` and `itoa` are the same code as the runtime's and share its model. The example `uart_puts` sends the same characters as the runtime's but returns nothing, so it is `Uart.UartPuts` with its count discarded.

Modules follow the program's structure:

| file | contents |
|---|---|
| `isa.dfy` | instruction fields and opcode classes |
| `alu.dfy` | ALU semantics |
| `blocks.dfy` | `split_blocks` and the local-call return blocks |
| `taint.dfy` | `update_array` and the context flags |
| `taint_sound.dfy` | the context flags against the registers the machine writes |
| `lddw.dfy` | the two-slot wide load |
| `translator.dfy` | the translation loop |
| `machine.dfy` | run-time meaning of blocks and the call protocol |
| `lowering.dfy` | what each opcode's translation does on the machine, and a whole program |
| `memory.dfy` | little-endian byte memory |
| `loader.dfy` | 8-byte instruction records and `load_code` |
| `exttable.dfy` | `register_external_function` and the name lists |
| `compiler_xdp.dfy`, `vm.dfy`, `jit_vm.dfy` | the three front ends |
| `symbols.dfy` | `ext_func_sym` |
| `digits.dfy` | reference decimal and hexadecimal renderings |
| `uart.dfy`, `uart_variant.dfy` | the UART text routines |
| `printk.dfy`, `printk_variant.dfy` | `bpf_printk` |
| `packets.dfy` | the packet loader |
| `wrappers.dfy` | `Option` and `Result` |

Where the code departs from RFC 9669 or from what it evidently intends, the model follows the code:
- XCHG is emitted without fetch, so the source register does not receive the old value;
- a local call moves r10 down by `STACK_SIZE` = 64 bytes and EXIT moves it back up by the same amount, where a frame is 512 bytes long; `Machine.FramesDisjoint` states the whole-frame step as the correction (see Findings);
- a block after a local call is registered as a return block only when its index is above 1 (`Translator.Translate`), so a local call at index 0 is rejected (see Findings);
- DIV and MOD by zero have no meaning (`Machine.ExecOp`): the select that picks the guarded value is fed by an unconditional `udiv`/`urem`, which LLVM leaves undefined for a zero divisor; `Alu.ZeroDivisor` states the intended values (see Findings);
- `%d` in `bpf_printk` prints what the runtime's `itoa` writes, including "-(" for INT_MIN (see Findings);
- the context-pointer flags are cleared for the destination field only (`Taint.UpdateArray`); `Taint.UpdateFixed` is the correction (see Findings).

Two headers are not part of this model: `code_gen.h`, which holds the emitters, and `ebpf_inst.h`, which holds the opcode constants. They enter the model as follows:
- The jump test `is_jmp`, the byte-swap and helper-call emitters' acceptance, and the LDDW callbacks are parameters of the translation (`Translator.Config`).
- Opcode values, the sign-extension of immediates, the zero-extension of 32-bit results and `EBPF_STACK_SIZE` = 512 follow RFC 9669 (BPF Instruction Set Architecture), sections 3, 4.1 and 4.3.

## Model

| member | source | states |
|---|---|---|
| Isa.Signed | compiler/src/jit/compiler.cpp:1035-1044 | the two's-complement reading of an m-value field lies in [-m/2, m/2), is non-negative exactly when the raw value is below m/2, and is congruent to it modulo m |
| Isa.Sext | compiler/src/jit/compiler.cpp:848-866 | sign extension to 64 bits keeps the low field, equals the signed reading modulo 2^64, and fills the upper part with ones exactly for negative fields |
| Isa.SignedOff | compiler/src/jit/compiler.cpp:1035-1044 | a 16-bit jump/memory offset reads as a value in [-32768, 32768), non-negative iff the raw field is below 0x8000 |
| Isa.Sext32 | compiler/src/jit/compiler.cpp:848-866 | a 32-bit immediate widened to 64 bits keeps its low word and gets an all-ones upper word exactly when bit 31 is set |
| Isa.Bytes | compiler/src/jit/compiler.cpp:758-802 | the size field gives the access width: 0 (W) is 4 bytes, 1 (H) 2, 2 (B) 1 and 3 (DW) 8 |
| Isa.AluOpBits | compiler/src/jit/compiler.cpp:492-740 | every ALU operation has a 4-bit operation field |
| Isa.CmpBits | compiler/src/jit/compiler.cpp:1148-1289 | every jump comparison has a 4-bit operation field |
| Isa.SizeBits | compiler/src/jit/compiler.cpp:758-802 | every access size has a 2-bit size field |
| Isa.ClassifyEncode | compiler/src/jit/compiler.cpp:485-1384 | every instruction kind the switch handles has an opcode that the decoder maps back to that kind |
| Isa.ClassifyAlu | compiler/src/jit/compiler.cpp:492-740 | the opcode of every ALU kind (op, 32/64-bit, register/immediate) decodes back to it |
| Isa.ClassifyJmp | compiler/src/jit/compiler.cpp:1148-1289 | the opcode of every conditional-jump kind decodes back to it |
| Isa.ClassifyMem | compiler/src/jit/compiler.cpp:758-802 | the opcodes of loads and stores of every size decode back to their kind |
| Isa.EncodeClassify | compiler/src/jit/compiler.cpp:485-1384 | an opcode the decoder accepts is exactly the opcode of the kind it decodes to, so decoding is injective |
| Isa.EncodeClassifyAlu | compiler/src/jit/compiler.cpp:492-740 | the same, for opcodes of the ALU classes |
| Isa.EncodeClassifyJmp | compiler/src/jit/compiler.cpp:1035-1289 | the same, for opcodes of the jump classes |
| Isa.EncodeClassifyMem | compiler/src/jit/compiler.cpp:758-802 | every load/store opcode of the handled classes decodes, and re-encodes to itself |
| Alu.ShiftByZero | compiler/src/jit/compiler.cpp:606-650 | a shift by zero (left, logical right, arithmetic right) leaves the value unchanged |
| Alu.UDiv | compiler/src/jit/compiler.cpp:539-569 | unsigned division: the q with q*s <= d < (q+1)*s for a non-zero divisor; for a zero divisor the 0 the select intends (the machine gives that case no meaning) |
| Alu.UMod | compiler/src/jit/compiler.cpp:663-686 | unsigned remainder: below the divisor and at most the dividend for a non-zero divisor; for a zero divisor the dividend the select intends (the machine gives that case no meaning) |
| Alu.Apply | compiler/src/jit/compiler.cpp:492-740 | the value of each operation on the (low words of the) operands: ADD, SUB and MUL modulo 2^64 or 2^32; unsigned DIV and MOD, with the values the select intends for a zero divisor (a case the machine gives no meaning); OR, AND and XOR bitwise, cut to 32 bits in the 32-bit class; MOV the operand; LSH a product with 2^n, RSH a floor quotient by 2^n and ARSH a signed floor quotient by 2^n, with n the count modulo the width; a 32-bit result below 2^32 |
| Alu.Sar | compiler/src/jit/compiler.cpp:715-735 | an arithmetic right shift by n is the signed value divided by 2^n, rounded down; a 32-bit one stays below 2^32 |
| Alu.AddSubInverse | compiler/src/jit/compiler.cpp:492-540 | subtracting what was added gives dst back (its low word in the 32-bit class) |
| Alu.ImmOperand | compiler/src/jit/compiler.cpp:492-505 | an immediate operand keeps the 32-bit immediate as its low word; in the 64-bit class it reads as the signed immediate (sign extension), in the 32-bit class it is the immediate itself |
| Alu.Neg | compiler/src/jit/compiler.cpp:653-661 | NEG gives the additive inverse modulo 2^64, NEG32 modulo 2^32 with a zero upper word |
| Alu.DivModIdentity | compiler/src/jit/compiler.cpp:539-569 | for a non-zero divisor DIV and MOD satisfy d == q*s + r with r < s |
| Alu.ZeroDivisor | compiler/src/jit/compiler.cpp:539-686 | corrected division: the values the select intends for a zero divisor, DIV 0 and MOD dst (its low word in the 32-bit class) |
| Alu.DivIsUnsigned | compiler/src/jit/compiler.cpp:539-569 | division treats operands as unsigned: all-ones / 2 is 2^63-1 (2^31-1 in 32 bits), not 0 |
| Alu.ShiftCountWraps64 | compiler/src/jit/compiler.cpp:606-650 | 64-bit LSH, RSH and ARSH use the count modulo 64: 65 acts as 1, 64 as 0 |
| Alu.ShiftCountWraps32 | compiler/src/jit/compiler.cpp:715-735 | 32-bit shifts use the count modulo 32: 33 acts as 1, 32 as 0 |
| Alu.SarSign | compiler/src/jit/compiler.cpp:715-735 | ARSH agrees with RSH on non-negative values and keeps negative values negative |
| Alu.ShlIsMultiply | compiler/src/jit/compiler.cpp:606-627 | LSH by n multiplies by 2^n modulo 2^64 |
| Alu.Alu32ZeroExtends | compiler/src/jit/compiler.cpp:492-740 | every 32-bit class result is zero-extended into the 64-bit register |
| Blocks.BlockBegin | compiler/src/jit/compiler.cpp:115-138 | the block-start vector has one flag per instruction, set exactly at index 0, after a jump and at a jump's in-range target |
| Blocks.SplitBlocks | compiler/src/jit/compiler.cpp:115-138 | the marking loop computes exactly the block-start vector |
| Blocks.JumpMarks | compiler/src/jit/compiler.cpp:126-136 | a jump at j marks j+1 (when in range) and its target (when in range) |
| Blocks.StraightLine | compiler/src/jit/compiler.cpp:115-138 | without jumps only index 0 starts a block, so no index is marked for any other reason |
| Blocks.RetBlocks | compiler/src/jit/compiler.cpp:315-335 | definition of the corrected return-block set, with the guard `i >= 1` in place of the source's `i > 1`: a block is a return block iff it starts a block and the instruction before it is a local call |
| Blocks.CallsHaveReturnBlocks | compiler/src/jit/compiler.cpp:1075 | every local call followed by an instruction has its return block registered, as the call site asserts |
| Blocks.CallAtZeroHasNoReturnBlock | compiler/src/jit/compiler.cpp:328-333 | with the `i > 1` guard, a local call at index 0 gets no return block although index 1 starts a block |
| Blocks.RetBlocksDifferOnlyAtOne | compiler/src/jit/compiler.cpp:328-333 | the guard as written and the corrected guard differ at most at index 1 |
| Taint.Initial | compiler/src/jit/compiler.cpp:396-409 | definition: at entry only r1, the context pointer, is flagged |
| Taint.UpdateArray | compiler/src/jit/compiler.cpp:140-154 | every instruction clears dst's flag; a register move then copies the source's post-clear flag; no other register changes |
| Taint.MovSelfDropsTaint | compiler/src/jit/compiler.cpp:140-154 | `mov rX, rX` loses the flag of rX |
| Taint.UpdateFixed | compiler/src/jit/compiler.cpp:140-154 | corrected update: every register the instruction overwrites loses its flag, others keep theirs, and dst is flagged iff it is a 64-bit move of a flagged register |
| Taint.FixedMovSelfKeepsTaint | compiler/src/jit/compiler.cpp:140-154 | with the corrected update `mov64 rX, rX` changes no flag |
| TaintSound.LoweredWrites | compiler/src/jit/compiler.cpp:485-1378 | running an instruction's translation changes no register outside dst, the fetch target and r0 (for CMPXCHG and helper calls); a 64-bit move copies the source, a 32-bit move its low half |
| TaintSound.OpWrites | compiler/src/jit/compiler.cpp:485-1378 | the same for one operation |
| TaintSound.StepSound | compiler/src/jit/compiler.cpp:140-154 | with the update as written, flags that hold the context before an instruction still do after it, unless it is an atomic fetch into a flagged src, an r0 write while r0 is flagged, or a 32-bit copy of a context above 2^32 |
| TaintSound.StepSoundFixed | compiler/src/jit/compiler.cpp:140-154 | with the corrected update, flags that hold the context before any instruction still do after it |
| TaintSound.StraightSound | compiler/src/jit/compiler.cpp:477-483 | along a straight-line run, sound flags stay sound: always with the corrected update, and with the update as written when no instruction is risky |
| TaintSound.EntrySound | compiler/src/jit/compiler.cpp:396-409 | from entry, with r1 the context, both updates keep the flags sound along a straight-line run without risky instructions |
| TaintSound.FetchKeepsStaleFlag | compiler/src/jit/compiler.cpp:1291-1331 | `fetch_add [r2], r1` puts the old memory word in r1 while the update as written keeps r1 flagged; the corrected update does not |
| TaintSound.CmpXchgKeepsStaleFlag | compiler/src/jit/compiler.cpp:1340-1368 | CMPXCHG puts the old memory word in r0 while the update as written keeps r0 flagged; the corrected update does not |
| TaintSound.Mov32KeepsFlagOnTruncated | compiler/src/jit/compiler.cpp:140-154 | `mov32 r2, r1` with a context above 2^32 flags r2, which holds only the low half |
| TaintSound.JumpSkipsCopy | compiler/src/jit/compiler.cpp:477-481 | the flags follow program order: in `jeq r3, 0, +1; mov64 r2, r1; ldxw r0, [r2+0]` the load is rebased through r2, yet with r3 == 0 the jump reaches it without the move and r2 need not hold the context |
| TaintSound.MovSelfSkipsRebase | compiler/src/jit/compiler.cpp:453-481 | after `mov64 r1, r1` a following `ldxw` through r1 is an ordinary load as written and a rebased packet load with the corrected update |
| Taint.InitialSound | compiler/src/jit/compiler.cpp:396-409 | the initial flags are sound for the entry registers |
| Taint.CopyKeepsTaint | compiler/src/jit/compiler.cpp:140-154 | example: after `r2 = r1; r1 += 8` only r2 is flagged |
| Lddw.Assemble | compiler/src/jit/compiler.cpp:836-839 | the 64-bit value has the first immediate as its low word and the second as its high word |
| Lddw.AssembleInjective | compiler/src/jit/compiler.cpp:836-839 | distinct immediate pairs give distinct values, and conversely |
| Lddw.AssembleExamples | compiler/src/jit/compiler.cpp:836-839 | examples: the high immediate is not sign-extended into the low word: (1,1), (2^32-1,0), (0,2^32-1) |
| Lddw.Dispatch | compiler/src/jit/compiler.cpp:844-1026 | src 0 stores the literal; 1 and 5 the callback result or the sign-extended imm; 3 and 4 fail iff their callback is missing and otherwise store var_addr(imm) or code_addr(imm); 2 and 6 with patching store map_val(...)+imm_hi or fail; src > 6 stores nothing |
| Lddw.DispatchMeaning | compiler/src/jit/compiler.cpp:844-1026 | a successful dispatch, run, gives dst the value section 5.4 of RFC 9669 defines for the kind (map by fd or index, map value plus offset, variable and code address), and leaves dst alone for kinds it does not define |
| Lddw.Lower | compiler/src/jit/compiler.cpp:820-839 | a wide load in the last slot, or with a second slot whose code, registers or offset is non-zero, fails; otherwise it dispatches |
| Lddw.SecondImmIsFree | compiler/src/jit/compiler.cpp:820-835 | the second slot's immediate never makes a wide load illegal |
| Lddw.PlainKindsNeverFail | compiler/src/jit/compiler.cpp:844-866 | kinds 0, 1, 5 and those above 6 never fail |
| Lddw.DefaultRelocation | compiler/src/jit/compiler.cpp:848-866 | with no callbacks, kinds 1 and 5 load the sign-extended immediate (-1 gives all ones) |
| Translator.Width | compiler/src/jit/compiler.cpp:806-1028 | an instruction occupies one slot, or two for a wide load |
| Translator.Starts | compiler/src/jit/compiler.cpp:312-335 | definition: the block keys are exactly the marked indices |
| Translator.Emit | compiler/src/jit/compiler.cpp:485-1384 | a successful emission has the instruction's width and names only existing blocks and return blocks; an unknown opcode fails with its pc and code |
| Translator.LddwOpcode | compiler/src/jit/compiler.cpp:806 | only opcode 0x18 selects the wide load |
| Translator.EmitWide | compiler/src/jit/compiler.cpp:806-1028 | a wide load fails exactly when its validation or relocation fails, with that reason and the pc; it emits nothing exactly for the kinds that store nothing, and otherwise one constant or map-value operation into dst, over two slots |
| Translator.EmitJump | compiler/src/jit/compiler.cpp:1035-1044 | JA succeeds iff its target starts a block, and then ends the block with a jump there |
| Translator.EmitBranch | compiler/src/jit/compiler.cpp:1148-1289 | a conditional jump succeeds iff both its target and pc+1 start blocks, and branches to the target or pc+1 |
| Translator.EmitCall | compiler/src/jit/compiler.cpp:1047-1136 | a local call needs the return block after it and a block at pc+imm+1; any other call is a helper call or fails |
| Translator.EmitAtomic | compiler/src/jit/compiler.cpp:1291-1378 | an atomic fails iff its immediate is neither CMPXCHG nor a supported operation (with or without fetch); CMPXCHG emits compare-exchange |
| Translator.LowerInsn | compiler/src/jit/compiler.cpp:439-483 | the register check comes first; a 32-bit load through a flagged register is a packet load and is the only source of packet loads |
| Translator.Append | compiler/src/jit/compiler.cpp:485-1384 | emitting adds to the current block only, and marks the builder broken iff code is added after a terminator |
| Translator.AppendOk | compiler/src/jit/compiler.cpp:485-1384 | appending a well-formed emission keeps every block well-formed |
| Translator.Walk | compiler/src/jit/compiler.cpp:421-1386 | the loop fails iff some instruction it visits fails, and then with the first such error; on success every block is well-formed |
| Translator.Step | compiler/src/jit/compiler.cpp:439-483 | one turn fails iff the first error from this pc on exists, and reports it |
| Translator.Continue | compiler/src/jit/compiler.cpp:477-483 | after a successful lowering the loop goes on from pc + width with updated flags, keeping the first-error property |
| Translator.Advance | compiler/src/jit/compiler.cpp:477-483 | applying an emission and the flag update keeps the builder well-formed |
| Translator.NextStart | compiler/src/jit/compiler.cpp:1388-1394 | the fall-through target is the first block start after k, and none exists iff no later index is marked |
| Translator.Finalize | compiler/src/jit/compiler.cpp:1388-1400 | unterminated blocks fall through to the next block; an invalid module (code after a terminator, or a last block without one) is the only failure |
| Translator.Translate | compiler/src/jit/compiler.cpp:172-174 | empty input is the "No instructions" error and nothing else is; the return blocks of a translated program are those the `i > 1` guard registers |
| Translator.TranslateWith | compiler/src/jit/compiler.cpp:172-1400 | given return blocks among the block starts, the result is the first instruction error, or else a well-formed program over the block starts with those return blocks, or the invalid-module error |
| Translator.TranslateFixed | compiler/src/jit/compiler.cpp:316-333 | with the corrected guard, every block after a local call is a return block of the translated program |
| Translator.RetGuardsAgree | compiler/src/jit/compiler.cpp:328-333 | without a local call at index 0 the two guards register the same blocks and translate identically |
| Translator.CallAtZeroRejected | compiler/src/jit/compiler.cpp:1075 | `call local; exit` fails with the missing return block of pc 0 as written, and has no instruction error with the corrected guard |
| Translator.WellFormedOf | compiler/src/jit/compiler.cpp:1388-1400 | a finalized program's blocks name only registers r0..r10 and existing blocks |
| Translator.LowerInsnMatchesCheck | compiler/src/jit/compiler.cpp:439-483 | whether an instruction fails, and with what error, does not depend on the flags |
| Translator.FirstError | compiler/src/jit/compiler.cpp:421-1386 | the first error along the visited instructions is never empty-input, invalid-module or block-not-found |
| Translator.ErrorFrom | compiler/src/jit/compiler.cpp:421-1386 | the same for the error at pc or after it |
| Translator.FirstErrorStep | compiler/src/jit/compiler.cpp:421-1386 | the first error from pc is the lowering's own error, or else the first error after its slots |
| Translator.BadRegisterFirst | compiler/src/jit/compiler.cpp:439-445 | example: an out-of-range register in the first instruction is the reported error whatever follows |
| Memory.Pow256Word | compiler/src/jit/compiler.cpp:784-802 | up to 8 bytes fit a 64-bit word; 4 and 8 bytes span exactly 2^32 and 2^64 |
| Memory.LoadLE | compiler/src/jit/compiler.cpp:784-802 | a load succeeds iff all its bytes are mapped, and its value fits its width |
| Memory.StoreLE | compiler/src/jit/compiler.cpp:758-781 | a store maps exactly its own bytes in addition and changes no other byte |
| Memory.LoadStore | compiler/src/jit/compiler.cpp:758-802 | reading back a store gives the stored value cut to the width |
| Memory.LoadUntouched | compiler/src/jit/compiler.cpp:758-802 | a load of bytes a store did not touch sees the old memory |
| Machine.SetReg | compiler/src/jit/compiler.cpp:269-278 | writing a register changes only that register |
| Machine.AtomicResult | compiler/src/jit/compiler.cpp:1291-1335 | an atomic read-modify-write result fits the access width |
| Machine.ExecOp | compiler/src/jit/compiler.cpp:485-1384 | no straight-line operation touches the call stack or its counter |
| Machine.ExecAtomic | compiler/src/jit/compiler.cpp:1291-1335 | an atomic operation changes no register except src, and src only with fetch |
| Machine.ExecCmpXchg | compiler/src/jit/compiler.cpp:1336-1368 | CMPXCHG puts the old memory value in r0 and changes no other register |
| Machine.ExecOps | compiler/src/jit/compiler.cpp:485-1384 | a block's operations never touch the call stack or its counter |
| Machine.Push | compiler/src/jit/compiler.cpp:1062-1125 | a local call adds 5 to the counter, keeps every slot below the old counter and registers r0..r9 |
| Machine.Pop | compiler/src/jit/compiler.cpp:345-391 | the return block subtracts 5 from the counter and keeps r0..r5, memory and the stack |
| Machine.ExecTerm | compiler/src/jit/compiler.cpp:1138-1146 | a terminator that continues leaves a valid state |
| Machine.ExitHaltsIff | compiler/src/jit/compiler.cpp:1138-1146 | EXIT returns r0 from the program iff the counter is 0 |
| Machine.CallThenReturn | compiler/src/jit/compiler.cpp:1062-1125 | a local call, a balanced callee and its EXIT come back to the return block with r6..r9 and the counter restored, r0..r5 as the callee left them, and r10 restored when the callee left it in place |
| Machine.FramesOverlapAsWritten | compiler/src/jit/compiler.cpp:1106-1117 | a call, which moves r10 by STACK_SIZE = 64 bytes, makes the callee's slot r10-8 the caller's slot r10-72, inside both 512-byte frames |
| Machine.PushFramePointer | compiler/src/jit/compiler.cpp:1106-1117 | a call moves r10 down by the frame step when it does not wrap |
| Machine.FramesDisjoint | compiler/src/jit/compiler.cpp:1106-1117 | with r10 moved by a whole frame, a callee store inside its frame changes no byte of the caller's frame |
| Machine.StepBlock | compiler/src/jit/compiler.cpp:426-434 | a block key that has no block is stuck; a jump always lands on an existing block with a valid state |
| Machine.TranslateLabelsFit | compiler/src/jit/compiler.cpp:1062-1080 | every return label of a translated program fits a 64-bit slot |
| Machine.RunFuelMono | compiler/src/jit/compiler.cpp:421 | more fuel does not change a run that already finished |
| Machine.RunIsTurn | compiler/src/jit/compiler.cpp:421 | a run with fuel is one block followed by a run with one less |
| Machine.TurnFuelMono | compiler/src/jit/compiler.cpp:421 | the same fuel monotonicity after the first block |
| Lowering.AluLowering | compiler/src/jit/compiler.cpp:492-740 | an ALU opcode's translation sets dst to `Alu.Apply` of dst and the source register or the widened immediate, and nothing else; a DIV or MOD by zero has no meaning, because its `udiv`/`urem` runs before the select |
| Lowering.DivideByZeroUndefined | compiler/src/jit/compiler.cpp:539-569 | in `mov64 r1, 0; div64 r0, r1; exit` the move sets r1 to 0 and the division then has no meaning, where the select intends r0 = 0 |
| Lowering.NegLowering | compiler/src/jit/compiler.cpp:653-661 | NEG sets dst to its negation |
| Lowering.LoadLowering | compiler/src/jit/compiler.cpp:784-802 | a load sets dst to the little-endian bytes of its size at src plus the signed offset, and has no meaning when they are not mapped |
| Lowering.StoreLowering | compiler/src/jit/compiler.cpp:758-781 | ST and STX write the sign-extended immediate or the register as bytes of their size at dst plus the signed offset, and change no register |
| Lowering.WideLowering | compiler/src/jit/compiler.cpp:806-1028 | a wide load that translates gives dst the value of section 5.4 of RFC 9669 over the translation's callbacks, or changes nothing for undefined kinds |
| Lowering.PacketLoadLowering | compiler/src/jit/compiler.cpp:453-481 | `ldxw` through a flagged register sets dst to the 32-bit word there plus the packet base |
| Lowering.BranchLowering | compiler/src/jit/compiler.cpp:1148-1289 | a conditional jump goes to its target iff its comparison with the register or sign-extended immediate holds, otherwise to pc+1 |
| Lowering.HelperCallLowering | compiler/src/jit/compiler.cpp:1126-1133 | a helper call sets r0 to the helper's result on r1..r5, and nothing else |
| Lowering.LocalCallLowering | compiler/src/jit/compiler.cpp:1062-1125 | a local call pushes pc+1 and r6..r9, moves r10 by STACK_SIZE and goes to its target |
| Lowering.AtomicLowering | compiler/src/jit/compiler.cpp:1291-1378 | an atomic opcode runs the read-modify-write its immediate selects, or compare-and-exchange |
| Lowering.FortyTwoTranslates | compiler/src/jit/compiler.cpp:172-1400 | `mov64 r0, 42; exit` translates to one block holding the move and EXIT |
| Lowering.ReturnsFortyTwo | compiler/src/jit/compiler.cpp:1138-1146 | running `mov64 r0, 42; exit` from any state with an empty call stack returns 42 |
| Machine.Setup | compiler/src/jit/compiler.cpp:269-308 | at entry r1 is the context, r2 its length, r10 the stack end and the counter 0 |
| Loader.DecodeInsn | src/jit/vm.cpp:46-47 | the opcode is the record's first byte |
| Loader.EncodeInsn | src/jit/vm.cpp:46-47 | an instruction is an 8-byte record starting with its opcode |
| Loader.DecodeEncode | src/jit/vm.cpp:46-47 | decoding an encoded instruction gives it back |
| Loader.EncodeDecode | src/jit/vm.cpp:46-47 | encoding a decoded record gives the record back |
| Loader.DecodeProgram | src/jit/vm.cpp:46-47 | len/8 instructions in order, one per record |
| Loader.EncodeProgram | src/jit/vm.cpp:46-47 | 8 bytes per instruction, each record in order |
| Loader.ProgramRoundTrip | src/jit/vm.cpp:40-49 | encoding then decoding a program gives it back |
| Loader.LoadCode | src/jit/compiler_xdp.cpp:115-124 | a length that is not a multiple of 8 returns -EINVAL with the message and keeps the instructions; otherwise 0 and exactly the len/8 records in order |
| Loader.DecodeIsInverse | src/jit/vm.cpp:40-49 | decoding a whole-record byte string and re-encoding gives it back |
| ExtTable.Empty | src/jit/compiler_xdp.cpp:89 | definition: a new table has 8192 empty entries |
| ExtTable.Register | src/jit/compiler_xdp.cpp:262-278 | -E2BIG iff the index is out of range, -EEXIST iff occupied, table unchanged then; on success only entry index changes, to (name, fn) |
| ExtTable.RegisterAll | src/jit/compiler_xdp.cpp:262-278 | a series of registrations keeps the table size |
| ExtTable.FirstRegistrationWins | src/jit/compiler_xdp.cpp:270-274 | after any series of registrations an entry holds what it held, or the first request for it |
| ExtTable.OccupiedBelow | src/jit/compiler_xdp.cpp:130-143 | the occupied indices below n, strictly ascending, all of them |
| ExtTable.ExtFuncNames | src/jit/compiler_xdp.cpp:130-143 | the name list is ext_func_sym(i) for each occupied i in ascending order |
| ExtTable.NamesDistinct | src/jit/compiler_xdp.cpp:130-143 | the helper names in that list are pairwise distinct |
| ExtTable.LddwHelperNames | src/jit/compiler_xdp.cpp:145-155 | the wide-load helper list holds the map-value helper iff map_val is set, and nothing else |
| CompilerXdp.New | src/jit/compiler_xdp.cpp:89 | a new compiler has no instructions, 8192 empty helper entries and no callbacks |
| CompilerXdp.LoadCode | src/jit/compiler_xdp.cpp:115-124 | -EINVAL and only the message changes when the length is not a multiple of 8; otherwise only the instructions change, to the len/8 records |
| CompilerXdp.LoadEncoded | src/jit/compiler_xdp.cpp:115-124 | loading an encoded program succeeds and holds exactly that program |
| CompilerXdp.RegisterExternalFunction | src/jit/compiler_xdp.cpp:262-278 | registration touches only the table, succeeding iff the index is in range and free |
| CompilerXdp.AotNamesOf | src/jit/compiler_xdp.cpp:128-155 | the names handed to the translator: one symbol per occupied index in order, and the map-value helper iff map_val is set |
| CompilerXdp.RegisteredIsDeclared | src/jit/compiler_xdp.cpp:130-143 | a successfully registered helper is among those declared to the translator |
| CompilerXdp.AotConfig | src/jit/compiler_xdp.cpp:158 | ahead-of-time translation does not patch map values and declares the map-value helper iff map_val is set |
| CompilerXdp.AotCompile | src/jit/compiler_xdp.cpp:158 | translation reports "No instructions" iff nothing is loaded; a success is a well-formed program entered at block 0 |
| CompilerXdp.FailedLoadKeepsProgram | src/jit/compiler_xdp.cpp:117-120 | after a refused load the compiler translates the same program as before and reports the length message |
| Vm.New | src/jit/vm.cpp:22-38 | a new vm has no instructions, no jitted function, no callbacks and 8192 empty helper entries |
| Vm.RegisterExternalFunction | src/jit/vm.cpp:22-38 | 0 iff the index is in range and free, -E2BIG iff out of range; a failure keeps the table; success sets only that entry; nothing but the table and message changes |
| Vm.LoadCode | src/jit/vm.cpp:40-49 | 0 iff the length is a multiple of 8, then the instructions are the records in order; otherwise -EINVAL and only the message changes |
| Vm.UnloadCode | src/jit/vm.cpp:51-54 | definition: only the instruction list changes, to empty |
| Vm.UnloadThenLoad | src/jit/vm.cpp:40-54 | loading after unloading is the same as loading, and yields exactly the encoded program |
| Vm.SetLddwHelpers | src/jit/vm.cpp:79-90 | definition: all five callbacks are replaced by the given ones and nothing else changes |
| Vm.Compile | src/jit/vm.cpp:97-103 | definition: the compile result, present or not, becomes the jitted function |
| Vm.LoadAotObject | src/jit/vm.cpp:105-115 | with a jitted function present: nothing returned, "Already compiled", function kept; otherwise the loaded entry becomes the jitted function |
| Vm.Exec | src/jit/vm.cpp:56-77 | an existing jitted function is called without compiling; otherwise a failed compile gives -1 and a successful one is recorded and called |
| Vm.ExecCompilesOnce | src/jit/vm.cpp:56-68 | after a successful exec, a second exec calls the same function and ignores any new compile result |
| Vm.ExecThenLoadAotRefused | src/jit/vm.cpp:105-111 | after a successful exec an AOT object is refused and the jitted function kept |
| JitVm.LoadCode | src/jit/bpftime_llvm_jit_vm.cpp:15-24 | 0 iff the length is a multiple of 8, with the len/8 records in order; otherwise -EINVAL and the instructions unchanged |
| JitVm.RefusedLoadMessage | src/jit/bpftime_llvm_jit_vm.cpp:10-20 | after a refused load only the message changes, and it reads "Code len must be a multiple of 8" |
| JitVm.LoadEncoded | src/jit/bpftime_llvm_jit_vm.cpp:15-24 | loading an encoded program succeeds with exactly that program |
| Symbols.IndexDigits | compiler/src/utils/bo.h:18 | the suffix is 4 digits below 10000 and the full decimal from 10000 on, and always reads back as the index |
| Symbols.PaddedDecimal | compiler/src/utils/bo.h:18 | `%04` pads to exactly 4 digits below 10000, never truncates above, and keeps the value |
| Symbols.ExtFuncSym | compiler/src/utils/bo.h:15-20 | the name is `_bpf_helper_ext_` followed by the index digits |
| Symbols.SymRoundTrip | compiler/src/utils/bo.h:18 | the index can be read back from the name |
| Symbols.SymInjective | compiler/src/utils/bo.h:18 | two indices give the same name iff they are equal |
| Symbols.SymFitsBuffer | compiler/src/utils/bo.h:17-18 | every name of a 32-bit index plus its NUL fits the 32-byte buffer |
| Symbols.SmallIndexLength | compiler/src/utils/bo.h:18 | names of indices below 10000 are exactly 20 characters |
| Symbols.ExampleSymPadded | compiler/src/utils/bo.h:18 | example: index 6 gives `_bpf_helper_ext_0006` |
| Symbols.ExampleSymWide | compiler/src/utils/bo.h:18 | example: index 12345 gives `_bpf_helper_ext_12345`, not truncated |
| Digits.DigitChar | rv64_baremetal_runtime/qemu_rv_uart.c:45 | a digit below 10 is a character '0'..'9' |
| Digits.Decimal | rv64_baremetal_runtime/qemu_rv_uart.c:44-46 | the decimal rendering has at least one character, all digits |
| Digits.PadLeft | rv64_baremetal_runtime/qemu_rv_uart.c:78-84 | padding reaches the width or keeps the text, ends with the text, and adds only '0' in front |
| Digits.ParseDecimalOfDecimal | rv64_baremetal_runtime/qemu_rv_uart.c:44-46 | the decimal rendering reads back as the number |
| Digits.ParseDecimalLeadingZeros | compiler/src/utils/bo.h:18 | leading zeros do not change the value read |
| Digits.DecimalLength | compiler/src/utils/bo.h:17-18 | a number below 10^k has at most k digits |
| Digits.DecimalLengthAtLeast | compiler/src/utils/bo.h:18 | a number at least 10^k has more than k digits |
| Digits.HexChar | rv64_baremetal_runtime/qemu_rv_uart.c:55 | a nibble is rendered as '0'..'9' or 'A'..'F' |
| Digits.Hex | rv64_baremetal_runtime/qemu_rv_uart.c:64-75 | the hexadecimal rendering has at least one digit |
| Digits.ParseHexOfHex | rv64_baremetal_runtime/qemu_rv_uart.c:64-75 | the hexadecimal rendering reads back as the number |
| Digits.ParseHexLeadingZeros | rv64_baremetal_runtime/qemu_rv_uart.c:78-84 | zero padding does not change the hexadecimal value |
| Digits.HexIsUpperCase | rv64_baremetal_runtime/qemu_rv_uart.c:55 | every hexadecimal digit is '0'..'9' or upper-case 'A'..'F' |
| Digits.Reverse | rv64_baremetal_runtime/qemu_rv_uart.c:25-35 | the reverse has the same length and position k holds the element at length-1-k |
| Uart.FirstNul | rv64_baremetal_runtime/qemu_rv_uart.c:185-194 | the first NUL: a NUL, with no NUL before it |
| Uart.CString | rv64_baremetal_runtime/qemu_rv_uart.c:16-19 | the text of a C string holds no NUL |
| Uart.CStringOfTerminated | rv64_baremetal_runtime/qemu_rv_uart.c:97-104 | a text without NUL, terminated, is read back as itself |
| Uart.Strlen | rv64_baremetal_runtime/qemu_rv_uart.c:185-194 | `strlen` returns the index of the first NUL, the length of the C string |
| Uart.UartPuts | rv64_baremetal_runtime/qemu_rv_uart.c:12-22 | exactly the characters before the NUL are sent, and their count is returned |
| Uart.Strcpy | rv64_baremetal_runtime/qemu_rv_uart.c:97-104 | the source up to and including its NUL is copied, the rest of dest is kept, and dest then holds the same C string |
| Uart.ReverseString | rv64_baremetal_runtime/qemu_rv_uart.c:25-35 | the first `length` characters are reversed and no other index changes; a length of 1 or less changes nothing |
| Uart.SwapEnds | rv64_baremetal_runtime/qemu_rv_uart.c:30-34 | one swap extends the reversed ends by one on each side |
| Uart.SignedDecimal | rv64_baremetal_runtime/qemu_rv_uart.c:37-51 | the text has at least one character, no NUL, and starts with '-' iff n < 0 |
| Uart.SignedDecimalRoundTrip | rv64_baremetal_runtime/qemu_rv_uart.c:37-51 | the signed text reads back as n |
| Uart.Itoa | rv64_baremetal_runtime/qemu_rv_uart.c:37-51 | corrected itoa, which takes the magnitude without 32-bit overflow: the buffer starts with the signed decimal and a NUL, the rest is untouched, and the C string reads back as n for every C int |
| Uart.PushSign | rv64_baremetal_runtime/qemu_rv_uart.c:47-48 | the '-' written after the reversed digits comes first once reversed |
| Uart.TerminateReversed | rv64_baremetal_runtime/qemu_rv_uart.c:49-50 | reversing the written characters in place and adding the NUL yields the text and a terminator, the rest untouched |
| Uart.DecimalDigitsReversed | rv64_baremetal_runtime/qemu_rv_uart.c:44-46 | the do-while loop writes the decimal digits least significant first, at least one, and nothing past them |
| Uart.ItoaParsesBack | rv64_baremetal_runtime/qemu_rv_uart.c:37-51 | the C string the code as written leaves is terminated, and reads back as n exactly when n is not INT_MIN |
| Uart.ItoaAsWritten | rv64_baremetal_runtime/qemu_rv_uart.c:37-51 | the code as written always ends in a NUL after at least one character |
| Uart.ItoaAsWrittenIntMin | rv64_baremetal_runtime/qemu_rv_uart.c:41-46 | for -2^31 the code as written produces "-(" instead of "-2147483648" |
| Uart.LastDigitIntMin | rv64_baremetal_runtime/qemu_rv_uart.c:41-46 | negating -2^31 wraps to itself, whose remainder gives the digit '(' and stops the loop |
| Uart.ItoaAsWrittenAgrees | rv64_baremetal_runtime/qemu_rv_uart.c:37-51 | for every other C int the code as written produces the signed decimal |
| Uart.DigitsAreReversedDecimal | rv64_baremetal_runtime/qemu_rv_uart.c:44-46 | on a non-negative value the digit loop writes the reverse of its decimal |
| Uart.Hextoa | rv64_baremetal_runtime/qemu_rv_uart.c:53-95 | the buffer starts with the upper-case hex of n, zero-padded to fixed_size, and a NUL; the rest is untouched |
| Uart.HexDigitsReversed | rv64_baremetal_runtime/qemu_rv_uart.c:64-75 | the digit loop writes the hex digits least significant first, a single '0' for 0 |
| Uart.PadReversed | rv64_baremetal_runtime/qemu_rv_uart.c:78-84 | the padding loop adds '0's until fixed_size digits, which end up in front once reversed |
| Uart.PadLeftIsZeros | rv64_baremetal_runtime/qemu_rv_uart.c:78-84 | padding is the missing number of zeros followed by the text |
| Uart.PadZeros | rv64_baremetal_runtime/qemu_rv_uart.c:79-83 | k turns of the padding loop put k zeros in front of the reversed text |
| Uart.PadOne | rv64_baremetal_runtime/qemu_rv_uart.c:81-82 | one turn adds one zero in front of the reversed text |
| Uart.HextoaParsesBack | rv64_baremetal_runtime/qemu_rv_uart.c:53-95 | the text `hextoa` writes reads back as n, has at least fixed_size digits (never truncated), all upper-case |
| Uart.ZerosThenHexText | rv64_baremetal_runtime/qemu_rv_uart.c:78-84 | zero padding keeps the text a hex text |
| UartVariant.HextoaAsWritten | examples/02_qemu_riscv/qemu_rv_uart.c:47-74 | as written, zero writes only the first character and no NUL; a non-zero value writes its hex and a NUL |
| UartVariant.ZeroKeepsStaleDigits | examples/02_qemu_riscv/qemu_rv_uart.c:54-57 | a buffer holding "7F" reads "0F" after `hextoa(0)` as written, not "0" |
| UartVariant.Hextoa | examples/02_qemu_riscv/qemu_rv_uart.c:47-74 | the buffer starts with the upper-case hex of n and a NUL in both cases, and its C string reads back as n |
| UartVariant.HexIsText | examples/02_qemu_riscv/qemu_rv_uart.c:49 | hex digits are never NUL |
| Printk.GetOrRebaseArg | rv64_baremetal_runtime/bpf_printk.c:36-48 | a pointer outside the stack is moved by the base modulo 2^64; a stack pointer is returned unchanged |
| Printk.RebaseRecoversOffset | rv64_baremetal_runtime/bpf_printk.c:36-46 | subtracting the base from a rebased pointer gives the original offset |
| Printk.Conversion | rv64_baremetal_runtime/bpf_printk.c:127-143 | d, x and c always produce text; only %s can fail, on an unterminated string; %d prints the signed decimal of the low 32 bits, except "-(" for INT_MIN, as `itoa` writes it |
| Printk.DecimalText | rv64_baremetal_runtime/bpf_printk.c:127-130 | the buffer `itoa` fills is terminated and reads as the signed decimal, or "-(" for INT_MIN |
| Printk.Prepend | rv64_baremetal_runtime/bpf_printk.c:107 | text printed before the rest of the scan keeps its argument count and stop reason |
| Printk.Scan | rv64_baremetal_runtime/bpf_printk.c:94-148 | the scan never consumes more arguments than were passed and never gives arguments back; it stops for want of an argument only once all are used, a string overrun has taken its argument, and the scanner itself never reports a NULL format |
| Printk.ConversionStep | rv64_baremetal_runtime/bpf_printk.c:125-148 | S2 on d, x, s or c: no argument left stops the scan, a string off readable memory stops it after taking its argument, otherwise the conversion's text comes first and S0 resumes after it with one more argument used |
| Printk.Directive | rv64_baremetal_runtime/bpf_printk.c:94-148 | '%', width digits and one character, from S0 wherever it starts: an unknown character is skipped with nothing printed and no argument used, and d, x, s or c reach S2 with the decimal value of the digits as the width |
| Printk.BpfPrintk | rv64_baremetal_runtime/bpf_printk.c:52-154 | the helper consumes at most the arguments passed |
| Printk.LiteralRun | rv64_baremetal_runtime/bpf_printk.c:94-109 | a run of literal characters below fmt_size is copied to the output unchanged |
| Printk.PlainText | rv64_baremetal_runtime/bpf_printk.c:94-109 | a format without '%' prints its text up to the NUL, cut at fmt_size, and consumes no argument |
| Printk.WidthRun | rv64_baremetal_runtime/bpf_printk.c:112-122 | a run of digits after '%' folds into the width as width*10 + digit |
| Printk.FoldWidthIsDecimal | rv64_baremetal_runtime/bpf_printk.c:114-119 | the folded width is the decimal value of the digits |
| Printk.ParseDecimalHead | rv64_baremetal_runtime/bpf_printk.c:114-119 | the value of a digit run is its first digit times 10^(n-1) plus the value of the rest |
| Printk.HexWidth | rv64_baremetal_runtime/bpf_printk.c:131-134 | "%<digits>x" prints the hex of the argument's low 32 bits, zero-padded to the decimal width |
| Printk.HexDirectiveAtEnd | rv64_baremetal_runtime/bpf_printk.c:131-148 | an 'x' before the NUL prints the padded hex and then ends the scan |
| Printk.DirectivePastSize | rv64_baremetal_runtime/bpf_printk.c:96-105 | example: the '%' test comes before the size test, so "a%c" with fmt_size 1 still prints the character |
| Printk.UnknownConversionSkipped | rv64_baremetal_runtime/bpf_printk.c:127-146 | example: an unknown conversion consumes no argument: "%q%d" prints only the one argument |
| Printk.WidthResets | rv64_baremetal_runtime/bpf_printk.c:145 | after a conversion the next directive starts again from width 0 |
| PrintkVariant.BpfPrintk | examples/99_baremetal_runtime/bpf_printk.c:57-95 | a format below 0x80000000 is relocated into the read-only data and one relocated to NULL prints the fixed complaint and nothing else; any other is read where it points |
| PrintkVariant.ScanFrom | examples/99_baremetal_runtime/bpf_printk.c:112-173 | the scanner consumes at most the arguments passed and never reports a NULL format |
| PrintkVariant.AgreesWithRuntime | examples/99_baremetal_runtime/bpf_printk.c:81-95 | for a low format offset outside the stack that does not relocate to NULL, the example helper and the runtime's print the same |
| Packets.GetNextPktEnd | rv64_baremetal_runtime/load_pkt_from_mem.c:22-62 | returns the index just past the first run of four 0xFFFF words; none iff the region holds no such run |
| Packets.LoadPacketArr | rv64_baremetal_runtime/load_pkt_from_mem.c:64-91 | each packet starts where the previous ended, ends after its stop run, has ingress 99 and other fields 0; a region that runs out ends the last packet at NULL |
| Packets.Contiguous | rv64_baremetal_runtime/load_pkt_from_mem.c:90 | each packet's data is the previous packet's data_end |
| Packets.FirstStopUnique | rv64_baremetal_runtime/load_pkt_from_mem.c:36-56 | the end of a packet is determined by where it starts |

## Left out

- LLVM objects are not modelled: `IRBuilder`, basic-block and block-address values, `verifyModule`, optimisation passes and object emission. Blocks and their code are abstract. The only module failure modelled is code after a block's terminator, or a last block without one.
- `code_gen.h` and `ebpf_inst.h` are not part of this model. Their contents become parameters: `is_jmp`, the byte-swap and helper-call emitters' acceptance, and the result of an external helper call. Opcode constants and `EBPF_STACK_SIZE` = 512 follow RFC 9669.
- `src/jit/context.cpp` is not part of this model. Its `compile` result and its loaded AOT entry are parameters of `Vm.Compile`, `Vm.Exec` and `Vm.LoadAotObject`.
- Pthread spinlocks, the `llvm_initialized` flag and the memory ordering of atomic operations are left out. Only the sequential effect of atomics is modelled.
- The 16-bit loop counter of `generateModule` is not modelled. Instead, `Translator.Translate` requires at most 65535 instructions (`MaxInsns`).
- The call stack's capacity (320 slots) is never checked by the source. A call beyond it is `Stuck` in the machine, and no safety is claimed for it.
- A jump or call whose target is out of range makes the source index a missing block. The model reports `JumpTargetMissing` instead.
- Translator.EmitCall: a local call without a registered return block is the error `ReturnBlockMissing`, where the source only asserts and then indexes a missing map entry.
- Machine.ExecAtomic: XCHG is emitted with fetch=false as in the source, so src does not receive the old value, unlike RFC 9669.
- Uart.UartPuts: the UART MMIO busy-wait is left out. Output is the sequence of characters sent.
- The runtime's `printf` and every `DEBUG_PRINTK` branch are diagnostic output and are left out.
- `print_curr_pkt` is left out, and so are the diagnostic prints of the packet loader.
- Uart.Hextoa: requires that the padded text and its NUL fit the buffer. The printk helper's 32-byte buffer overflows for widths of 32 or more, and that overflow is not modelled.
- Printk.Scan: the width is an unbounded integer. The C `int` overflow of `len * 10 + digit` on very long digit runs is not modelled.
- Printk.Scan: the contract bounds the arguments consumed and the stop reasons; the output is stated by `LiteralRun` and `PlainText` (S0), `WidthRun` and `Directive` (S1), and `ConversionStep`, `HexDirectiveAtEnd` and `WidthResets` (S2).
- Printk.Conversion: readable memory is a function from an address to characters. A `%s` string without a NUL in readable memory stops the scan with `StringOverrun` instead of reading on.
- Printk.BpfPrintk: the variadic argument list is a sequence of 64-bit words. A call that asks for more arguments than were passed stops with `ArgsExhausted`.
- Packets.LoadPacketArr: the result stops at the first packet whose region ran out (its end is NULL). The source would go on scanning from NULL.
- Packets.GetNextPktEnd: the region is a sequence of whole 16-bit words. An odd-length region, where the end pointer is never met, is not modelled.
- Machine.FramesOverlapAsWritten: states the address overlap of the caller's and callee's frames. It does not model a whole run that corrupts data.
- Printk.BpfPrintk: the contract only bounds the argument count. Its behaviour is stated by the lemmas about `Scan`: `LiteralRun`, `PlainText`, `Directive`, `ConversionStep`, `HexWidth` and `WidthResets`.
- Translator.Walk: the builder's block contents are stated through well-formedness and the first-error property, not instruction by instruction.
- Blocks.SplitBlocks: a jump whose target is outside the program marks nothing in the model. The source writes `blocks[target]` of a `std::vector<bool>` without a bounds check, which is undefined behaviour (compiler/src/jit/compiler.cpp:135).
- Translator.Emit: the contract states the width, well-formedness and the errors; what each opcode's translation does on the machine is stated by the `Lowering` lemmas.
- TaintSound.StraightSound: flag soundness is proved along straight-line runs up to the first terminator. Runs across jumps, calls and returns are not covered: the source computes the flags in program order, and `TaintSound.JumpSkipsCopy` shows a jump that makes them unsound. No flow-sensitive correction is modelled.
- TaintSound.StepSound: a helper call with a non-zero dst field also leaves a stale r0 flag; it is one of the hazards, but no lemma exhibits it.
- Machine.ExecTerm: the contract only keeps the state valid; the jump, call and EXIT behaviour is stated by `Lowering.BranchLowering`, `Lowering.LocalCallLowering` and `Machine.ExitHaltsIff`.
- The example programs, ELF loading, the command-line drivers and the host-side helper implementations are outside the core.

## Findings

| source | as written | input that shows it | evidently intended | confidence | as-written member | corrected member |
|---|---|---|---|---|---|---|
| compiler/src/jit/compiler.cpp:545-563 | the select that gives 0 for a zero divisor takes an unconditional `udiv` as its other operand, which LLVM leaves undefined for a zero divisor; MOD at 668-682 is the same with `urem` | `mov64 r1, 0; div64 r0, r1; exit` divides by zero | branch around the division, or divide by a non-zero stand-in, so DIV by zero gives 0 and MOD by zero keeps dst | not executed | Lowering.DivideByZeroUndefined | Alu.ZeroDivisor |
| compiler/src/jit/compiler.cpp:328-333 | a block becomes a local-call return block only when `i > 1` | a local call at index 0 followed by EXIT: block 1 starts a block but is not registered, so the call site's assertion fails | `i >= 1`: every block after a local call is a return block | not executed | Translator.CallAtZeroRejected | Translator.TranslateFixed |
| compiler/src/jit/compiler.cpp:380-386 | a local call moves r10 by `STACK_SIZE` = 64, a count of 8-byte words, used as bytes | any callee storing at r10-8 writes the caller's slot at r10-72 inside the caller's 512-byte frame | move r10 by a whole frame, `STACK_SIZE * 8` = 512 bytes | not executed | Machine.FramesOverlapAsWritten | Machine.FramesDisjoint |
| compiler/src/jit/compiler.cpp:140-154 | only the dst field's flag is cleared, but an atomic fetch writes the old memory word into src | `atomic64 fetch_add [r2+0], r1` with r1 the context, then `ldxw r0, [r1+0]`: the load is rebased though r1 no longer holds the context | clear the flag of every register the instruction writes | not executed | TaintSound.FetchKeepsStaleFlag | TaintSound.StepSoundFixed |
| compiler/src/jit/compiler.cpp:140-154 | only the dst field's flag is cleared, but CMPXCHG writes the old memory word into r0 | `mov64 r0, r1; cmpxchg64 [r2+0], r3; ldxw r4, [r0+0]`: the load is rebased though r0 holds a memory word | clear r0's flag after CMPXCHG | not executed | TaintSound.CmpXchgKeepsStaleFlag | Taint.UpdateFixed |
| compiler/src/jit/compiler.cpp:140-154 | a 32-bit register move copies the flag, but it copies only the low half of the context pointer | a context above 4 GiB, `mov32 r2, r1; ldxw r0, [r2+0]`: the truncated pointer is rebased as if it were the context | propagate the flag on 64-bit moves only | not executed | TaintSound.Mov32KeepsFlagOnTruncated | TaintSound.StraightSound |
| compiler/src/jit/compiler.cpp:140-154 | dst's flag is cleared before src's is tested | `mov64 r1, r1; ldxw r0, [r1+0]`: the load through the context is not rebased | take the copy before the clear | not executed | TaintSound.MovSelfSkipsRebase | Taint.FixedMovSelfKeepsTaint |
| rv64_baremetal_runtime/qemu_rv_uart.c:41-46 | `n = -n` on INT_MIN wraps to INT_MIN, and `n % 10 + '0'` is '0' - 8 | `itoa(-2147483648, buf)` writes "-(" | "-2147483648" | not executed | Uart.ItoaAsWrittenIntMin | Uart.Itoa |
| examples/02_qemu_riscv/qemu_rv_uart.c:54-57 | for 0 only `buffer[0]` is written, with no terminator | a buffer holding "7F" reads "0F" afterwards | "0" followed by a NUL, as on the non-zero path | not executed | UartVariant.ZeroKeepsStaleDigits | UartVariant.Hextoa |

=== FILE: alu.dfy ===
/**
  What the arithmetic instructions compute, as emitted by the translator:
  unsigned division that yields 0 for a zero divisor, unsigned remainder
  that leaves the destination unchanged for a zero divisor, and shift
  counts reduced modulo the operand width (section 4.1 of RFC 9669).
  The 32-bit class works on the low halves and zero-extends its result.
 */
module Alu {
  import opened Isa
  import Memory

  /** The low 32 bits of a word. */
  function Lo32(x: int): U32 {
    x % TwoTo32
  }

  // Bitwise operations go through the machine representation.

  function BitAnd(d: U64, s: U64): U64 { AsWord(Bits(d) & Bits(s)) }
  function BitOr(d: U64, s: U64): U64 { AsWord(Bits(d) | Bits(s)) }
  function BitXor(d: U64, s: U64): U64 { AsWord(Bits(d) ^ Bits(s)) }

  function Bits(x: U64): bv64 { x as bv64 }
  function AsWord(b: bv64): U64 { b as int }

  /** Left shift within `w` bits: the bits shifted past the top are lost. */
  function Shl(d: U64, n: nat, w: int): (r: U64)
    requires w == 32 || w == 64
    requires n < w
  {
    (d * Pow2(n)) % (if w == 32 then TwoTo32 else TwoTo64)
  }

  /** Logical right shift. */
  function Shr(d: U64, n: nat): (r: U64)
    requires n < 64
    ensures r <= d
  {
    DivAtMost(d, Pow2(n));
    d / Pow2(n)
  }

  lemma DivAtMost(a: nat, b: nat)
    requires b >= 1
    ensures 0 <= a / b <= a
  {
  }

  /**
    Arithmetic right shift within `w` bits: the sign bit (bit w-1) is
    copied into the vacated bits, so the result read in two's complement is
    the signed value divided by 2^n, rounded down.
   */
  function Sar(d: U64, n: nat, w: int): (r: U64)
    requires w == 32 || w == 64
    requires n < w
    requires w == 32 ==> d < TwoTo32
    ensures w == 32 ==> r < TwoTo32
    ensures var m := if w == 32 then TwoTo32 else TwoTo64;
      Signed(r, m) == Signed(d, m) / Pow2(n)
  {
    var m := if w == 32 then TwoTo32 else TwoTo64;
    var p := Pow2(n);
    if d < m / 2 then
      DivAtMost(d, p);
      d / p
    else
      DivAtMost(m - 1 - d, p);
      NegDiv(m - d, p);
      m - 1 - (m - 1 - d) / p
  }

  /** Floor division of a negative number: -x divided by p is -1 minus (x-1) divided by p. */
  lemma NegDiv(x: int, p: int)
    requires x >= 1 && p >= 1
    ensures (-x) / p == -1 - (x - 1) / p
  {
    var q := (x - 1) / p;
    var r := (x - 1) % p;
    assert x - 1 == p * q + r;
    assert -x == p * (-1 - q) + (p - 1 - r);
    Memory.ModUnique(-x, p, -1 - q, p - 1 - r);
  }

  /** A shift by zero leaves the value as it is. */
  lemma ShiftByZero(d: U64, w: int)
    requires w == 32 || w == 64
    requires w == 32 ==> d < TwoTo32
    ensures Shl(d, 0, w) == d && Shr(d, 0) == d && Sar(d, 0, w) == d
  {
    assert Pow2(0) == 1;
  }

  function Pow2(n: nat): (p: nat)
    ensures p >= 1
  {
    if n == 0 then 1 else 2 * Pow2(n - 1)
  }

  /** Unsigned division; for a zero divisor, the 0 the emitted select intends. */
  function UDiv(d: U64, s: U64): (r: U64)
    ensures s == 0 ==> r == 0
    ensures s != 0 ==> r * s <= d < (r + 1) * s
  {
    if s == 0 then 0 else d / s
  }

  /** Unsigned remainder; for a zero divisor, the dividend the emitted select intends. */
  function UMod(d: U64, s: U64): (r: U64)
    ensures s == 0 ==> r == d
    ensures s != 0 ==> r < s && r <= d
  {
    if s == 0 then d else d % s
  }

  /** The 64-bit class (ALU64). */
  function Alu64(op: AluOp, d: U64, s: U64): U64 {
    match op
    case Add => (d + s) % TwoTo64
    case Sub => (d - s) % TwoTo64
    case Mul => (d * s) % TwoTo64
    case Div => UDiv(d, s)
    case Or => BitOr(d, s)
    case And => BitAnd(d, s)
    case Lsh => Shl(d, s % 64, 64)
    case Rsh => Shr(d, s % 64)
    case Mod => UMod(d, s)
    case Xor => BitXor(d, s)
    case Mov => s
    case Arsh => Sar(d, s % 64, 64)
  }

  /**
    The 32-bit class (ALU). Both operands are 32-bit values, so the final
    reduction to 32 bits only matters for the wrapping operations.
   */
  function Alu32(op: AluOp, d: U32, s: U32): U32 {
    Lo32(match op
      case Add => d + s
      case Sub => (d - s) % TwoTo32
      case Mul => d * s
      case Div => UDiv(d, s)
      case Or => BitOr(d, s)
      case And => BitAnd(d, s)
      case Lsh => Shl(d, s % 32, 32)
      case Rsh => Shr(d, s % 32)
      case Mod => UMod(d, s)
      case Xor => BitXor(d, s)
      case Mov => s
      case Arsh => Sar(d, s % 32, 32))
  }

  /**
    The new destination value. The 32-bit class computes on the low halves
    and zero-extends its result into the 64-bit register.
   */
  function Apply(op: AluOp, is64: bool, d: U64, s: U64): (r: U64)
    ensures !is64 ==> r < TwoTo32
    ensures var m := if is64 then TwoTo64 else TwoTo32;
      var a := if is64 then d else Lo32(d);
      var b := if is64 then s else Lo32(s);
      var n := b % (if is64 then 64 else 32);
      match op
      case Add => r == (a + b) % m
      case Sub => r == (a - b) % m
      case Mul => r == (a * b) % m
      case Div => r == UDiv(a, b)
      case Mod => r == UMod(a, b)
      case Or => r == (if is64 then BitOr(a, b) else Lo32(BitOr(a, b)))
      case And => r == (if is64 then BitAnd(a, b) else Lo32(BitAnd(a, b)))
      case Xor => r == (if is64 then BitXor(a, b) else Lo32(BitXor(a, b)))
      case Mov => r == b
      case Lsh => r == (a * Pow2(n)) % m
      case Rsh => r == a / Pow2(n)
      case Arsh => Signed(r, m) == Signed(a, m) / Pow2(n)
  {
    if is64 then
      Alu64Meaning(op, d, s);
      Alu64(op, d, s)
    else
      Alu32Meaning(op, Lo32(d), Lo32(s));
      Alu32(op, Lo32(d), Lo32(s))
  }

  /** What each 64-bit operation computes, in terms of numbers. */
  lemma Alu64Meaning(op: AluOp, a: U64, b: U64)
    ensures var r := Alu64(op, a, b);
      var n := b % 64;
      match op
      case Add => r == (a + b) % TwoTo64
      case Sub => r == (a - b) % TwoTo64
      case Mul => r == (a * b) % TwoTo64
      case Div => r == UDiv(a, b)
      case Mod => r == UMod(a, b)
      case Or => r == BitOr(a, b)
      case And => r == BitAnd(a, b)
      case Xor => r == BitXor(a, b)
      case Mov => r == b
      case Lsh => r == (a * Pow2(n)) % TwoTo64
      case Rsh => r == a / Pow2(n)
      case Arsh => Signed(r, TwoTo64) == Signed(a, TwoTo64) / Pow2(n)
  {
    match op
    case Add =>
    case Sub =>
    case Mul =>
    case Div =>
    case Mod =>
    case Or =>
    case And =>
    case Xor =>
    case Mov =>
    case Lsh =>
    case Rsh =>
    case Arsh =>
  }

  /** What each 32-bit operation computes on the low halves, in terms of numbers. */
  lemma Alu32Meaning(op: AluOp, a: U32, b: U32)
    ensures var r := Alu32(op, a, b);
      var n := b % 32;
      match op
      case Add => r == (a + b) % TwoTo32
      case Sub => r == (a - b) % TwoTo32
      case Mul => r == (a * b) % TwoTo32
      case Div => r == UDiv(a, b)
      case Mod => r == UMod(a, b)
      case Or => r == Lo32(BitOr(a, b))
      case And => r == Lo32(BitAnd(a, b))
      case Xor => r == Lo32(BitXor(a, b))
      case Mov => r == b
      case Lsh => r == (a * Pow2(n)) % TwoTo32
      case Rsh => r == a / Pow2(n)
      case Arsh => Signed(r, TwoTo32) == Signed(a, TwoTo32) / Pow2(n)
  {
    match op
    case Add =>
    case Sub =>
    case Mul =>
    case Div => Alu32DivMod(a, b);
    case Mod => Alu32DivMod(a, b);
    case Or =>
    case And =>
    case Xor =>
    case Mov =>
    case Lsh =>
    case Rsh => Alu32Shifts(a, b);
    case Arsh => Alu32Shifts(a, b);
  }

  /** The 32-bit quotient and remainder already fit in 32 bits. */
  lemma Alu32DivMod(a: U32, b: U32)
    ensures Alu32(Div, a, b) == UDiv(a, b) && Alu32(Mod, a, b) == UMod(a, b)
  {
    if b != 0 {
      DivAtMost(a, b);
    }
    assert Lo32(UDiv(a, b)) == UDiv(a, b);
    assert Lo32(UMod(a, b)) == UMod(a, b);
  }

  /** The 32-bit right shifts already fit in 32 bits. */
  lemma Alu32Shifts(a: U32, b: U32)
    ensures Alu32(Rsh, a, b) == a / Pow2(b % 32)
    ensures Signed(Alu32(Arsh, a, b), TwoTo32) == Signed(a, TwoTo32) / Pow2(b % 32)
  {
    assert Lo32(Shr(a, b % 32)) == Shr(a, b % 32);
    assert Lo32(Sar(a, b % 32, 32)) == Sar(a, b % 32, 32);
  }

  /**
    An immediate operand: sign-extended for the 64-bit class, so that it
    keeps its signed value, and taken as is for the 32-bit class.
   */
  function ImmOperand(is64: bool, imm: U32): (s: U64)
    ensures Lo32(s) == imm
    ensures is64 ==> Signed(s, TwoTo64) == Signed(imm, TwoTo32)
    ensures !is64 ==> s == imm
  {
    if is64 then Sext32(imm) else imm
  }

  /** Adding and then subtracting the same operand gives the destination back, in either class. */
  lemma AddSubInverse(is64: bool, d: U64, s: U64)
    ensures Apply(Sub, is64, Apply(Add, is64, d, s), s) == if is64 then d else Lo32(d)
  {
    var m := if is64 then TwoTo64 else TwoTo32;
    var a := if is64 then d else Lo32(d);
    var b := if is64 then s else Lo32(s);
    var x := Apply(Add, is64, d, s);
    if a + b < m {
      assert x == a + b;
    } else {
      assert x == a + b - m;
      assert (a - m) % m == a;
    }
    assert (if is64 then x else Lo32(x)) == x;
  }

  /** Negation (NEG / NEG64): the additive inverse modulo the width. */
  function Neg(is64: bool, d: U64): (r: U64)
    ensures is64 ==> (r + d) % TwoTo64 == 0
    ensures !is64 ==> r < TwoTo32 && (r + Lo32(d)) % TwoTo32 == 0
  {
    if is64 then (0 - d) % TwoTo64 else (0 - Lo32(d)) % TwoTo32
  }

  // Properties of the emitted arithmetic.

  /** Quotient and remainder fit together: d == q*s + r with r < s, for a nonzero divisor. */
  lemma DivModIdentity(d: U64, s: U64)
    requires s != 0
    ensures UDiv(d, s) * s + UMod(d, s) == d
    ensures UMod(d, s) < s
  {
  }

  /**
    A DIV or MOD whose divisor (its low word in the 32-bit class) is zero.
    The emitted code selects the guarded value, but the `udiv`/`urem` that
    feeds the select runs whatever the comparison says, and division by
    zero is undefined behaviour in LLVM.
   */
  predicate ZeroDivide(op: AluOp, is64: bool, s: U64) {
    (op == Div || op == Mod) && (if is64 then s else Lo32(s)) == 0
  }

  /**
    The values the select intends for a zero divisor: DIV gives 0 and MOD
    keeps the dividend, in both classes.
   */
  lemma ZeroDivisor(d: U64, is64: bool)
    ensures Apply(Div, is64, d, 0) == 0
    ensures Apply(Mod, is64, d, 0) == (if is64 then d else Lo32(d))
  {
  }

  /** Division is unsigned: all-ones divided by 2 is 2^63 - 1 (a signed division would give 0). */
  lemma DivIsUnsigned()
    ensures Alu64(Div, TwoTo64 - 1, 2) == TwoTo64 / 2 - 1
    ensures Alu64(Mod, TwoTo64 - 1, 2) == 1
    ensures Alu32(Div, TwoTo32 - 1, 2) == TwoTo32 / 2 - 1
  {
  }

  /** Shift counts are taken modulo the width, so a count of 65 shifts by 1 and 64 by nothing. */
  lemma ShiftCountWraps64(op: AluOp, d: U64, s: U64)
    requires op == Lsh || op == Rsh || op == Arsh
    ensures Alu64(op, d, s) == Alu64(op, d, s % 64)
    ensures Alu64(op, d, 65) == Alu64(op, d, 1)
    ensures Alu64(op, d, 64) == d
  {
    assert s % 64 % 64 == s % 64 && 65 % 64 == 1 % 64 && 64 % 64 == 0;
    ShiftByZero(d, 64);
  }

  lemma ShiftCountWraps32(op: AluOp, d: U32, s: U32)
    requires op == Lsh || op == Rsh || op == Arsh
    ensures Alu32(op, d, s) == Alu32(op, d, s % 32)
    ensures Alu32(op, d, 33) == Alu32(op, d, 1)
    ensures Alu32(op, d, 32) == d
  {
    assert s % 32 % 32 == s % 32 && 33 % 32 == 1 % 32 && 32 % 32 == 0;
    ShiftByZero(d, 32);
  }

  /** Arithmetic shift agrees with the logical one on non-negative values and keeps the sign of negative ones. */
  lemma SarSign(d: U64, n: nat)
    requires n < 64
    ensures d < TwoTo64 / 2 ==> Sar(d, n, 64) == Shr(d, n)
    ensures d >= TwoTo64 / 2 ==> Sar(d, n, 64) >= TwoTo64 / 2
  {
    if d >= TwoTo64 / 2 {
      var x := TwoTo64 - 1 - d;
      assert x / Pow2(n) <= x;
    }
  }

  /** Shifting left by n multiplies by 2^n, modulo the width. */
  lemma ShlIsMultiply(d: U64, n: nat)
    requires n < 64
    ensures Alu64(Lsh, d, n) == (d * Pow2(n)) % TwoTo64
    ensures n == 1 ==> Alu64(Lsh, d, n) == (2 * d) % TwoTo64
  {
    assert n % 64 == n;
    assert Alu64(Lsh, d, n) == Shl(d, n, 64);
  }

  /** A 32-bit operation never leaves anything in the upper half of the register. */
  lemma Alu32ZeroExtends(op: AluOp, d: U64, s: U64)
    ensures Apply(op, false, d, s) / TwoTo32 == 0
  {
  }
}

=== FILE: blocks.dfy ===
/**
  Partitioning the instruction list into basic blocks. An index starts a
  block when it is the first instruction, when the instruction before it is
  a jump, or when some jump targets it; which instructions count as jumps is
  decided by the translator's `is_jmp`, which is a parameter here.
  Also the return blocks of program-local calls: the block right after each
  local call, whose address the call pushes as its return target.
 */
module Blocks {
  import opened Isa

  /** Where the jump at `j` lands: one past `j`, moved by the signed offset. */
  function JumpTarget(insns: seq<Insn>, j: int): int
    requires 0 <= j < |insns|
  {
    j + SignedOff(insns[j]) + 1
  }

  /** Index `i` starts a block. */
  predicate Marked(isJmp: Insn -> bool, insns: seq<Insn>, i: int) {
    0 <= i < |insns| &&
    (i == 0 || isJmp(insns[i - 1]) ||
     exists j :: 0 <= j < |insns| && isJmp(insns[j]) && JumpTarget(insns, j) == i)
  }

  /** The marks once the first `n` instructions have been looked at. */
  predicate MarkedBefore(isJmp: Insn -> bool, insns: seq<Insn>, n: int, i: int)
    requires 0 <= n <= |insns|
  {
    0 <= i < |insns| &&
    (i == 0 || (i < n && isJmp(insns[i - 1])) ||
     exists j :: 0 <= j < n && isJmp(insns[j]) && JumpTarget(insns, j) == i)
  }

  /** The block-start vector: one flag per instruction. */
  function BlockBegin(isJmp: Insn -> bool, insns: seq<Insn>): (marks: seq<bool>)
    ensures |marks| == |insns|
    ensures forall i :: 0 <= i < |insns| ==> (marks[i] <==> Marked(isJmp, insns, i))
  {
    seq(|insns|, i requires 0 <= i < |insns| => Marked(isJmp, insns, i))
  }

  /**
    The marking loop: index 0, then for every instruction the one after a
    jump and the target of a jump. A target outside the program is not
    recorded (writing it would be out of bounds).
   */
  method SplitBlocks(isJmp: Insn -> bool, insns: seq<Insn>) returns (marks: seq<bool>)
    requires |insns| >= 1
    ensures |marks| == |insns|
    ensures forall i :: 0 <= i < |insns| ==> (marks[i] <==> Marked(isJmp, insns, i))
    ensures marks == BlockBegin(isJmp, insns)
  {
    marks := seq(|insns|, _ => false);
    marks := marks[0 := true];
    var i := 0;
    while i < |insns|
      invariant 0 <= i <= |insns|
      invariant |marks| == |insns|
      invariant forall k :: 0 <= k < |insns| ==> (marks[k] <==> MarkedBefore(isJmp, insns, i, k))
    {
      if i > 0 && isJmp(insns[i - 1]) {
        marks := marks[i := true];
      }
      if isJmp(insns[i]) {
        var t := JumpTarget(insns, i);
        if 0 <= t < |insns| {
          marks := marks[t := true];
        }
      }
      i := i + 1;
    }
  }

  /** Every jump ends its block and starts one at its target, when those are in range. */
  lemma JumpMarks(isJmp: Insn -> bool, insns: seq<Insn>, j: int)
    requires 0 <= j < |insns| && isJmp(insns[j])
    ensures j + 1 < |insns| ==> BlockBegin(isJmp, insns)[j + 1]
    ensures 0 <= JumpTarget(insns, j) < |insns| ==> BlockBegin(isJmp, insns)[JumpTarget(insns, j)]
  {
  }

  /** Without jumps the whole program is a single block. */
  lemma {:induction false} StraightLine(isJmp: Insn -> bool, insns: seq<Insn>)
    requires forall j :: 0 <= j < |insns| ==> !isJmp(insns[j])
    ensures forall i :: 0 <= i < |insns| ==> (BlockBegin(isJmp, insns)[i] <==> i == 0)
  {
    forall i | 0 <= i < |insns|
      ensures BlockBegin(isJmp, insns)[i] <==> i == 0
    {
      if i > 0 {
        assert !isJmp(insns[i - 1]);
      }
    }
  }

  /**
    Return blocks as the block creation loop registers them: a block start
    `i` whose predecessor is a local call, guarded by `i > 1`.
   */
  function RetBlocksAsWritten(isJmp: Insn -> bool, insns: seq<Insn>): set<nat> {
    set i: nat | i < |insns| && Marked(isJmp, insns, i) && i > 1 && IsLocalCall(insns[i - 1])
  }

  /** Return blocks with the guard the call site relies on: every block after a local call. */
  function RetBlocks(isJmp: Insn -> bool, insns: seq<Insn>): (r: set<nat>)
    ensures forall i :: i in r <==> 1 <= i < |insns| && Marked(isJmp, insns, i) && IsLocalCall(insns[i - 1])
  {
    set i: nat | i < |insns| && Marked(isJmp, insns, i) && i >= 1 && IsLocalCall(insns[i - 1])
  }

  /**
    When local calls are jumps, the instruction after every local call in
    range has a return block, which is what the call site asserts.
   */
  lemma CallsHaveReturnBlocks(isJmp: Insn -> bool, insns: seq<Insn>, pc: nat)
    requires pc + 1 < |insns| && IsLocalCall(insns[pc]) && isJmp(insns[pc])
    ensures pc + 1 in RetBlocks(isJmp, insns)
  {
    assert Marked(isJmp, insns, pc + 1);
  }

  /**
    With the `i > 1` guard a local call in the first slot gets no return
    block, although the block after it exists (whenever calls count as jumps).
   */
  lemma CallAtZeroHasNoReturnBlock(isJmp: Insn -> bool)
    requires isJmp(Insn(OP_CALL, 0, 1, 0, 0))
    ensures var insns := [Insn(OP_CALL, 0, 1, 0, 0), Insn(OP_EXIT, 0, 0, 0, 0)];
      Marked(isJmp, insns, 1) && 1 !in RetBlocksAsWritten(isJmp, insns) && 1 in RetBlocks(isJmp, insns)
  {
    var insns := [Insn(OP_CALL, 0, 1, 0, 0), Insn(OP_EXIT, 0, 0, 0, 0)];
    assert isJmp(insns[0]);
    assert Marked(isJmp, insns, 1);
  }

  /** The two guards agree everywhere except at index 1. */
  lemma RetBlocksDifferOnlyAtOne(isJmp: Insn -> bool, insns: seq<Insn>)
    ensures RetBlocks(isJmp, insns) - {1} == RetBlocksAsWritten(isJmp, insns)
    ensures RetBlocksAsWritten(isJmp, insns) <= RetBlocks(isJmp, insns)
  {
  }
}

=== FILE: compiler_xdp.dfy ===
/**
  The ahead-of-time front end: it holds the loaded instructions, the table
  of external helpers and the wide load callbacks, and hands module
  generation the helper names it must declare. Its wide load callbacks are
  never set, so they all stay absent.
 */
module CompilerXdp {
  import opened Wrappers
  import opened Isa
  import Loader
  import ExtTable
  import Lddw
  import Symbols
  import opened Translator

  datatype Compiler = Compiler(
    insts: seq<Insn>,
    extFuncs: ExtTable.Table,
    errorMsg: seq<char>,
    resolvers: Lddw.Resolvers)

  /** A fresh front end: no instructions, an empty helper table, no callbacks. */
  function New(): (c: Compiler)
    ensures c.insts == [] && |c.extFuncs| == ExtTable.MaxExtFuncs && c.resolvers == Lddw.NoResolvers
    ensures forall i :: 0 <= i < |c.extFuncs| ==> c.extFuncs[i].None?
  {
    Compiler([], ExtTable.Empty(), "", Lddw.NoResolvers)
  }

  function GetErrorMessage(c: Compiler): seq<char> {
    c.errorMsg
  }

  /** `load_code`: the buffer's records replace the instructions, or -EINVAL leaves them. */
  function LoadCode(c: Compiler, code: seq<Byte>): (r: (Compiler, int))
    ensures r.1 == 0 <==> |code| % Loader.InsnBytes == 0
    ensures r.1 != 0 ==> r.1 == -Loader.EINVAL && r.0 == c.(errorMsg := Loader.CodeLenMessage)
    ensures r.1 == 0 ==> r.0 == c.(insts := r.0.insts) && |r.0.insts| == |code| / Loader.InsnBytes
    ensures r.1 == 0 ==> Loader.EncodeProgram(r.0.insts) == code
  {
    var l := Loader.LoadCode(c.insts, c.errorMsg, code);
    (c.(insts := l.insns, errorMsg := l.errorMsg), l.ret)
  }

  /** Loading the encoding of a program loads exactly that program. */
  lemma LoadEncoded(c: Compiler, p: seq<Insn>)
    ensures LoadCode(c, Loader.EncodeProgram(p)).1 == 0
    ensures LoadCode(c, Loader.EncodeProgram(p)).0.insts == p
  {
    Loader.ProgramRoundTrip(p);
  }

  function RegisterExternalFunction(c: Compiler, index: nat, name: seq<char>, fn: nat): (r: (Compiler, int))
    ensures r.0.insts == c.insts && r.0.resolvers == c.resolvers
    ensures r.0.extFuncs == ExtTable.Register(c.extFuncs, c.errorMsg, index, name, fn).table
    ensures r.1 == 0 <==> index < |c.extFuncs| && c.extFuncs[index].None?
  {
    var reg := ExtTable.Register(c.extFuncs, c.errorMsg, index, name, fn);
    (c.(extFuncs := reg.table, errorMsg := reg.errorMsg), reg.ret)
  }

  /** The names module generation declares: every registered helper's symbol, and the map-value helper if its callback is set. */
  datatype AotNames = AotNames(extFuncNames: seq<seq<char>>, lddwHelpers: seq<seq<char>>)

  method AotNamesOf(c: Compiler) returns (r: AotNames)
    requires |c.extFuncs| <= 0x1_0000_0000
    ensures |r.extFuncNames| == |ExtTable.Occupied(c.extFuncs)|
    ensures forall k :: 0 <= k < |r.extFuncNames| ==>
      r.extFuncNames[k] == Symbols.ExtFuncSym(ExtTable.Occupied(c.extFuncs)[k])
    ensures ExtTable.LddwHelperMapVal in r.lddwHelpers <==> c.resolvers.mapVal.Some?
    ensures |r.lddwHelpers| <= 1
  {
    var names := ExtTable.ExtFuncNames(c.extFuncs);
    r := AotNames(names, ExtTable.LddwHelperNames(c.resolvers.mapVal.Some?));
  }

  /**
    After a successful registration the helper's symbol is among the names
    handed to module generation.
   */
  lemma RegisteredIsDeclared(c: Compiler, index: nat, name: seq<char>, fn: nat)
    requires |c.extFuncs| <= 0x1_0000_0000
    requires RegisterExternalFunction(c, index, name, fn).1 == 0
    ensures index in ExtTable.Occupied(RegisterExternalFunction(c, index, name, fn).0.extFuncs)
  {
  }

  /**
    Module generation as the ahead-of-time path calls it: map values are not
    patched at translation time, and only the declared wide load helper may
    be called at run time. The jump test, the byte-swap emitter's and the
    helper-call emitter's acceptance are not part of this model and are
    given.
   */
  function AotConfig(c: Compiler, isJmp: Insn -> bool, endianOk: Insn -> bool, helperOk: U32 -> bool): (cfg: Config)
    ensures !cfg.patchMapVal && cfg.resolvers == c.resolvers
    ensures ExtTable.LddwHelperMapVal in cfg.lddwHelpers <==> c.resolvers.mapVal.Some?
  {
    Config(isJmp, endianOk, helperOk, c.resolvers, false, ExtTable.LddwHelperNames(c.resolvers.mapVal.Some?))
  }

  function AotCompile(c: Compiler, isJmp: Insn -> bool, endianOk: Insn -> bool, helperOk: U32 -> bool): (r: Result<Program, Error>)
    requires |c.insts| <= MaxInsns
    ensures r.Failure? && r.error == NoInstructions <==> c.insts == []
    ensures r.Success? ==> 0 in r.value.blocks && WellFormed(r.value)
  {
    Translate(AotConfig(c, isJmp, endianOk, helperOk), c.insts)
  }

  /** A refused buffer changes nothing the compiler would translate. */
  lemma FailedLoadKeepsProgram(c: Compiler, code: seq<Byte>, isJmp: Insn -> bool, endianOk: Insn -> bool, helperOk: U32 -> bool)
    requires |c.insts| <= MaxInsns && |code| % Loader.InsnBytes != 0
    ensures |LoadCode(c, code).0.insts| <= MaxInsns
    ensures AotCompile(LoadCode(c, code).0, isJmp, endianOk, helperOk) == AotCompile(c, isJmp, endianOk, helperOk)
    ensures GetErrorMessage(LoadCode(c, code).0) == Loader.CodeLenMessage
  {
  }
}

=== FILE: digits.dfy ===
/**
  Reference renderings of naturals as decimal and upper-case hexadecimal
  text, most significant digit first, with their parsers. The formatting
  routines of the helper-symbol namer and of the bare-metal runtime are
  proved against these.
 */
module Digits {

  function DigitChar(d: nat): (c: char)
    requires d < 10
    ensures '0' <= c <= '9'
  {
    (48 + d) as char
  }

  function DigitValue(c: char): nat {
    if '0' <= c <= '9' then c as int - 48 else 0
  }

  predicate IsDigit(c: char) { '0' <= c <= '9' }

  /** `n` in decimal: at least one digit, no leading zero. */
  function Decimal(n: nat): (s: seq<char>)
    ensures |s| >= 1
    ensures forall k :: 0 <= k < |s| ==> IsDigit(s[k])
    decreases n
  {
    if n < 10 then [DigitChar(n)] else Decimal(n / 10) + [DigitChar(n % 10)]
  }

  /** Value of a run of decimal digits. */
  function ParseDecimal(s: seq<char>): nat
    decreases |s|
  {
    if |s| == 0 then 0 else ParseDecimal(s[..|s| - 1]) * 10 + DigitValue(s[|s| - 1])
  }

  function Zeros(k: nat): (s: seq<char>)
    ensures |s| == k
    ensures forall j :: 0 <= j < k ==> s[j] == '0'
  {
    if k == 0 then [] else Zeros(k - 1) + ['0']
  }

  /** Left-pads `s` with '0' up to `width` characters; never truncates. */
  function PadLeft(s: seq<char>, width: int): (r: seq<char>)
    ensures |r| == if width > |s| then width else |s|
    ensures r[|r| - |s|..] == s
    ensures forall j :: 0 <= j < |r| - |s| ==> r[j] == '0'
  {
    if width > |s| then Zeros(width - |s|) + s else s
  }

  function Pow10(k: nat): (p: nat)
    ensures p >= 1
  {
    if k == 0 then 1 else 10 * Pow10(k - 1)
  }

  lemma {:induction false} ParseDecimalOfDecimal(n: nat)
    ensures ParseDecimal(Decimal(n)) == n
    decreases n
  {
    if n < 10 {
      assert Decimal(n)[..0] == [];
    } else {
      var s := Decimal(n);
      assert s[..|s| - 1] == Decimal(n / 10);
      ParseDecimalOfDecimal(n / 10);
    }
  }

  lemma {:induction false} ParseDecimalLeadingZeros(k: nat, s: seq<char>)
    ensures ParseDecimal(Zeros(k) + s) == ParseDecimal(s)
    decreases |s|, k
  {
    if |s| == 0 {
      assert Zeros(k) + s == Zeros(k);
      if k > 0 {
        assert Zeros(k)[..k - 1] == Zeros(k - 1);
        ParseDecimalLeadingZeros(k - 1, []);
        assert Zeros(k - 1) + [] == Zeros(k - 1);
      }
    } else {
      var t := Zeros(k) + s;
      assert t[..|t| - 1] == Zeros(k) + s[..|s| - 1];
      ParseDecimalLeadingZeros(k, s[..|s| - 1]);
    }
  }

  /** A decimal rendering has at most `k` digits exactly when the value is below 10^k. */
  lemma {:induction false} DecimalLength(n: nat, k: nat)
    requires 1 <= k && n < Pow10(k)
    ensures |Decimal(n)| <= k
    decreases n
  {
    if n >= 10 {
      assert k >= 2;
      assert n / 10 < Pow10(k - 1);
      DecimalLength(n / 10, k - 1);
    }
  }

  lemma {:induction false} DecimalLengthAtLeast(n: nat, k: nat)
    requires n >= Pow10(k)
    ensures |Decimal(n)| > k
    decreases n
  {
    if k > 0 {
      assert n >= 10;
      assert n / 10 >= Pow10(k - 1);
      DecimalLengthAtLeast(n / 10, k - 1);
    }
  }

  // Hexadecimal, upper-case digits as in the runtime's "0123456789ABCDEF" table.

  function HexChar(d: nat): (c: char)
    requires d < 16
    ensures ('0' <= c <= '9') || ('A' <= c <= 'F')
  {
    if d < 10 then (48 + d) as char else (55 + d) as char
  }

  function HexValue(c: char): nat {
    if '0' <= c <= '9' then c as int - 48
    else if 'A' <= c <= 'F' then c as int - 55
    else 0
  }

  function Hex(n: nat): (s: seq<char>)
    ensures |s| >= 1
    decreases n
  {
    if n < 16 then [HexChar(n)] else Hex(n / 16) + [HexChar(n % 16)]
  }

  function ParseHex(s: seq<char>): nat
    decreases |s|
  {
    if |s| == 0 then 0 else ParseHex(s[..|s| - 1]) * 16 + HexValue(s[|s| - 1])
  }

  lemma {:induction false} ParseHexOfHex(n: nat)
    ensures ParseHex(Hex(n)) == n
    decreases n
  {
    if n < 16 {
      assert Hex(n)[..0] == [];
    } else {
      var s := Hex(n);
      assert s[..|s| - 1] == Hex(n / 16);
      ParseHexOfHex(n / 16);
    }
  }

  lemma {:induction false} ParseHexLeadingZeros(k: nat, s: seq<char>)
    ensures ParseHex(Zeros(k) + s) == ParseHex(s)
    decreases |s|, k
  {
    if |s| == 0 {
      assert Zeros(k) + s == Zeros(k);
      if k > 0 {
        assert Zeros(k)[..k - 1] == Zeros(k - 1);
        ParseHexLeadingZeros(k - 1, []);
        assert Zeros(k - 1) + [] == Zeros(k - 1);
      }
    } else {
      var t := Zeros(k) + s;
      assert t[..|t| - 1] == Zeros(k) + s[..|s| - 1];
      ParseHexLeadingZeros(k, s[..|s| - 1]);
    }
  }

  /** Text made of '0'-'9' and 'A'-'F' only. */
  predicate HexText(s: seq<char>) {
    forall k :: 0 <= k < |s| ==> ('0' <= s[k] <= '9') || ('A' <= s[k] <= 'F')
  }

  /** Every hex rendering uses only the upper-case digit table. */
  lemma {:induction false} HexIsUpperCase(n: nat)
    ensures HexText(Hex(n))
    decreases n
  {
    if n >= 16 {
      HexIsUpperCase(n / 16);
    }
  }

  /** Sequence reversal, the reference for the runtime's in-place reversals. */
  function Reverse<T>(s: seq<T>): (r: seq<T>)
    ensures |r| == |s|
    ensures forall k :: 0 <= k < |s| ==> r[k] == s[|s| - 1 - k]
  {
    if |s| == 0 then [] else Reverse(s[1..]) + [s[0]]
  }
}

=== FILE: exttable.dfy ===
/**
  The bounded table of external helpers both front ends keep: slot `i`
  holds at most one (name, function) pair, an out-of-range index is refused
  with -E2BIG and an occupied slot with -EEXIST, so a registration never
  overwrites an earlier one.
 */
module ExtTable {
  import opened Wrappers
  import opened Loader
  import Symbols

  const MaxExtFuncs: nat := 8192

  /** A helper: its name and an opaque handle standing for the host function pointer. */
  datatype ExtFunc = ExtFunc(name: seq<char>, fn: nat)

  type Table = seq<Option<ExtFunc>>

  const IndexTooLarge: seq<char> := "Index too large"
  const AlreadyDefined: seq<char> := "Already defined"

  function Empty(): (t: Table)
    ensures |t| == MaxExtFuncs
    ensures forall i :: 0 <= i < |t| ==> t[i] == None
  {
    seq(MaxExtFuncs, _ => None)
  }

  /** The table, the front end's error message and the return code after one registration. */
  datatype Registered = Registered(table: Table, errorMsg: seq<char>, ret: int)

  function Register(t: Table, errorMsg: seq<char>, index: nat, name: seq<char>, fn: nat): (r: Registered)
    ensures r.ret in {0, -E2BIG, -EEXIST}
    ensures r.ret == -E2BIG <==> index >= |t|
    ensures r.ret == -EEXIST <==> index < |t| && t[index].Some?
    ensures r.ret != 0 ==> r.table == t
    ensures r.ret == -E2BIG ==> r.errorMsg == IndexTooLarge
    ensures r.ret == -EEXIST ==> r.errorMsg == AlreadyDefined
    ensures r.ret == 0 ==> r.errorMsg == errorMsg
    ensures |r.table| == |t|
    ensures forall j :: 0 <= j < |t| && j != index ==> r.table[j] == t[j]
    ensures r.ret == 0 ==> r.table[index] == Some(ExtFunc(name, fn))
  {
    if index >= |t| then Registered(t, IndexTooLarge, -E2BIG)
    else if t[index].Some? then Registered(t, AlreadyDefined, -EEXIST)
    else Registered(t[index := Some(ExtFunc(name, fn))], errorMsg, 0)
  }

  /** A registration request as a host program issues it. */
  datatype Request = Request(index: nat, name: seq<char>, fn: nat)

  /** The table after a series of registrations, return codes ignored. */
  function RegisterAll(t: Table, reqs: seq<Request>): (r: Table)
    ensures |r| == |t|
    decreases |reqs|
  {
    if |reqs| == 0 then t
    else RegisterAll(Register(t, [], reqs[0].index, reqs[0].name, reqs[0].fn).table, reqs[1..])
  }

  /** The first request that names a slot is the one that fills it, whatever follows. */
  function FirstFor(reqs: seq<Request>, i: nat): Option<ExtFunc>
    decreases |reqs|
  {
    if |reqs| == 0 then None
    else if reqs[0].index == i then Some(ExtFunc(reqs[0].name, reqs[0].fn))
    else FirstFor(reqs[1..], i)
  }

  /**
    No overwrite: an occupied slot keeps its helper through any series of
    registrations, and an empty slot ends up with the first request naming it.
   */
  lemma {:induction false} FirstRegistrationWins(t: Table, reqs: seq<Request>, i: nat)
    requires i < |t|
    ensures t[i].Some? ==> RegisterAll(t, reqs)[i] == t[i]
    ensures t[i].None? ==> RegisterAll(t, reqs)[i] == FirstFor(reqs, i)
    decreases |reqs|
  {
    if |reqs| > 0 {
      var t' := Register(t, [], reqs[0].index, reqs[0].name, reqs[0].fn).table;
      FirstRegistrationWins(t', reqs[1..], i);
    }
  }

  /** Occupied slot indices below `n`, in ascending order. */
  function OccupiedBelow(t: Table, n: nat): (r: seq<nat>)
    requires n <= |t|
    ensures forall k :: 0 <= k < |r| ==> r[k] < n && t[r[k]].Some?
    ensures forall k, l :: 0 <= k < l < |r| ==> r[k] < r[l]
    ensures forall i :: 0 <= i < n && t[i].Some? ==> i in r
  {
    if n == 0 then [] else OccupiedBelow(t, n - 1) + (if t[n - 1].Some? then [n - 1] else [])
  }

  function Occupied(t: Table): seq<nat> {
    OccupiedBelow(t, |t|)
  }

  /**
    The helper names handed to module generation: the symbol of every occupied
    slot, lowest index first.
   */
  method ExtFuncNames(t: Table) returns (names: seq<seq<char>>)
    requires |t| <= 0x1_0000_0000
    ensures |names| == |Occupied(t)|
    ensures forall k :: 0 <= k < |names| ==> names[k] == Symbols.ExtFuncSym(Occupied(t)[k])
  {
    names := [];
    var i := 0;
    while i < |t|
      invariant 0 <= i <= |t|
      invariant |names| == |OccupiedBelow(t, i)|
      invariant forall k :: 0 <= k < |names| ==> names[k] == Symbols.ExtFuncSym(OccupiedBelow(t, i)[k])
    {
      if t[i].Some? {
        names := names + [Symbols.ExtFuncSym(i)];
      }
      i := i + 1;
    }
  }

  /** The names are pairwise distinct, so module generation declares each helper once. */
  lemma NamesDistinct(t: Table, names: seq<seq<char>>)
    requires |t| <= 0x1_0000_0000
    requires |names| == |Occupied(t)|
    requires forall k :: 0 <= k < |names| ==> names[k] == Symbols.ExtFuncSym(Occupied(t)[k])
    ensures forall k, l :: 0 <= k < l < |names| ==> names[k] != names[l]
  {
    var occ := Occupied(t);
    forall k, l | 0 <= k < l < |names|
      ensures names[k] != names[l]
    {
      Symbols.SymInjective(occ[k], occ[l]);
    }
  }

  const LddwHelperMapVal: seq<char> := "__lddw_helper_map_val"

  /** Only the map-value helper can be reached at run time, and only when its callback is set. */
  function LddwHelperNames(mapValSet: bool): (names: seq<seq<char>>)
    ensures LddwHelperMapVal in names <==> mapValSet
    ensures |names| <= 1
  {
    if mapValSet then [LddwHelperMapVal] else []
  }
}

=== FILE: isa.dfy ===
/**
  The decoded eBPF instruction record and the opcode table the translator
  accepts. Opcode values follow section 5 of RFC 9669 (the BPF ISA) and the
  uBPF constant names the translator's switch uses (EBPF_OP_ADD64_IMM, ...).

  Fixed-width quantities are integers constrained to their range; wrap-around
  is written out as a reduction modulo the width wherever the hardware
  would wrap.
 */
module Isa {
  import opened Wrappers

  const TwoTo16: int := 0x1_0000
  const TwoTo32: int := 0x1_0000_0000
  const TwoTo64: int := 0x1_0000_0000_0000_0000

  type Byte = x: int | 0 <= x < 0x100
  type Nibble = x: int | 0 <= x < 0x10
  type U16 = x: int | 0 <= x < TwoTo16
  type U32 = x: int | 0 <= x < TwoTo32
  /** A register or memory word: an unsigned 64-bit value. */
  type U64 = x: int | 0 <= x < TwoTo64

  /** One 8-byte instruction: opcode, two 4-bit register fields, 16-bit offset, 32-bit immediate. */
  datatype Insn = Insn(code: Byte, dst: Nibble, src: Nibble, off: U16, imm: U32)

  /** Highest register index the translator accepts (r0..r10). */
  const MaxReg: int := 10

  predicate RegsOk(i: Insn) {
    i.dst <= MaxReg && i.src <= MaxReg
  }

  /** Two's-complement reading of an unsigned `m`-bit value (`m` given as 2^bits). */
  function Signed(x: int, m: int): (r: int)
    requires m == TwoTo16 || m == TwoTo32 || m == TwoTo64
    requires 0 <= x < m
    ensures -m / 2 <= r < m / 2
    ensures r >= 0 <==> x < m / 2
    ensures r % m == x
  {
    if x < m / 2 then x else x - m
  }

  /** Sign extension of an unsigned `m`-bit value to 64 bits. */
  function Sext(x: int, m: int): (r: U64)
    requires m == TwoTo16 || m == TwoTo32
    requires 0 <= x < m
    ensures r % m == x
    ensures r == Signed(x, m) % TwoTo64
    ensures x < m / 2 ==> r == x
    ensures x >= m / 2 ==> r / m == TwoTo64 / m - 1
  {
    if x < m / 2 then x else x + (TwoTo64 - m)
  }

  /** The offset as a signed 16-bit number. */
  function SignedOff(i: Insn): (r: int)
    ensures -0x8000 <= r < 0x8000
    ensures r >= 0 <==> i.off < 0x8000
  {
    Signed(i.off, TwoTo16)
  }

  /** An `(int64_t)` cast of a 32-bit immediate, as a 64-bit word. */
  function Sext32(v: U32): (r: U64)
    ensures r % TwoTo32 == v
    ensures v < 0x8000_0000 ==> r == v
    ensures v >= 0x8000_0000 ==> r / TwoTo32 == TwoTo32 - 1
  {
    Sext(v, TwoTo32)
  }

  // Opcodes the translator tests by value outside its main switch.
  const OP_LDDW: Byte := 0x18
  const OP_LDXW: Byte := 0x61
  const OP_MOV_REG: Byte := 0xbc
  const OP_MOV64_REG: Byte := 0xbf
  const OP_MOV64_IMM: Byte := 0xb7
  const OP_CALL: Byte := 0x85
  const OP_EXIT: Byte := 0x95

  // Immediates of the atomic instructions (section 5.3 of RFC 9669).
  const ATOMIC_ADD: U32 := 0x00
  const ATOMIC_OR: U32 := 0x40
  const ATOMIC_AND: U32 := 0x50
  const ATOMIC_XOR: U32 := 0xa0
  const FETCH: U32 := 0x01
  const XCHG: U32 := 0xe1
  const CMPXCHG: U32 := 0xf1

  datatype AluOp = Add | Sub | Mul | Div | Or | And | Lsh | Rsh | Mod | Xor | Mov | Arsh
  datatype CmpOp = Eq | Gt | Ge | Set | Ne | Sgt | Sge | Lt | Le | Slt | Sle
  datatype Size = B | H | W | DW

  /**
    The bytes a load or store moves. The size field of the opcode (bits
    3-4) reads 0 for a word, 1 for a half word, 2 for a byte and 3 for a
    double word.
   */
  function Bytes(s: Size): (n: nat)
    ensures n in {1, 2, 4, 8}
    ensures n == [4, 2, 1, 8][SizeBits(s)]
  {
    match s
    case B => 1
    case H => 2
    case W => 4
    case DW => 8
  }

  /** The opcode families the translator's switch distinguishes. */
  datatype Kind =
    | AluK(op: AluOp, is64: bool, useReg: bool)
    | NegK(is64: bool)
    | EndK(toBig: bool)
    | LdxK(size: Size)
    | StK(size: Size)
    | StxK(size: Size)
    | LddwK
    | JaK
    | JmpK(cmp: CmpOp, is32: bool, useReg: bool)
    | CallK(workaround: bool)
    | ExitK
    | AtomicK(is64: bool)

  /** Operation field (bits 4-7) of an arithmetic opcode. */
  function AluOpBits(op: AluOp): (b: nat)
    ensures b < 16
  {
    match op
    case Add => 0x0
    case Sub => 0x1
    case Mul => 0x2
    case Div => 0x3
    case Or => 0x4
    case And => 0x5
    case Lsh => 0x6
    case Rsh => 0x7
    case Mod => 0x9
    case Xor => 0xa
    case Mov => 0xb
    case Arsh => 0xc
  }

  function AluOpOf(bits: nat): Option<AluOp> {
    if bits == 0x0 then Some(Add)
    else if bits == 0x1 then Some(Sub)
    else if bits == 0x2 then Some(Mul)
    else if bits == 0x3 then Some(Div)
    else if bits == 0x4 then Some(Or)
    else if bits == 0x5 then Some(And)
    else if bits == 0x6 then Some(Lsh)
    else if bits == 0x7 then Some(Rsh)
    else if bits == 0x9 then Some(Mod)
    else if bits == 0xa then Some(Xor)
    else if bits == 0xb then Some(Mov)
    else if bits == 0xc then Some(Arsh)
    else None
  }

  /** Operation field (bits 4-7) of a conditional jump. */
  function CmpBits(c: CmpOp): (b: nat)
    ensures b < 16
  {
    match c
    case Eq => 0x1
    case Gt => 0x2
    case Ge => 0x3
    case Set => 0x4
    case Ne => 0x5
    case Sgt => 0x6
    case Sge => 0x7
    case Lt => 0xa
    case Le => 0xb
    case Slt => 0xc
    case Sle => 0xd
  }

  function CmpOf(bits: nat): Option<CmpOp> {
    if bits == 0x1 then Some(Eq)
    else if bits == 0x2 then Some(Gt)
    else if bits == 0x3 then Some(Ge)
    else if bits == 0x4 then Some(Set)
    else if bits == 0x5 then Some(Ne)
    else if bits == 0x6 then Some(Sgt)
    else if bits == 0x7 then Some(Sge)
    else if bits == 0xa then Some(Lt)
    else if bits == 0xb then Some(Le)
    else if bits == 0xc then Some(Slt)
    else if bits == 0xd then Some(Sle)
    else None
  }

  /** Size field (bits 3-4) of a load or store. */
  function SizeBits(s: Size): (b: nat)
    ensures b < 4
  {
    match s
    case W => 0
    case H => 1
    case B => 2
    case DW => 3
  }

  function SizeOf(bits: nat): Size {
    if bits == 0 then W else if bits == 1 then H else if bits == 2 then B else DW
  }

  function RegBit(useReg: bool): nat { if useReg then 8 else 0 }

  /** The opcode byte of each family member: the constants of the translator's switch. */
  function Encode(k: Kind): Byte {
    match k
    case AluK(op, is64, useReg) => AluOpBits(op) * 16 + RegBit(useReg) + (if is64 then 0x07 else 0x04)
    case NegK(is64) => if is64 then 0x87 else 0x84
    case EndK(toBig) => if toBig then 0xdc else 0xd4
    case LdxK(s) => 0x61 + SizeBits(s) * 8
    case StK(s) => 0x62 + SizeBits(s) * 8
    case StxK(s) => 0x63 + SizeBits(s) * 8
    case LddwK => 0x18
    case JaK => 0x05
    case JmpK(c, is32, useReg) => CmpBits(c) * 16 + RegBit(useReg) + (if is32 then 0x06 else 0x05)
    case CallK(w) => if w then 0x8d else 0x85
    case ExitK => 0x95
    case AtomicK(is64) => if is64 then 0xdb else 0xc3
  }

  /**
    Which switch case an opcode byte selects, or None for the translator's
    "Unsupported or illegal opcode" default. The class is bits 0-2, the
    source bit is bit 3 and the operation is bits 4-7; loads and stores are
    recognised by class and mode with the size in bits 3-4.
   */
  function Classify(code: Byte): Option<Kind> {
    var cls := code % 8;
    var hi := code / 16;
    var useReg := (code / 8) % 2 == 1;
    if cls == 0x04 || cls == 0x07 then
      if hi == 0x8 then (if useReg then None else Some(NegK(cls == 0x07)))
      else if hi == 0xd then (if cls == 0x04 then Some(EndK(useReg)) else None)
      else match AluOpOf(hi)
        case Some(op) => Some(AluK(op, cls == 0x07, useReg))
        case None => None
    else if cls == 0x05 || cls == 0x06 then
      if code == 0x05 then Some(JaK)
      else if cls == 0x05 && hi == 0x8 then Some(CallK(useReg))
      else if code == 0x95 then Some(ExitK)
      else match CmpOf(hi)
        case Some(c) => Some(JmpK(c, cls == 0x06, useReg))
        case None => None
    else if code == 0x18 then Some(LddwK)
    else if code / 32 == 3 && cls == 1 then Some(LdxK(SizeOf((code / 8) % 4)))
    else if code / 32 == 3 && cls == 2 then Some(StK(SizeOf((code / 8) % 4)))
    else if code / 32 == 3 && cls == 3 then Some(StxK(SizeOf((code / 8) % 4)))
    else if code == 0xc3 then Some(AtomicK(false))
    else if code == 0xdb then Some(AtomicK(true))
    else None
  }

  /** How an opcode byte splits into operation, source bit and class, and back. */
  lemma Fields(code: Byte)
    ensures code == (code / 16) * 16 + ((code / 8) % 2) * 8 + code % 8
    ensures (code / 8) % 4 == ((code / 16) % 2) * 2 + (code / 8) % 2
    ensures code / 32 == (code / 16) / 2
  {
    var d8, d16, d32 := code / 8, code / 16, code / 32;
    assert code == 8 * d8 + code % 8;
    assert d8 == 2 * d16 + d8 % 2;
    assert d16 == 2 * d32 + d16 % 2;
    assert d8 == 4 * d32 + d8 % 4;
  }

  lemma FieldsOf(hi: nat, bit3: nat, cls: nat)
    requires hi < 16 && bit3 < 2 && cls < 8
    ensures var c := hi * 16 + bit3 * 8 + cls;
      c % 8 == cls && c / 16 == hi && (c / 8) % 2 == bit3
  {
  }

  /** Every family member's opcode byte is recognised as that member. */
  lemma ClassifyEncode(k: Kind)
    ensures Classify(Encode(k)) == Some(k)
  {
    match k
    case AluK(op, is64, useReg) => ClassifyAlu(op, is64, useReg);
    case JmpK(c, is32, useReg) => ClassifyJmp(c, is32, useReg);
    case LdxK(s) => ClassifyMem(s, 1);
    case StK(s) => ClassifyMem(s, 2);
    case StxK(s) => ClassifyMem(s, 3);
    case _ =>
  }

  lemma ClassifyAlu(op: AluOp, is64: bool, useReg: bool)
    ensures Classify(Encode(AluK(op, is64, useReg))) == Some(AluK(op, is64, useReg))
  {
    FieldsOf(AluOpBits(op), if useReg then 1 else 0, if is64 then 7 else 4);
    assert AluOpOf(AluOpBits(op)) == Some(op);
  }

  lemma ClassifyJmp(c: CmpOp, is32: bool, useReg: bool)
    ensures Classify(Encode(JmpK(c, is32, useReg))) == Some(JmpK(c, is32, useReg))
  {
    FieldsOf(CmpBits(c), if useReg then 1 else 0, if is32 then 6 else 5);
    assert CmpOf(CmpBits(c)) == Some(c);
  }

  lemma ClassifyMem(s: Size, cls: nat)
    requires 1 <= cls <= 3
    ensures var code := 0x60 + cls + SizeBits(s) * 8;
      0 <= code < 0x100 &&
      Classify(code) == Some(if cls == 1 then LdxK(s) else if cls == 2 then StK(s) else StxK(s))
  {
    FieldsOf(6 + SizeBits(s) / 2, SizeBits(s) % 2, cls);
  }

  /** Every recognised opcode byte is the encoding of the family member it selects: the table is injective. */
  lemma EncodeClassify(code: Byte)
    requires Classify(code).Some?
    ensures Encode(Classify(code).value) == code
  {
    Fields(code);
    var cls := code % 8;
    if cls == 4 || cls == 7 {
      EncodeClassifyAlu(code);
    } else if cls == 5 || cls == 6 {
      EncodeClassifyJmp(code);
    } else if code != 0x18 && code / 32 == 3 && 1 <= cls <= 3 {
      EncodeClassifyMem(code);
    }
  }

  lemma EncodeClassifyAlu(code: Byte)
    requires code % 8 == 4 || code % 8 == 7
    requires Classify(code).Some?
    requires code == (code / 16) * 16 + ((code / 8) % 2) * 8 + code % 8
    ensures Encode(Classify(code).value) == code
  {
    var k := Classify(code).value;
    if k.AluK? {
      assert AluOpBits(k.op) == code / 16;
    }
  }

  lemma EncodeClassifyJmp(code: Byte)
    requires code % 8 == 5 || code % 8 == 6
    requires Classify(code).Some?
    requires code == (code / 16) * 16 + ((code / 8) % 2) * 8 + code % 8
    ensures Encode(Classify(code).value) == code
  {
    var k := Classify(code).value;
    if k.JmpK? {
      assert CmpBits(k.cmp) == code / 16;
    }
  }

  lemma EncodeClassifyMem(code: Byte)
    requires code != 0x18 && code / 32 == 3 && 1 <= code % 8 <= 3
    requires code == (code / 16) * 16 + ((code / 8) % 2) * 8 + code % 8
    requires (code / 8) % 4 == ((code / 16) % 2) * 2 + (code / 8) % 2
    requires code / 32 == (code / 16) / 2
    ensures Classify(code).Some? && Encode(Classify(code).value) == code
  {
    var b := (code / 8) % 4;
    assert SizeBits(SizeOf(b)) == b;
    assert code == 0x60 + b * 8 + code % 8;
  }

  predicate IsLocalCall(i: Insn) {
    i.code == OP_CALL && i.src == 1
  }
}

=== FILE: jit_vm.dfy ===
/**
  The bpftime-facing front end: it only keeps the instructions and the last
  error message, and its `load_code` refuses a length that is not a whole
  number of records.
 */
module JitVm {
  import opened Isa
  import Loader

  datatype JitVm = JitVm(instructions: seq<Insn>, errorMsg: seq<char>)

  function GetErrorMessage(v: JitVm): seq<char> {
    v.errorMsg
  }

  function LoadCode(v: JitVm, code: seq<Byte>): (r: (JitVm, int))
    ensures r.1 == 0 || r.1 == -Loader.EINVAL
    ensures r.1 == 0 <==> |code| % Loader.InsnBytes == 0
    ensures r.1 != 0 ==> r.0.instructions == v.instructions
    ensures r.1 == 0 ==> |r.0.instructions| == |code| / Loader.InsnBytes && Loader.EncodeProgram(r.0.instructions) == code
  {
    var l := Loader.LoadCode(v.instructions, v.errorMsg, code);
    (JitVm(l.insns, l.errorMsg), l.ret)
  }

  /** After a refused load the error message says why, and nothing else changed. */
  lemma RefusedLoadMessage(v: JitVm, code: seq<Byte>)
    requires LoadCode(v, code).1 != 0
    ensures GetErrorMessage(LoadCode(v, code).0) == "Code len must be a multiple of 8"
    ensures LoadCode(v, code).0 == v.(errorMsg := "Code len must be a multiple of 8")
  {
  }

  /** A successful load of an encoded program holds that program, record for record. */
  lemma LoadEncoded(v: JitVm, p: seq<Insn>)
    ensures LoadCode(v, Loader.EncodeProgram(p)).1 == 0
    ensures LoadCode(v, Loader.EncodeProgram(p)).0.instructions == p
  {
    Loader.ProgramRoundTrip(p);
  }
}

=== FILE: lddw.dfy ===
/**
  The two-slot wide load (LDDW, opcode 0x18; sections 3.2 and 5.4 of
  RFC 9669): validation of the pseudo-instruction in the second slot,
  assembly of the 64-bit literal, and the relocation kinds selected by the
  source-register field, resolved through optional host callbacks.
 */
module Lddw {
  import opened Wrappers
  import opened Isa

  /**
    The host callbacks of the front end (`set_lddw_helpers`); None stands for
    a null function pointer.
   */
  datatype Resolvers = Resolvers(
    mapByFd: Option<U32 -> U64>,
    mapByIdx: Option<U32 -> U64>,
    mapVal: Option<U64 -> U64>,
    varAddr: Option<U32 -> U64>,
    codeAddr: Option<U32 -> U64>)

  const NoResolvers: Resolvers := Resolvers(None, None, None, None, None)

  datatype LddwError =
    | IsLastInstruction        // "... but it's the last instruction"
    | IllegalSecondSlot        // "... but the next instruction is not a legal one"
    | MapValNotProvided        // kinds 2 and 6 patched at compile time without map_val
    | MapValHelperMissing      // kinds 2 and 6 at run time without the declared helper
    | VarAddrNotProvided       // kind 3
    | CodeAddrNotProvided      // kind 4

  /** What the translator emits for a wide load. */
  datatype Load =
    | StoreConst(value: U64)                 // dst := value, known at translation time
    | CallMapVal(mapPtr: U64, addend: U64)   // dst := map_val(mapPtr) + addend, evaluated at run time
    | NoStore                                // kinds above 6 store nothing

  /** The 64-bit literal: first immediate in the low half, second in the high half. */
  function Assemble(lo: U32, hi: U32): (v: U64)
    ensures v % TwoTo32 == lo
    ensures v / TwoTo32 == hi
  {
    lo + hi * TwoTo32
  }

  /** The literal determines both halves, so distinct immediate pairs give distinct values. */
  lemma AssembleInjective(lo1: U32, hi1: U32, lo2: U32, hi2: U32)
    ensures Assemble(lo1, hi1) == Assemble(lo2, hi2) <==> lo1 == lo2 && hi1 == hi2
  {
  }

  lemma AssembleExamples()
    ensures Assemble(1, 1) == 0x1_0000_0001
    ensures Assemble(TwoTo32 - 1, 0) == TwoTo32 - 1
    ensures Assemble(0, TwoTo32 - 1) == TwoTo64 - TwoTo32
  {
  }

  /** The second slot must be all zero except for its immediate. */
  predicate LegalSecondSlot(next: Insn) {
    next.code == 0 && next.dst == 0 && next.src == 0 && next.off == 0
  }

  /** A callback applied if present, else the sign-extended immediate. */
  function OrSext(f: Option<U32 -> U64>, imm: U32): U64 {
    match f
    case Some(g) => g(imm)
    case None => Sext32(imm)
  }

  /**
    Dispatch on the relocation kind (the first slot's source register).
    `patch` selects compile-time evaluation of `map_val`;
    `helperDeclared` says whether the run-time map-value helper was declared.
   */
  function Dispatch(res: Resolvers, patch: bool, helperDeclared: bool, first: Insn, next: Insn): (r: Result<Load, LddwError>)
    ensures first.src == 0 ==> r == Success(StoreConst(Assemble(first.imm, next.imm)))
    ensures first.src == 1 ==> r == Success(StoreConst(OrSext(res.mapByFd, first.imm)))
    ensures first.src == 5 ==> r == Success(StoreConst(OrSext(res.mapByIdx, first.imm)))
    ensures first.src == 3 ==> (r.Failure? <==> res.varAddr.None?)
    ensures first.src == 3 && r.Success? ==> r.value == StoreConst(res.varAddr.value(first.imm))
    ensures first.src == 4 ==> (r.Failure? <==> res.codeAddr.None?)
    ensures first.src == 4 && r.Success? ==> r.value == StoreConst(res.codeAddr.value(first.imm))
    ensures (first.src == 2 || first.src == 6) && patch ==>
      (r.Failure? <==> res.mapVal.None?) &&
      (r.Success? ==>
        r.value == StoreConst((res.mapVal.value(OrSext(if first.src == 2 then res.mapByFd else res.mapByIdx, first.imm)) + Sext32(next.imm)) % TwoTo64))
    ensures (first.src == 2 || first.src == 6) && !patch ==>
      (r.Failure? <==> !helperDeclared) &&
      (r.Success? ==> r.value == CallMapVal(OrSext(if first.src == 2 then res.mapByFd else res.mapByIdx, first.imm), Sext32(next.imm)))
    ensures first.src > 6 ==> r == Success(NoStore)
    ensures r.Failure? ==> r.error in {MapValNotProvided, MapValHelperMissing, VarAddrNotProvided, CodeAddrNotProvided}
  {
    if first.src == 0 then Success(StoreConst(Assemble(first.imm, next.imm)))
    else if first.src == 1 then Success(StoreConst(OrSext(res.mapByFd, first.imm)))
    else if first.src == 2 || first.src == 6 then
      var mapPtr := OrSext(if first.src == 2 then res.mapByFd else res.mapByIdx, first.imm);
      if patch then
        match res.mapVal
        case None => Failure(MapValNotProvided)
        case Some(f) => Success(StoreConst((f(mapPtr) + Sext32(next.imm)) % TwoTo64))
      else if helperDeclared then Success(CallMapVal(mapPtr, Sext32(next.imm)))
      else Failure(MapValHelperMissing)
    else if first.src == 3 then
      match res.varAddr
      case None => Failure(VarAddrNotProvided)
      case Some(f) => Success(StoreConst(f(first.imm)))
    else if first.src == 4 then
      match res.codeAddr
      case None => Failure(CodeAddrNotProvided)
      case Some(f) => Success(StoreConst(f(first.imm)))
    else if first.src == 5 then Success(StoreConst(OrSext(res.mapByIdx, first.imm)))
    else Success(NoStore)
  }

  /**
    The whole wide load at `pc`: the second slot must exist and be legal
    before any relocation is looked at. On success the load occupies two
    slots.
   */
  function Lower(res: Resolvers, patch: bool, helperDeclared: bool, insns: seq<Insn>, pc: nat): (r: Result<Load, LddwError>)
    requires pc < |insns|
    ensures pc + 1 >= |insns| ==> r == Failure(IsLastInstruction)
    ensures pc + 1 < |insns| && !LegalSecondSlot(insns[pc + 1]) ==> r == Failure(IllegalSecondSlot)
    ensures pc + 1 < |insns| && LegalSecondSlot(insns[pc + 1]) ==>
      r == Dispatch(res, patch, helperDeclared, insns[pc], insns[pc + 1])
  {
    if pc + 1 >= |insns| then Failure(IsLastInstruction)
    else
      var next := insns[pc + 1];
      if !LegalSecondSlot(next) then Failure(IllegalSecondSlot)
      else Dispatch(res, patch, helperDeclared, insns[pc], next)
  }

  // The meaning the instruction set gives a wide load.

  /** The host's resolution functions, as total functions. */
  datatype Host = Host(
    mapByFd: U32 -> U64,
    mapByIdx: U32 -> U64,
    mapVal: U64 -> U64,
    varAddr: U32 -> U64,
    codeAddr: U32 -> U64)

  /**
    The value the destination receives, by the table of section 5.4 of
    RFC 9669: the 64-bit literal, a map address by descriptor, the address
    of a map's value by descriptor plus the second immediate, a variable's
    address, a code address, a map address by index, and the address of a
    map's value by index plus the second immediate. Other kinds are not
    defined.
   */
  function Meaning(h: Host, first: Insn, next: Insn): Option<U64> {
    match first.src
    case 0 => Some(next.imm * TwoTo32 + first.imm)
    case 1 => Some(h.mapByFd(first.imm))
    case 2 => Some((h.mapVal(h.mapByFd(first.imm)) + Sext32(next.imm)) % TwoTo64)
    case 3 => Some(h.varAddr(first.imm))
    case 4 => Some(h.codeAddr(first.imm))
    case 5 => Some(h.mapByIdx(first.imm))
    case 6 => Some((h.mapVal(h.mapByIdx(first.imm)) + Sext32(next.imm)) % TwoTo64)
    case _ => None
  }

  /** The destination after a wide load runs, `runMapVal` being the run-time map-value helper. */
  function Loaded(l: Load, runMapVal: U64 -> U64, prev: U64): U64 {
    match l
    case StoreConst(v) => v
    case CallMapVal(p, a) => (runMapVal(p) + a) % TwoTo64
    case NoStore => prev
  }

  /**
    The host the translation stands for: an absent address callback reads
    the sign-extended immediate as the address, and `map_val` is the
    callback when patched at translation time and the run-time helper
    otherwise. Callbacks that are absent where the kind needs them make the
    translation fail, so any function stands in for them.
   */
  function HostOf(res: Resolvers, patch: bool, runMapVal: U64 -> U64): Host {
    Host(
      x => OrSext(res.mapByFd, x),
      x => OrSext(res.mapByIdx, x),
      if patch && res.mapVal.Some? then res.mapVal.value else runMapVal,
      if res.varAddr.Some? then res.varAddr.value else x => Sext32(x),
      if res.codeAddr.Some? then res.codeAddr.value else x => Sext32(x))
  }

  /**
    A wide load that translates loads the value the standard gives it, and
    leaves the destination alone for the kinds the standard leaves out.
   */
  lemma DispatchMeaning(res: Resolvers, patch: bool, helperDeclared: bool, first: Insn, next: Insn, runMapVal: U64 -> U64, prev: U64)
    requires Dispatch(res, patch, helperDeclared, first, next).Success?
    ensures var v := Loaded(Dispatch(res, patch, helperDeclared, first, next).value, runMapVal, prev);
      var m := Meaning(HostOf(res, patch, runMapVal), first, next);
      (m.Some? ==> v == m.value) && (m.None? ==> v == prev)
  {
  }

  /** The second slot's immediate is unconstrained: changing it never turns success into a validation error. */
  lemma SecondImmIsFree(res: Resolvers, patch: bool, helperDeclared: bool, insns: seq<Insn>, pc: nat, imm: U32)
    requires pc + 1 < |insns|
    ensures var changed := insns[pc + 1 := insns[pc + 1].(imm := imm)];
      (Lower(res, patch, helperDeclared, insns, pc).Success? <==> Lower(res, patch, helperDeclared, changed, pc).Success?)
  {
  }

  /** Only the callbacks a kind names matter: kinds 0, 1 and 5 never fail, whatever the callbacks. */
  lemma PlainKindsNeverFail(res: Resolvers, patch: bool, helperDeclared: bool, first: Insn, next: Insn)
    requires first.src in {0, 1, 5} || first.src > 6
    ensures Dispatch(res, patch, helperDeclared, first, next).Success?
  {
  }

  /** Without any callbacks, kinds 1 and 5 load the sign-extended immediate. */
  lemma DefaultRelocation(patch: bool, helperDeclared: bool, first: Insn, next: Insn)
    requires first.src == 1 || first.src == 5
    ensures Dispatch(NoResolvers, patch, helperDeclared, first, next) == Success(StoreConst(Sext32(first.imm)))
    ensures first.imm == TwoTo32 - 1 ==> Dispatch(NoResolvers, patch, helperDeclared, first, next) == Success(StoreConst(TwoTo64 - 1))
  {
  }
}

=== FILE: loader.dfy ===
/**
  Turning a byte buffer into instruction records, and the `load_code` entry
  point the three front ends share: a length that is not a multiple of the
  record size is refused with -EINVAL and leaves the loaded program as it was.
 */
module Loader {
  import opened Isa

  const InsnBytes: nat := 8

  // errno values returned negated by the front ends (Linux numbering).
  const E2BIG: int := 7
  const EEXIST: int := 17
  const EINVAL: int := 22

  const CodeLenMessage: seq<char> := "Code len must be a multiple of 8"

  /**
    Reads one record in the in-memory layout of the instruction struct on a
    little-endian host: opcode byte, destination register in the low nibble
    and source register in the high nibble of the second byte, then the
    offset and the immediate least significant byte first.
   */
  function DecodeInsn(b: seq<Byte>): (i: Insn)
    requires |b| == InsnBytes
    ensures i.code == b[0]
  {
    var x: seq<int> := b;
    Insn(b[0], x[1] % 16, x[1] / 16, x[2] + 0x100 * x[3],
      x[4] + 0x100 * x[5] + 0x1_0000 * x[6] + 0x100_0000 * x[7])
  }

  function EncodeInsn(i: Insn): (b: seq<Byte>)
    ensures |b| == InsnBytes
    ensures b[0] == i.code
  {
    [ i.code, i.dst + 16 * i.src,
      i.off % 0x100, i.off / 0x100,
      i.imm % 0x100, (i.imm / 0x100) % 0x100, (i.imm / 0x1_0000) % 0x100, i.imm / 0x100_0000 ]
  }

  lemma DecodeEncode(i: Insn)
    ensures DecodeInsn(EncodeInsn(i)) == i
  {
  }

  lemma EncodeDecode(b: seq<Byte>)
    requires |b| == InsnBytes
    ensures EncodeInsn(DecodeInsn(b)) == b
  {
    SplitHalf(b[2], b[3]);
    SplitWord(b[4], b[5], b[6], b[7]);
    var e := EncodeInsn(DecodeInsn(b));
    assert e[1] == b[1];
    assert e[2] == b[2] && e[3] == b[3];
    assert e[4] == b[4] && e[5] == b[5] && e[6] == b[6] && e[7] == b[7];
  }

  lemma SplitHalf(lo: Byte, hi: Byte)
    ensures (lo + 0x100 * hi) % 0x100 == lo && (lo + 0x100 * hi) / 0x100 == hi
  {
  }

  lemma SplitWord(b0: Byte, b1: Byte, b2: Byte, b3: Byte)
    ensures var w := b0 + 0x100 * b1 + 0x1_0000 * b2 + 0x100_0000 * b3;
      w % 0x100 == b0 && (w / 0x100) % 0x100 == b1 && (w / 0x1_0000) % 0x100 == b2 && w / 0x100_0000 == b3
  {
    var w := b0 + 0x100 * b1 + 0x1_0000 * b2 + 0x100_0000 * b3;
    assert w / 0x100 == b1 + 0x100 * b2 + 0x1_0000 * b3;
    assert w / 0x1_0000 == b2 + 0x100 * b3;
  }

  /** Reinterprets a buffer whose length is a multiple of 8 as `|code| / 8` records. */
  function DecodeProgram(code: seq<Byte>): (p: seq<Insn>)
    requires |code| % InsnBytes == 0
    ensures |p| == |code| / InsnBytes
    ensures forall k :: 0 <= k < |p| ==> p[k] == DecodeInsn(code[InsnBytes * k..InsnBytes * k + InsnBytes])
    decreases |code|
  {
    if |code| == 0 then []
    else
      var rest := DecodeProgram(code[InsnBytes..]);
      assert forall k :: 0 <= k < |rest| ==>
        code[InsnBytes..][InsnBytes * k..InsnBytes * k + InsnBytes] == code[InsnBytes * (k + 1)..InsnBytes * (k + 1) + InsnBytes];
      [DecodeInsn(code[..InsnBytes])] + rest
  }

  function EncodeProgram(p: seq<Insn>): (code: seq<Byte>)
    ensures |code| == InsnBytes * |p|
    ensures forall k :: 0 <= k < |p| ==> code[InsnBytes * k..InsnBytes * k + InsnBytes] == EncodeInsn(p[k])
  {
    if |p| == 0 then []
    else
      var rest := EncodeProgram(p[1..]);
      var code := EncodeInsn(p[0]) + rest;
      assert forall k :: 1 <= k < |p| ==>
        code[InsnBytes * k..InsnBytes * k + InsnBytes] == rest[InsnBytes * (k - 1)..InsnBytes * (k - 1) + InsnBytes];
      code
  }

  /** Loading the bytes of a program gives back the program. */
  lemma {:induction false} ProgramRoundTrip(p: seq<Insn>)
    ensures |EncodeProgram(p)| % InsnBytes == 0
    ensures DecodeProgram(EncodeProgram(p)) == p
  {
    var q := DecodeProgram(EncodeProgram(p));
    assert |q| == |p|;
    forall k | 0 <= k < |p|
      ensures q[k] == p[k]
    {
      DecodeEncode(p[k]);
    }
  }

  /** What a front end holds after `load_code`: the records, the last error message and the return code. */
  datatype Loaded = Loaded(insns: seq<Insn>, errorMsg: seq<char>, ret: int)

  function LoadCode(insns: seq<Insn>, errorMsg: seq<char>, code: seq<Byte>): (r: Loaded)
    ensures r.ret == 0 || r.ret == -EINVAL
    ensures r.ret == 0 <==> |code| % InsnBytes == 0
    ensures r.ret == 0 ==> |r.insns| == |code| / InsnBytes && EncodeProgram(r.insns) == code && r.errorMsg == errorMsg
    ensures r.ret != 0 ==> r.insns == insns && r.errorMsg == CodeLenMessage
  {
    if |code| % InsnBytes != 0 then Loaded(insns, CodeLenMessage, -EINVAL)
    else
      var p := DecodeProgram(code);
      DecodeIsInverse(code);
      Loaded(p, errorMsg, 0)
  }

  /** Re-encoding a decoded buffer gives the buffer back. */
  lemma {:induction false} DecodeIsInverse(code: seq<Byte>)
    requires |code| % InsnBytes == 0
    ensures EncodeProgram(DecodeProgram(code)) == code
  {
    if |code| > 0 {
      var p := DecodeProgram(code);
      assert p[1..] == DecodeProgram(code[InsnBytes..]);
      EncodeDecode(code[..InsnBytes]);
      DecodeIsInverse(code[InsnBytes..]);
      assert code == code[..InsnBytes] + code[InsnBytes..];
    }
  }
}

=== FILE: lowering.dfy ===
/**
  What the translation of each instruction does when it runs: the
  operations and terminator an opcode lowers to, read through the machine.
  Arithmetic updates the destination by `Alu.Apply`, loads and stores move
  little-endian bytes at base plus offset, a wide load gives the
  destination the value the instruction set defines, a conditional jump
  goes to its target exactly when its comparison holds, and calls and EXIT
  follow the call protocol.
 */
module Lowering {
  import opened Wrappers
  import opened Isa
  import Alu
  import Lddw
  import opened Memory
  import opened Translator
  import opened Machine

  /** The state after the operations an instruction lowers to. */
  function Effect(cfg: Config, env: Env, insns: seq<Insn>, keys: set<nat>, rets: set<nat>, pc: nat, s: State): Option<State>
    requires pc < |insns| && RegsOk(insns[pc]) && Valid(s)
    requires Emit(cfg, insns, keys, rets, pc).Success?
  {
    ExecOps(env, Emit(cfg, insns, keys, rets, pc).value.ops, s)
  }

  /**
    An arithmetic opcode updates its destination with `Alu.Apply` on the
    register or the widened immediate; a DIV or MOD by zero has no meaning,
    since its unguarded `udiv`/`urem` is undefined.
   */
  lemma AluLowering(cfg: Config, env: Env, insns: seq<Insn>, keys: set<nat>, rets: set<nat>, pc: nat, s: State, op: AluOp, is64: bool, useReg: bool)
    requires pc < |insns| && RegsOk(insns[pc]) && Valid(s)
    requires Classify(insns[pc].code) == Some(AluK(op, is64, useReg))
    ensures Emit(cfg, insns, keys, rets, pc).Success? && Emit(cfg, insns, keys, rets, pc).value.term.None?
    ensures var i := insns[pc];
      var v := if useReg then s.regs[i.src] else Alu.ImmOperand(is64, i.imm);
      (Alu.ZeroDivide(op, is64, v) ==> Effect(cfg, env, insns, keys, rets, pc, s).None?) &&
      (!Alu.ZeroDivide(op, is64, v) ==> Effect(cfg, env, insns, keys, rets, pc, s) == Some(SetReg(s, i.dst, Alu.Apply(op, is64, s.regs[i.dst], v))))
  {
    var i := insns[pc];
    ExecOne(env, Emit(cfg, insns, keys, rets, pc).value.ops[0], s);
  }

  /** NEG and NEG64 negate the destination. */
  lemma NegLowering(cfg: Config, env: Env, insns: seq<Insn>, keys: set<nat>, rets: set<nat>, pc: nat, s: State, is64: bool)
    requires pc < |insns| && RegsOk(insns[pc]) && Valid(s)
    requires Classify(insns[pc].code) == Some(NegK(is64))
    ensures Emit(cfg, insns, keys, rets, pc).Success? && Emit(cfg, insns, keys, rets, pc).value.term.None?
    ensures Effect(cfg, env, insns, keys, rets, pc, s) == Some(SetReg(s, insns[pc].dst, Alu.Neg(is64, s.regs[insns[pc].dst])))
  {
    ExecOne(env, Emit(cfg, insns, keys, rets, pc).value.ops[0], s);
  }

  /**
    A load reads `Bytes(size)` little-endian bytes at the source register
    plus the signed offset into the destination; it has no meaning when
    those bytes are not the program's.
   */
  lemma LoadLowering(cfg: Config, env: Env, insns: seq<Insn>, keys: set<nat>, rets: set<nat>, pc: nat, s: State, size: Size)
    requires pc < |insns| && RegsOk(insns[pc]) && Valid(s)
    requires Classify(insns[pc].code) == Some(LdxK(size))
    ensures Emit(cfg, insns, keys, rets, pc).Success? && Emit(cfg, insns, keys, rets, pc).value.term.None?
    ensures var i := insns[pc];
      var v := LoadLE(s.mem, (s.regs[i.src] + SignedOff(i)) % TwoTo64, Bytes(size));
      (v.None? ==> Effect(cfg, env, insns, keys, rets, pc, s).None?) &&
      (v.Some? ==> v.value < TwoTo64 && Effect(cfg, env, insns, keys, rets, pc, s) == Some(SetReg(s, i.dst, v.value)))
  {
    Pow256Word(Bytes(size));
    ExecOne(env, Emit(cfg, insns, keys, rets, pc).value.ops[0], s);
  }

  /**
    A store writes the register (STX) or the sign-extended immediate (ST)
    as `Bytes(size)` little-endian bytes at the destination register plus
    the signed offset, and changes no register.
   */
  lemma StoreLowering(cfg: Config, env: Env, insns: seq<Insn>, keys: set<nat>, rets: set<nat>, pc: nat, s: State, size: Size)
    requires pc < |insns| && RegsOk(insns[pc]) && Valid(s)
    requires Classify(insns[pc].code) == Some(StK(size)) || Classify(insns[pc].code) == Some(StxK(size))
    ensures Emit(cfg, insns, keys, rets, pc).Success? && Emit(cfg, insns, keys, rets, pc).value.term.None?
    ensures var i := insns[pc];
      var a := (s.regs[i.dst] + SignedOff(i)) % TwoTo64;
      var v := if Classify(i.code) == Some(StxK(size)) then s.regs[i.src] else Sext32(i.imm);
      (!Mapped(s.mem, a, Bytes(size)) ==> Effect(cfg, env, insns, keys, rets, pc, s).None?) &&
      (Mapped(s.mem, a, Bytes(size)) ==> Effect(cfg, env, insns, keys, rets, pc, s) == Some(s.(mem := StoreLE(s.mem, a, Bytes(size), v))))
  {
    ExecOne(env, Emit(cfg, insns, keys, rets, pc).value.ops[0], s);
  }

  /**
    A wide load that translates gives its destination the value section
    5.4 of RFC 9669 defines, with the host the translation was given and
    the run-time map-value helper; kinds the standard leaves out change
    nothing.
   */
  lemma WideLowering(cfg: Config, env: Env, insns: seq<Insn>, keys: set<nat>, rets: set<nat>, pc: nat, s: State)
    requires pc + 1 < |insns| && RegsOk(insns[pc]) && Valid(s)
    requires insns[pc].code == OP_LDDW && Emit(cfg, insns, keys, rets, pc).Success?
    ensures Emit(cfg, insns, keys, rets, pc).value.width == 2
    ensures var m := Lddw.Meaning(Lddw.HostOf(cfg.resolvers, cfg.patchMapVal, env.mapVal), insns[pc], insns[pc + 1]);
      (m.Some? ==> Effect(cfg, env, insns, keys, rets, pc, s) == Some(SetReg(s, insns[pc].dst, m.value))) &&
      (m.None? ==> Effect(cfg, env, insns, keys, rets, pc, s) == Some(s))
  {
    assert Classify(OP_LDDW) == Some(LddwK);
    var l := Lddw.Lower(cfg.resolvers, cfg.patchMapVal, MapValDeclared(cfg), insns, pc);
    Lddw.DispatchMeaning(cfg.resolvers, cfg.patchMapVal, MapValDeclared(cfg), insns[pc], insns[pc + 1], env.mapVal, s.regs[insns[pc].dst]);
    var ops := Emit(cfg, insns, keys, rets, pc).value.ops;
    if |ops| == 1 {
      ExecOne(env, ops[0], s);
    }
  }

  /**
    A 32-bit load through a register that holds the context pointer reads
    the 32-bit packet offset there and adds the packet base.
   */
  lemma PacketLoadLowering(cfg: Config, env: Env, insns: seq<Insn>, keys: set<nat>, rets: set<nat>, taint: seq<bool>, pc: nat, s: State)
    requires pc < |insns| && RegsOk(insns[pc]) && Valid(s) && |taint| == 11
    requires insns[pc].code == OP_LDXW && taint[insns[pc].src]
    ensures LowerInsn(cfg, insns, keys, rets, taint, pc).Success?
    ensures var i := insns[pc];
      var v := LoadLE(s.mem, (s.regs[i.src] + SignedOff(i)) % TwoTo64, 4);
      var e := ExecOps(env, LowerInsn(cfg, insns, keys, rets, taint, pc).value.ops, s);
      (v.None? ==> e.None?) &&
      (v.Some? ==> e == Some(SetReg(s, i.dst, (v.value + env.pktBase) % TwoTo64)))
  {
    ExecOne(env, LowerInsn(cfg, insns, keys, rets, taint, pc).value.ops[0], s);
  }

  /**
    A conditional jump that translates goes to its target exactly when its
    comparison holds, and to the next instruction otherwise; the immediate
    form compares with the sign-extended immediate.
   */
  lemma BranchLowering(cfg: Config, insns: seq<Insn>, keys: set<nat>, rets: set<nat>, pc: nat, s: State, cmp: CmpOp, is32: bool, useReg: bool)
    requires pc < |insns| && RegsOk(insns[pc]) && Valid(s)
    requires Classify(insns[pc].code) == Some(JmpK(cmp, is32, useReg)) && Emit(cfg, insns, keys, rets, pc).Success?
    ensures Emit(cfg, insns, keys, rets, pc).value.ops == [] && Emit(cfg, insns, keys, rets, pc).value.term.Some?
    ensures var i := insns[pc];
      var v := if useReg then s.regs[i.src] else Alu.ImmOperand(!is32, i.imm);
      var taken := Compare(cmp, is32, s.regs[i.dst], v);
      ExecTerm(Emit(cfg, insns, keys, rets, pc).value.term.value, s, rets)
        == Jump(if taken then Blocks.JumpTarget(insns, pc) else pc + 1, s)
  {
  }

  /** A helper call that translates puts the helper's result on r1..r5 in r0. */
  lemma HelperCallLowering(cfg: Config, env: Env, insns: seq<Insn>, keys: set<nat>, rets: set<nat>, pc: nat, s: State)
    requires pc < |insns| && RegsOk(insns[pc]) && Valid(s)
    requires Classify(insns[pc].code).Some? && Classify(insns[pc].code).value.CallK? && insns[pc].src != 1
    requires cfg.helperOk(insns[pc].imm)
    ensures Emit(cfg, insns, keys, rets, pc).Success? && Emit(cfg, insns, keys, rets, pc).value.term.None?
    ensures Effect(cfg, env, insns, keys, rets, pc, s) == Some(SetReg(s, 0, env.helper(insns[pc].imm, s.regs[1..6])))
  {
    ExecOne(env, Emit(cfg, insns, keys, rets, pc).value.ops[0], s);
  }

  /**
    A local call that translates pushes its return block (the next
    instruction) and r6..r9, moves r10 as written, and goes to its target.
   */
  lemma LocalCallLowering(cfg: Config, insns: seq<Insn>, keys: set<nat>, rets: set<nat>, pc: nat, s: State)
    requires pc < |insns| && RegsOk(insns[pc]) && Valid(s) && s.cnt + 5 <= CallStackSlots
    requires Classify(insns[pc].code).Some? && Classify(insns[pc].code).value.CallK? && insns[pc].src == 1
    requires Emit(cfg, insns, keys, rets, pc).Success?
    ensures Emit(cfg, insns, keys, rets, pc).value.term.Some?
    ensures var t := Emit(cfg, insns, keys, rets, pc).value.term.value;
      t.Call? && t.ret == pc + 1 &&
      (pc + 1 < TwoTo64 ==> ExecTerm(t, s, rets) == Jump(CallTarget(insns, pc), Push(s, pc + 1, FrameStepAsWritten)))
  {
  }

  /** An atomic opcode runs the read-modify-write its immediate selects, or compare-and-exchange. */
  lemma AtomicLowering(cfg: Config, env: Env, insns: seq<Insn>, keys: set<nat>, rets: set<nat>, pc: nat, s: State, is64: bool)
    requires pc < |insns| && RegsOk(insns[pc]) && Valid(s)
    requires Classify(insns[pc].code) == Some(AtomicK(is64)) && Emit(cfg, insns, keys, rets, pc).Success?
    ensures var i := insns[pc];
      var e := Effect(cfg, env, insns, keys, rets, pc, s);
      (i.imm == CMPXCHG ==> e == ExecCmpXchg(is64, i.dst, i.src, SignedOff(i), s)) &&
      (i.imm != CMPXCHG ==>
        AtomicOf(i.imm).Some? && e == ExecAtomic(AtomicOf(i.imm).value.0, is64, i.dst, i.src, SignedOff(i), AtomicOf(i.imm).value.1, s))
  {
    ExecOne(env, Emit(cfg, insns, keys, rets, pc).value.ops[0], s);
  }

  /** `mov64 r1, 0; div64 r0, r1; exit` */
  const DivideByZero: seq<Insn> := [Insn(OP_MOV64_IMM, 1, 0, 0, 0), Insn(0x3f, 0, 1, 0, 0), Insn(OP_EXIT, 0, 0, 0, 0)]

  /**
    As emitted, `div64 r0, r1` after `mov64 r1, 0` divides by zero: the
    move sets r1 to 0, and the division then has no meaning, although the
    select it feeds intends r0 = 0.
   */
  lemma DivideByZeroUndefined(cfg: Config, env: Env, keys: set<nat>, rets: set<nat>, s: State)
    requires Valid(s)
    ensures var insns := DivideByZero;
      var s1 := SetReg(s, 1, 0);
      Emit(cfg, insns, keys, rets, 0).Success? && Effect(cfg, env, insns, keys, rets, 0, s) == Some(s1) &&
      Emit(cfg, insns, keys, rets, 1).Success? && Effect(cfg, env, insns, keys, rets, 1, s1).None? &&
      Alu.Apply(Div, true, s1.regs[0], s1.regs[1]) == 0
  {
    var insns := DivideByZero;
    assert Classify(insns[0].code) == Some(AluK(Mov, true, false));
    assert Classify(insns[1].code) == Some(AluK(Div, true, true));
    AluLowering(cfg, env, insns, keys, rets, 0, s, Mov, true, false);
    AluLowering(cfg, env, insns, keys, rets, 1, SetReg(s, 1, 0), Div, true, true);
    Alu.ZeroDivisor(s.regs[0], true);
  }

  // A whole program.

  /** `mov64 r0, 42; exit` */
  const ReturnFortyTwo: seq<Insn> := [Insn(OP_MOV64_IMM, 0, 0, 0, 42), Insn(OP_EXIT, 0, 0, 0, 0)]

  /** The one block `mov64 r0, 42; exit` translates to. */
  const FortyTwoBlock: Block := Block([Arith(Mov, true, 0, Imm(42))], Exit)

  /** `mov64 r0, 42; exit` is one block, and has no return blocks. */
  lemma FortyTwoMarks(cfg: Config)
    requires !cfg.isJmp(ReturnFortyTwo[0])
    ensures Blocks.BlockBegin(cfg.isJmp, ReturnFortyTwo) == [true, false]
    ensures Blocks.RetBlocksAsWritten(cfg.isJmp, ReturnFortyTwo) == {}
  {
    var insns := ReturnFortyTwo;
    assert SignedOff(insns[0]) == 0 && SignedOff(insns[1]) == 0;
    assert Blocks.JumpTarget(insns, 0) == 1 && Blocks.JumpTarget(insns, 1) == 2;
    assert !Blocks.Marked(cfg.isJmp, insns, 1);
  }

  /** The move lowers to one arithmetic operation, EXIT to the exit terminator. */
  lemma FortyTwoLowers(cfg: Config, taint: seq<bool>)
    requires |taint| == Taint.NumRegs
    ensures LowerInsn(cfg, ReturnFortyTwo, {0}, {}, taint, 0) == Success(One(FortyTwoBlock.ops[0]))
    ensures LowerInsn(cfg, ReturnFortyTwo, {0}, {}, taint, 1) == Success(Ends(Exit))
  {
    assert Classify(OP_MOV64_IMM) == Some(AluK(Mov, true, false));
    assert Classify(OP_EXIT) == Some(ExitK);
    assert Alu.ImmOperand(true, 42) == 42;
  }

  /** The walk from EXIT on: the exit terminator closes block 0. */
  lemma FortyTwoWalkExit(cfg: Config, b1: Builder)
    requires !cfg.isJmp(ReturnFortyTwo[0])
    requires b1.blocks == map[0 := Partial(FortyTwoBlock.ops, None)] && b1.cur == 0 && !b1.broken && |b1.taint| == Taint.NumRegs
    ensures var marks := Blocks.BlockBegin(cfg.isJmp, ReturnFortyTwo);
      BuilderOk(b1, Starts(marks), {}) &&
      Walk(cfg, ReturnFortyTwo, marks, {}, b1, 1).Success? &&
      Walk(cfg, ReturnFortyTwo, marks, {}, b1, 1).value.blocks == map[0 := Partial(FortyTwoBlock.ops, Some(Exit))] &&
      !Walk(cfg, ReturnFortyTwo, marks, {}, b1, 1).value.broken
  {
    var insns := ReturnFortyTwo;
    FortyTwoMarks(cfg);
    var marks := Blocks.BlockBegin(cfg.isJmp, insns);
    assert Starts(marks) == {0};
    FortyTwoLowers(cfg, b1.taint);
    var mov := FortyTwoBlock.ops[0];
    var b2 := Advance(b1, Ends(Exit), insns[1], {0}, {});
    assert [mov] + [] == [mov];
    assert Append(b1, Ends(Exit)).blocks == b1.blocks[0 := Partial([mov], Some(Exit))];
    assert b1.blocks[0 := Partial([mov], Some(Exit))] == map[0 := Partial([mov], Some(Exit))];
    assert b2.blocks == map[0 := Partial([mov], Some(Exit))] && !b2.broken;
    assert Walk(cfg, insns, marks, {}, b2, 2) == Success(b2);
    assert Enter(marks, b1, 1) == b1;
    assert Continue(cfg, insns, marks, {}, b1, 1, Success(Ends(Exit))) == Success(b2);
  }

  /** The walk over `mov64 r0, 42; exit` fills block 0 with the move and EXIT. */
  lemma FortyTwoWalk(cfg: Config, b0: Builder)
    requires !cfg.isJmp(ReturnFortyTwo[0])
    requires b0 == Builder(0, map[0 := Partial([], None)], Taint.Initial(), false)
    ensures var marks := Blocks.BlockBegin(cfg.isJmp, ReturnFortyTwo);
      Walk(cfg, ReturnFortyTwo, marks, {}, b0, 0).Success? &&
      Walk(cfg, ReturnFortyTwo, marks, {}, b0, 0).value.blocks == map[0 := Partial(FortyTwoBlock.ops, Some(Exit))] &&
      !Walk(cfg, ReturnFortyTwo, marks, {}, b0, 0).value.broken
  {
    var insns := ReturnFortyTwo;
    FortyTwoMarks(cfg);
    var marks := Blocks.BlockBegin(cfg.isJmp, insns);
    assert Starts(marks) == {0};
    FortyTwoLowers(cfg, b0.taint);
    var mov := FortyTwoBlock.ops[0];
    var b1 := Advance(b0, One(mov), insns[0], {0}, {});
    assert [] + [mov] == [mov];
    assert Append(b0, One(mov)).blocks == b0.blocks[0 := Partial([mov], None)];
    assert b0.blocks[0 := Partial([mov], None)] == map[0 := Partial([mov], None)];
    assert b1.blocks == map[0 := Partial([mov], None)] && !b1.broken && b1.cur == 0;
    FortyTwoWalkExit(cfg, b1);
    assert Enter(marks, b0, 0) == b0;
    assert Continue(cfg, insns, marks, {}, b0, 0, Success(One(mov))) == Walk(cfg, insns, marks, {}, b1, 1);
  }

  /** `mov64 r0, 42; exit` translates to its one block, with no return blocks. */
  lemma FortyTwoTranslates(cfg: Config)
    requires !cfg.isJmp(ReturnFortyTwo[0])
    ensures Translate(cfg, ReturnFortyTwo) == Success(Program(map[0 := FortyTwoBlock], {}))
  {
    FortyTwoMarks(cfg);
    var marks := Blocks.BlockBegin(cfg.isJmp, ReturnFortyTwo);
    assert Starts(marks) == {0};
    var b0 := Builder(0, map k | k in Starts(marks) :: Partial([], None), Taint.Initial(), false);
    assert b0.blocks == map[0 := Partial([], None)];
    FortyTwoWalk(cfg, b0);
    var b2 := Walk(cfg, ReturnFortyTwo, marks, {}, b0, 0).value;
    FortyTwoFinalize(marks, b2);
  }

  /** The final pass closes the walked `mov64 r0, 42; exit` block as it stands. */
  lemma FortyTwoFinalize(marks: seq<bool>, b: Builder)
    requires Starts(marks) == {0} && BuilderOk(b, Starts(marks), {})
    requires b.blocks == map[0 := Partial(FortyTwoBlock.ops, Some(Exit))] && !b.broken
    ensures Finalize(marks, b, {}) == Success(Program(map[0 := FortyTwoBlock], {}))
  {
    assert !Unclosable(marks, b, 0);
    assert forall k :: k in b.blocks ==> !Unclosable(marks, b, k);
    var f := Finalize(marks, b, {});
    assert f.Success? && f.value.blocks.Keys == {0} && f.value.blocks[0] == FortyTwoBlock;
    assert f.value.blocks == map[0 := FortyTwoBlock];
  }

  /**
    `mov64 r0, 42; exit` translates, and running it from any state with no
    pending call returns 42.
   */
  lemma ReturnsFortyTwo(cfg: Config, env: Env, s: State)
    requires !cfg.isJmp(ReturnFortyTwo[0]) && Valid(s) && s.cnt == 0
    ensures Translate(cfg, ReturnFortyTwo).Success?
    ensures var p := Translate(cfg, ReturnFortyTwo).value;
      LabelsFit(p) && Run(env, p, 0, s, 1) == Returned(42)
  {
    FortyTwoTranslates(cfg);
    TranslateLabelsFit(cfg, ReturnFortyTwo);
    var p := Translate(cfg, ReturnFortyTwo).value;
    var mov := FortyTwoBlock.ops[0];
    ExecOne(env, mov, s);
    assert Alu.Apply(Mov, true, s.regs[0], 42) == 42;
    assert StepBlock(env, p, 0, s) == Halt(42);
  }
}

=== FILE: machine.dfy ===
/**
  What a translated program does when run: registers r0..r10, byte memory,
  and the explicit call stack of the local-call protocol. A local call
  pushes five slots (the return block, then r6..r9) and moves the frame
  pointer r10 down by `STACK_SIZE`; EXIT returns r0 from the program when
  the stack is empty and otherwise pops the five slots, moves r10 back up
  by the same amount and continues at the saved return block.
  `STACK_SIZE` counts 8-byte words but is added to r10 as a byte count, so
  a call moves the frame pointer by 64 bytes where a frame is 512 bytes
  long (`FramesOverlapAsWritten`; `FramesDisjoint` proves the whole-frame
  step safe).
 */
module Machine {
  import opened Wrappers
  import opened Isa
  import Alu
  import opened Memory
  import opened Translator

  /** The eBPF stack size in bytes, from the instruction-set header. */
  const EbpfStackSize: nat := 512
  /** STACK_SIZE: the stack size rounded up to 8-byte words. */
  const StackSize: nat := (EbpfStackSize + 7) / 8
  const CallStackSize: nat := 64
  /** Capacity of the call stack, in 8-byte slots. */
  const CallStackSlots: nat := CallStackSize * 5
  const MaxLocalFuncDepth: nat := 32

  /** How far a local call moves r10 as written: STACK_SIZE, a word count, used as bytes. */
  const FrameStepAsWritten: nat := StackSize
  /** One frame in bytes. */
  const FrameStep: nat := StackSize * 8

  datatype State = State(regs: seq<U64>, callStack: seq<U64>, cnt: nat, mem: Mem)

  predicate Valid(s: State) {
    |s.regs| == 11 && |s.callStack| == CallStackSlots && s.cnt <= CallStackSlots
  }

  /**
    The parts of the run-time environment the translated code calls into:
    the packet base added by rebased loads, the external helpers (r0 from
    the helper index and r1..r5), the map-value helper, and the byte swap.
   */
  datatype Env = Env(
    pktBase: U64,
    helper: (U32, seq<U64>) -> U64,
    mapVal: U64 -> U64,
    swap: (bool, U32, U64) -> U64)

  function Value(s: State, o: Operand): U64
    requires Valid(s) && OperandOk(o)
  {
    match o
    case Reg(r) => s.regs[r]
    case Imm(v) => v
  }

  /** Base register plus signed offset, as a 64-bit address. */
  function Addr(s: State, base: nat, off: int): int
    requires Valid(s) && base <= MaxReg
  {
    (s.regs[base] + off) % TwoTo64
  }

  function SetReg(s: State, r: nat, v: U64): (t: State)
    requires Valid(s) && r <= MaxReg
    ensures Valid(t) && t.regs[r] == v && t.callStack == s.callStack && t.cnt == s.cnt && t.mem == s.mem
    ensures forall k :: 0 <= k < 11 && k != r ==> t.regs[k] == s.regs[k]
  {
    s.(regs := s.regs[r := v])
  }

  /** The new memory word of an atomic read-modify-write, `m` being 2^32 or 2^64. */
  function AtomicResult(aop: AtomicOp, prev: U64, v: U64, m: int): (r: nat)
    requires m == TwoTo32 || m == TwoTo64
    ensures r < m
  {
    match aop
    case AtomicAdd => (prev + v) % m
    case AtomicAnd => Alu.BitAnd(prev, v) % m
    case AtomicOr => Alu.BitOr(prev, v) % m
    case AtomicXor => Alu.BitXor(prev, v) % m
    case AtomicXchg => v % m
  }

  /** One straight-line operation; None when it touches memory the program was not given. */
  function ExecOp(env: Env, o: Op, s: State): (r: Option<State>)
    requires Valid(s) && OpOk(o)
    ensures r.Some? ==> Valid(r.value) && r.value.callStack == s.callStack && r.value.cnt == s.cnt
  {
    match o
    case Arith(op, is64, dst, operand) =>
      if Alu.ZeroDivide(op, is64, Value(s, operand)) then None
      else Some(SetReg(s, dst, Alu.Apply(op, is64, s.regs[dst], Value(s, operand))))
    case Negate(is64, dst) => Some(SetReg(s, dst, Alu.Neg(is64, s.regs[dst])))
    case Swap(toBig, w, dst) => Some(SetReg(s, dst, env.swap(toBig, w, s.regs[dst])))
    case Load(size, dst, base, off) =>
      var v := LoadLE(s.mem, Addr(s, base, off), Bytes(size));
      if v.None? then None
      else
        Pow256Word(Bytes(size));
        Some(SetReg(s, dst, v.value))
    case PacketLoad(dst, base, off) =>
      var v := LoadLE(s.mem, Addr(s, base, off), 4);
      if v.None? then None else Some(SetReg(s, dst, (v.value + env.pktBase) % TwoTo64))
    case Store(size, base, off, val) =>
      var a := Addr(s, base, off);
      if !Mapped(s.mem, a, Bytes(size)) then None
      else Some(s.(mem := StoreLE(s.mem, a, Bytes(size), Value(s, val))))
    case Const(dst, v) => Some(SetReg(s, dst, v))
    case MapValue(dst, p, a) => Some(SetReg(s, dst, (env.mapVal(p) + a) % TwoTo64))
    case HelperCall(idx) => Some(SetReg(s, 0, env.helper(idx, s.regs[1..6])))
    case Atomic(aop, is64, base, src, off, fetch) => ExecAtomic(aop, is64, base, src, off, fetch, s)
    case CmpXchg(is64, base, src, off) => ExecCmpXchg(is64, base, src, off, s)
  }

  /**
    An atomic read-modify-write of 4 or 8 bytes with the low part of the
    source register; with the fetch flag the old value goes to the source.
   */
  function ExecAtomic(aop: AtomicOp, is64: bool, base: nat, src: nat, off: int, fetch: bool, s: State): (r: Option<State>)
    requires Valid(s) && base <= MaxReg && src <= MaxReg
    ensures r.Some? ==> Valid(r.value) && r.value.callStack == s.callStack && r.value.cnt == s.cnt
    ensures r.Some? ==> forall k :: 0 <= k < 11 && (k != src || !fetch) ==> r.value.regs[k] == s.regs[k]
  {
    var n := if is64 then 8 else 4;
    var m := if is64 then TwoTo64 else TwoTo32;
    var a := Addr(s, base, off);
    var prev := LoadLE(s.mem, a, n);
    if prev.None? then None
    else
      Pow256Word(n);
      var t := s.(mem := StoreLE(s.mem, a, n, AtomicResult(aop, prev.value, s.regs[src] % m, m)));
      Some(if fetch then SetReg(t, src, prev.value) else t)
  }

  /**
    Compare-and-exchange: the memory word becomes the source register when
    it equals r0, and r0 receives the old word, zero-extended.
   */
  function ExecCmpXchg(is64: bool, base: nat, src: nat, off: int, s: State): (r: Option<State>)
    requires Valid(s) && base <= MaxReg && src <= MaxReg
    ensures r.Some? ==> Valid(r.value) && r.value.callStack == s.callStack && r.value.cnt == s.cnt
    ensures r.Some? ==> LoadLE(s.mem, Addr(s, base, off), if is64 then 8 else 4) == Some(r.value.regs[0])
    ensures r.Some? ==> forall k :: 1 <= k < 11 ==> r.value.regs[k] == s.regs[k]
  {
    var n := if is64 then 8 else 4;
    var m := if is64 then TwoTo64 else TwoTo32;
    var a := Addr(s, base, off);
    var prev := LoadLE(s.mem, a, n);
    if prev.None? then None
    else
      Pow256Word(n);
      var mem := if prev.value == s.regs[0] % m then StoreLE(s.mem, a, n, s.regs[src] % m) else s.mem;
      Some(SetReg(s.(mem := mem), 0, prev.value))
  }

  /** The operations of a block in order. */
  function ExecOps(env: Env, ops: seq<Op>, s: State): (r: Option<State>)
    requires Valid(s) && forall k :: 0 <= k < |ops| ==> OpOk(ops[k])
    ensures r.Some? ==> Valid(r.value) && r.value.callStack == s.callStack && r.value.cnt == s.cnt
    decreases |ops|
  {
    if |ops| == 0 then Some(s)
    else
      var s1 := ExecOp(env, ops[0], s);
      if s1.None? then None else ExecOps(env, ops[1..], s1.value)
  }

  /** A block of one operation runs that operation. */
  lemma ExecOne(env: Env, o: Op, s: State)
    requires Valid(s) && OpOk(o)
    ensures ExecOps(env, [o], s) == ExecOp(env, o, s)
  {
    var s1 := ExecOp(env, o, s);
    if s1.Some? {
      assert [o][1..] == [];
    }
  }

  // Comparisons of conditional jumps.

  /**
    The jump condition. The 32-bit class compares the low halves; signed
    comparisons read the operands in two's complement; JSET tests for a
    common bit.
   */
  function Compare(cmp: CmpOp, is32: bool, d: U64, v: U64): bool {
    var m := if is32 then TwoTo32 else TwoTo64;
    var a := if is32 then Alu.Lo32(d) else d;
    var b := if is32 then Alu.Lo32(v) else v;
    match cmp
    case Eq => a == b
    case Ne => a != b
    case Gt => a > b
    case Ge => a >= b
    case Lt => a < b
    case Le => a <= b
    case Sgt => Signed(a, m) > Signed(b, m)
    case Sge => Signed(a, m) >= Signed(b, m)
    case Slt => Signed(a, m) < Signed(b, m)
    case Sle => Signed(a, m) <= Signed(b, m)
    case Set => Alu.BitAnd(a, b) != 0
  }

  // The local-call protocol.

  /**
    A local call: the counter grows by five, the return block goes to slot
    cnt-1 and r6..r9 to slots cnt-2..cnt-5, and r10 moves down by `step`.
   */
  function Push(s: State, ret: U64, step: nat): (t: State)
    requires Valid(s) && s.cnt + 5 <= CallStackSlots
    ensures Valid(t) && t.cnt == s.cnt + 5 && t.mem == s.mem
    ensures forall j :: 0 <= j < s.cnt ==> t.callStack[j] == s.callStack[j]
    ensures forall k :: 0 <= k < 10 ==> t.regs[k] == s.regs[k]
  {
    var c := s.cnt + 5;
    s.(callStack := s.callStack[c - 1 := ret][c - 2 := s.regs[6]][c - 3 := s.regs[7]][c - 4 := s.regs[8]][c - 5 := s.regs[9]],
       cnt := c,
       regs := s.regs[10 := (s.regs[10] - step) % TwoTo64])
  }

  /** The return block: r6..r9 come back from the stack, the counter drops by five, r10 moves up by `step`. */
  function Pop(s: State, step: nat): (t: State)
    requires Valid(s) && s.cnt >= 5
    ensures Valid(t) && t.cnt == s.cnt - 5 && t.mem == s.mem && t.callStack == s.callStack
    ensures forall k :: 0 <= k < 6 ==> t.regs[k] == s.regs[k]
  {
    var c := s.cnt;
    s.(regs := s.regs[6 := s.callStack[c - 2]][7 := s.callStack[c - 3]][8 := s.callStack[c - 4]][9 := s.callStack[c - 5]]
                     [10 := (s.regs[10] + step) % TwoTo64],
       cnt := c - 5)
  }

  /** Where control goes after a block. */
  datatype Step = Jump(next: nat, s: State) | Halt(r0: U64) | Stuck

  predicate TermRegsOk(t: Term) {
    t.Branch? ==> t.dst <= MaxReg && OperandOk(t.operand)
  }

  /**
    The terminator of a block. A call beyond the call stack's capacity, or
    a return to an address that is not a return block, has no defined
    behaviour.
   */
  function ExecTerm(t: Term, s: State, rets: set<nat>): (r: Step)
    requires Valid(s) && TermRegsOk(t)
    requires t.Call? ==> t.ret < TwoTo64
    ensures r.Jump? ==> Valid(r.s)
  {
    match t
    case Goto(x) => Jump(x, s)
    case Branch(cmp, is32, dst, operand, x, y) => Jump(if Compare(cmp, is32, s.regs[dst], Value(s, operand)) then x else y, s)
    case Call(ret, x) => if s.cnt + 5 > CallStackSlots then Stuck else Jump(x, Push(s, ret, FrameStepAsWritten))
    case Exit =>
      if s.cnt == 0 then Halt(s.regs[0])
      else if s.cnt < 5 || s.callStack[s.cnt - 1] !in rets then Stuck
      else Jump(s.callStack[s.cnt - 1], Pop(s, FrameStepAsWritten))
  }

  /** EXIT leaves the program, returning r0, exactly when no local call is pending. */
  lemma ExitHaltsIff(s: State, rets: set<nat>)
    requires Valid(s)
    ensures ExecTerm(Exit, s, rets).Halt? <==> s.cnt == 0
    ensures ExecTerm(Exit, s, rets).Halt? ==> ExecTerm(Exit, s, rets).r0 == s.regs[0]
  {
  }

  /**
    A local call followed by the callee's EXIT comes back to the return
    block with r6..r9 and the counter restored, r0..r5 as the callee left
    them, and r10 restored if the callee left it where the call put it.
    The callee may make further calls meanwhile, as long as they are
    balanced: the counter is back and the slots below it are untouched.
   */
  lemma {:induction false} CallThenReturn(s: State, s2: State, ret: nat, target: nat, rets: set<nat>)
    requires Valid(s) && s.cnt + 5 <= CallStackSlots && ret in rets && ret < TwoTo64
    requires ExecTerm(Call(ret, target), s, rets).Jump?
    requires var s1 := ExecTerm(Call(ret, target), s, rets).s;
      Valid(s2) && s2.cnt == s1.cnt && forall j :: 0 <= j < s1.cnt ==> s2.callStack[j] == s1.callStack[j]
    ensures ExecTerm(Call(ret, target), s, rets).next == target
    ensures var s1 := ExecTerm(Call(ret, target), s, rets).s;
      var r := ExecTerm(Exit, s2, rets);
      r.Jump? && r.next == ret && r.s.cnt == s.cnt &&
      r.s.regs[6..10] == s.regs[6..10] &&
      r.s.regs[..6] == s2.regs[..6] &&
      r.s.mem == s2.mem &&
      (s2.regs[10] == s1.regs[10] ==> r.s.regs[10] == s.regs[10])
  {
    var s1 := ExecTerm(Call(ret, target), s, rets).s;
    var c := s1.cnt;
    assert s2.callStack[c - 1] == ret;
    assert s2.callStack[c - 2] == s.regs[6] && s2.callStack[c - 3] == s.regs[7];
    assert s2.callStack[c - 4] == s.regs[8] && s2.callStack[c - 5] == s.regs[9];
    var r := ExecTerm(Exit, s2, rets);
    assert r.s.regs[6..10] == s.regs[6..10];
  }

  // Frames of nested calls.

  /** A callee's frame is the `EbpfStackSize` bytes below its r10. */
  predicate InFrame(r10: int, a: int) {
    r10 - EbpfStackSize <= a < r10
  }

  /**
    As written, a local call moves r10 down by 64 bytes only, so the
    callee's first stack slot (r10 - 8) is the caller's slot at r10 - 72,
    inside both frames: a callee's store there overwrites the caller's data.
   */
  lemma FramesOverlapAsWritten(s: State, ret: nat, target: nat, rets: set<nat>)
    requires Valid(s) && s.cnt + 5 <= CallStackSlots && s.regs[10] >= TwoTo32 && ret < TwoTo64
    ensures ExecTerm(Call(ret, target), s, rets).Jump?
    ensures var s1 := ExecTerm(Call(ret, target), s, rets).s;
      var a := Addr(s1, 10, -8);
      a == s.regs[10] - 72 && InFrame(s.regs[10], a) && InFrame(s1.regs[10], a)
  {
    PushFramePointer(s, ret, FrameStepAsWritten);
  }

  /** Where a call leaves r10, when the frame pointer is high enough not to wrap. */
  lemma PushFramePointer(s: State, ret: U64, step: nat)
    requires Valid(s) && s.cnt + 5 <= CallStackSlots && s.regs[10] >= step
    ensures Push(s, ret, step).regs[10] == s.regs[10] - step
  {
  }

  /**
    With r10 moved by a whole frame, nothing the callee stores inside its
    own frame changes a byte of the caller's frame.
   */
  lemma FramesDisjoint(s: State, off: int, n: nat, v: nat, b: int, m: nat)
    requires Valid(s) && s.cnt + 5 <= CallStackSlots && s.regs[10] >= TwoTo32
    requires -(EbpfStackSize as int) <= off && off + n <= 0
    requires InFrame(s.regs[10], b) && InFrame(s.regs[10], b + m - 1)
    ensures var s1 := Push(s, 0, FrameStep);
      LoadLE(StoreLE(s1.mem, Addr(s1, 10, off), n, v), b, m) == LoadLE(s1.mem, b, m)
  {
    var s1 := Push(s, 0, FrameStep);
    LoadUntouched(s1.mem, Addr(s1, 10, off), n, v, b, m);
  }

  // Whole runs.

  /** Every call's return label fits in a stack slot. */
  predicate LabelsFit(p: Program) {
    forall k {:trigger p.blocks[k]} :: k in p.blocks && p.blocks[k].term.Call? ==> p.blocks[k].term.ret < TwoTo64
  }

  datatype Outcome = Returned(r0: U64) | Crashed | OutOfFuel

  /**
    One block: its operations, then its terminator. Control only ever
    moves to a block of the program: jump targets, call targets and return
    blocks are all block starts.
   */
  function StepBlock(env: Env, p: Program, at: nat, s: State): (r: Step)
    requires WellFormed(p) && LabelsFit(p) && Valid(s)
    ensures at !in p.blocks ==> r.Stuck?
    ensures r.Jump? ==> Valid(r.s) && r.next in p.blocks
  {
    if at !in p.blocks then Stuck
    else
      var blk := p.blocks[at];
      var s1 := ExecOps(env, blk.ops, s);
      if s1.None? then Stuck else ExecTerm(blk.term, s1.value, p.retBlocks)
  }

  /** Runs at most `fuel` blocks from block `at`. */
  function Run(env: Env, p: Program, at: nat, s: State, fuel: nat): Outcome
    requires WellFormed(p) && LabelsFit(p) && Valid(s)
    decreases fuel, 0
  {
    if fuel == 0 then OutOfFuel else Turn(env, p, at, s, fuel - 1)
  }

  /** Runs block `at`, then at most `fuel` more blocks. */
  function Turn(env: Env, p: Program, at: nat, s: State, fuel: nat): Outcome
    requires WellFormed(p) && LabelsFit(p) && Valid(s)
    decreases fuel, 1
  {
    var st := StepBlock(env, p, at, s);
    if st.Halt? then Returned(st.r0)
    else if st.Stuck? then Crashed
    else Run(env, p, st.next, st.s, fuel)
  }

  /** Labels of a translated program are instruction indices, which fit in a slot. */
  lemma TranslateLabelsFit(cfg: Config, insns: seq<Insn>)
    requires |insns| <= MaxInsns && Translate(cfg, insns).Success?
    ensures LabelsFit(Translate(cfg, insns).value)
  {
    var p := Translate(cfg, insns).value;
    forall k | k in p.blocks && p.blocks[k].term.Call?
      ensures p.blocks[k].term.ret < TwoTo64
    {
      assert p.blocks[k].term.ret in Blocks.RetBlocksAsWritten(cfg.isJmp, insns);
    }
  }

  /** More fuel never changes a run that has already finished. */
  lemma {:induction false} RunFuelMono(env: Env, p: Program, at: nat, s: State, fuel: nat, more: nat)
    requires WellFormed(p) && LabelsFit(p) && Valid(s) && fuel <= more
    requires !Run(env, p, at, s, fuel).OutOfFuel?
    ensures Run(env, p, at, s, more) == Run(env, p, at, s, fuel)
    decreases fuel, 0
  {
    if fuel > 0 {
      RunIsTurn(env, p, at, s, fuel);
      RunIsTurn(env, p, at, s, more);
      TurnFuelMono(env, p, at, s, fuel - 1, more - 1);
    }
  }

  lemma RunIsTurn(env: Env, p: Program, at: nat, s: State, fuel: nat)
    requires WellFormed(p) && LabelsFit(p) && Valid(s) && fuel > 0
    ensures Run(env, p, at, s, fuel) == Turn(env, p, at, s, fuel - 1)
  {
  }

  /** The same for a run that has executed its first block. */
  lemma {:induction false} TurnFuelMono(env: Env, p: Program, at: nat, s: State, fuel: nat, more: nat)
    requires WellFormed(p) && LabelsFit(p) && Valid(s) && fuel <= more
    requires !Turn(env, p, at, s, fuel).OutOfFuel?
    ensures Turn(env, p, at, s, more) == Turn(env, p, at, s, fuel)
    decreases fuel, 1
  {
    var st := StepBlock(env, p, at, s);
    if st.Jump? {
      RunFuelMono(env, p, st.next, st.s, fuel, more);
    }
  }

  /**
    The state at entry: r1 holds the packet memory, r2 its length and r10
    the end of the data stack; the other registers and the call stack are
    whatever they were (they are never initialised), and no call is pending.
   */
  function Setup(regs: seq<U64>, callStack: seq<U64>, mem: Mem, ctx: U64, len: U64, stackEnd: U64): (s: State)
    requires |regs| == 11 && |callStack| == CallStackSlots
    ensures Valid(s) && s.cnt == 0 && s.regs[1] == ctx && s.regs[2] == len && s.regs[10] == stackEnd
  {
    State(regs[1 := ctx][2 := len][10 := stackEnd], callStack, 0, mem)
  }
}

=== FILE: memory.dfy ===
/**
  Byte-addressed memory for the run-time semantics of translated programs:
  little-endian loads and stores of 1, 2, 4 or 8 bytes. Only addresses the
  program was given are mapped; touching any other address has no defined
  behaviour and stops the model.
 */
module Memory {
  import opened Wrappers
  import opened Isa

  type Mem = map<int, Byte>

  /** 256^n: one past the largest value `n` bytes hold. */
  function Pow256(n: nat): (p: nat)
    ensures p >= 1
  {
    if n == 0 then 1 else 256 * Pow256(n - 1)
  }

  lemma Pow256Word(n: nat)
    requires n <= 8
    ensures Pow256(n) <= TwoTo64
    ensures n == 4 ==> Pow256(n) == TwoTo32
    ensures n == 8 ==> Pow256(n) == TwoTo64
  {
    assert Pow256(0) == 1;
    assert Pow256(4) == TwoTo32;
    assert Pow256(8) == TwoTo64;
    if n < 4 {
      Pow256Mono(n, 4);
    } else if n < 8 {
      Pow256Mono(n, 8);
    }
  }

  lemma {:induction false} Pow256Mono(m: nat, n: nat)
    requires m <= n
    ensures Pow256(m) <= Pow256(n)
    decreases n
  {
    if m < n {
      Pow256Mono(m, n - 1);
    }
  }

  predicate Mapped(mem: Mem, addr: int, n: nat) {
    forall x :: addr <= x < addr + n ==> x in mem
  }

  /** The `n`-byte value at `addr`, least significant byte first; None if a byte is unmapped. */
  function LoadLE(mem: Mem, addr: int, n: nat): (r: Option<nat>)
    ensures r.Some? <==> Mapped(mem, addr, n)
    ensures r.Some? ==> r.value < Pow256(n)
    decreases n
  {
    if n == 0 then Some(0)
    else if addr !in mem then None
    else
      var rest := LoadLE(mem, addr + 1, n - 1);
      if rest.None? then None else Some(mem[addr] + 256 * rest.value)
  }

  /** Writes the low `n` bytes of `v` at `addr`, least significant byte first. */
  function StoreLE(mem: Mem, addr: int, n: nat, v: nat): (r: Mem)
    ensures forall x :: x in r <==> x in mem || addr <= x < addr + n
    ensures forall x :: x in mem && !(addr <= x < addr + n) ==> r[x] == mem[x]
    decreases n
  {
    if n == 0 then mem else StoreLE(mem[addr := v % 256], addr + 1, n - 1, v / 256)
  }

  /** Reading back what was stored gives the stored value, cut to `n` bytes. */
  lemma {:induction false} LoadStore(mem: Mem, addr: int, n: nat, v: nat)
    ensures LoadLE(StoreLE(mem, addr, n, v), addr, n) == Some(v % Pow256(n))
    decreases n
  {
    if n > 0 {
      var m1 := mem[addr := v % 256];
      LoadStore(m1, addr + 1, n - 1, v / 256);
      var r := StoreLE(m1, addr + 1, n - 1, v / 256);
      assert r[addr] == v % 256;
      DigitSplit(v, Pow256(n - 1));
    }
  }

  lemma DigitSplit(v: nat, p: nat)
    requires p >= 1
    ensures v % 256 + 256 * ((v / 256) % p) == v % (256 * p)
  {
    var q := v / 256;
    var a := q / p;
    var rest := 256 * (q % p) + v % 256;
    assert q == p * a + q % p;
    assert 256 * q == 256 * (p * a) + 256 * (q % p);
    assert 256 * (p * a) == (256 * p) * a;
    assert v == (256 * p) * a + rest;
    ModUnique(v, 256 * p, a, rest);
  }

  lemma ModUnique(v: int, d: int, a: int, rest: int)
    requires d > 0 && v == d * a + rest && 0 <= rest < d
    ensures v % d == rest && v / d == a
  {
    var a2, r2 := v / d, v % d;
    assert v == d * a2 + r2;
    assert d * a - d * a2 == r2 - rest;
    assert d * a - d * a2 == d * (a - a2);
    if a > a2 {
      MulAtLeast(d, a - a2);
    } else if a < a2 {
      MulAtLeast(d, a2 - a);
    }
  }

  lemma MulAtLeast(d: int, k: int)
    requires d > 0 && k >= 1
    ensures d * k >= d
  {
    assert d * k == d * (k - 1) + d;
  }

  /** A load of bytes that a store did not touch sees the old memory. */
  lemma {:induction false} LoadUntouched(mem: Mem, a: int, n: nat, v: nat, b: int, m: nat)
    requires b + m <= a || a + n <= b
    ensures LoadLE(StoreLE(mem, a, n, v), b, m) == LoadLE(mem, b, m)
    decreases m
  {
    if m > 0 {
      LoadUntouched(mem, a, n, v, b + 1, m - 1);
    }
  }
}

=== FILE: packets.dfy ===
/**
  Packets for the XDP examples come from a memory region of 16-bit words in
  which every packet is closed by four consecutive 0xFFFF words. The region
  is a sequence of words; word `k` lives at byte address `start + 2 * k`.
  The packet-memory base is 0, so a packet's `data` and `data_end` are its
  addresses truncated to 32 bits.
 */
module Packets {
  import opened Wrappers
  import opened Isa

  const StopSeq: U16 := 0xFFFF
  const StopSeqNo: nat := 4
  const PktMemBase: U64 := 0
  const IngressIfindex: U32 := 99

  /** Four stop words end just before index `e`, all at or after `from`. */
  predicate StopAt(words: seq<U16>, from: nat, e: nat) {
    from + StopSeqNo <= e <= |words| && forall k :: e - StopSeqNo <= k < e ==> words[k] == StopSeq
  }

  /** `e` is the end of the first stop sequence found when scanning from `from`. */
  predicate FirstStopAt(words: seq<U16>, from: nat, e: nat) {
    StopAt(words, from, e) && forall e' :: from <= e' < e ==> !StopAt(words, from, e')
  }

  /**
    `get_next_pkt_end`: walks the words from `from`, checking for the region
    end before each read and counting consecutive stop words; it returns the
    index just past the fourth, or None when the region ends first.
   */
  method GetNextPktEnd(words: seq<U16>, from: nat) returns (r: Option<nat>)
    requires from <= |words|
    ensures r.Some? ==> FirstStopAt(words, from, r.value)
    ensures r.None? <==> forall e :: from <= e <= |words| ==> !StopAt(words, from, e)
  {
    var i, cnt := from, 0;
    while true
      invariant from <= i <= |words| && cnt < StopSeqNo && from + cnt <= i
      invariant forall k :: i - cnt <= k < i ==> words[k] == StopSeq
      invariant i - cnt == from || words[i - cnt - 1] != StopSeq
      invariant forall e :: from <= e <= i ==> !StopAt(words, from, e)
      decreases |words| - i
    {
      if i == |words| {
        return None;
      }
      if words[i] == StopSeq {
        cnt, i := cnt + 1, i + 1;
        if cnt >= StopSeqNo {
          assert StopAt(words, from, i);
          return Some(i);
        }
        assert !StopAt(words, from, i);
      } else {
        assert !StopAt(words, from, i + 1);
        cnt, i := 0, i + 1;
      }
    }
  }

  /** The packet metadata the XDP program sees. */
  datatype XdpMd = XdpMd(data: U32, dataEnd: U32, dataMeta: U32, ingressIfindex: U32, rxQueueIndex: U32, egressIfindex: U32)

  /** The 32-bit offset from the packet base of the word at `index`. */
  function Offset(start: U64, index: nat): U32 {
    ((start + 2 * index) % TwoTo64 - PktMemBase) % TwoTo32
  }

  function Packet(data: U32, dataEnd: U32): XdpMd {
    XdpMd(data, dataEnd, 0, IngressIfindex, 0, 0)
  }

  /**
    The outcome of `load_packet_arr_from_mem`: the packets filled in, and
    whether the region ran out. The packet that runs out has `data_end` 0
    (the NULL end); the next iteration would read through NULL, so the
    array after it is not part of the result.
   */
  datatype Loaded = Loaded(packets: seq<XdpMd>, ends: seq<nat>, ranOut: bool)

  /** Where packet `k` starts: the region start for the first, the previous end after that. */
  function StartOf(ends: seq<nat>, k: nat): nat
    requires k <= |ends|
  {
    if k == 0 then 0 else ends[k - 1]
  }

  /** Packet `k` starts where packet `k - 1` ended and ends just after its own stop sequence. */
  predicate Framed(start: U64, words: seq<U16>, ends: seq<nat>, p: XdpMd, k: nat)
    requires k < |ends|
  {
    p == Packet(Offset(start, StartOf(ends, k)), Offset(start, ends[k]))
    && FirstStopAt(words, StartOf(ends, k), ends[k])
  }

  /** The packet whose stop sequence the region does not hold: its end is NULL. */
  predicate Unframed(start: U64, words: seq<U16>, ends: seq<nat>, p: XdpMd, k: nat)
    requires k < |ends|
  {
    p == Packet(Offset(start, StartOf(ends, k)), 0)
    && StartOf(ends, k) <= |words|
    && forall e :: StartOf(ends, k) <= e <= |words| ==> !StopAt(words, StartOf(ends, k), e)
  }

  /**
    `load_packet_arr_from_mem`: each packet starts where the previous one
    ended, the first at the region start, and ends after its stop sequence;
    every packet gets ingress interface 99 and zero for the other fields.
    When the region runs out, the packet that found no stop sequence ends
    at NULL and is the last one.
   */
  method LoadPacketArr(start: U64, words: seq<U16>, arraySize: int) returns (r: Loaded)
    ensures |r.packets| == |r.ends| <= (if arraySize < 0 then 0 else arraySize)
    ensures !r.ranOut ==> |r.packets| == (if arraySize < 0 then 0 else arraySize)
    ensures r.ranOut ==> |r.packets| > 0 && Unframed(start, words, r.ends, r.packets[|r.packets| - 1], |r.packets| - 1)
    ensures forall k :: 0 <= k < |r.packets| && !(r.ranOut && k == |r.packets| - 1) ==> Framed(start, words, r.ends, r.packets[k], k)
  {
    var packets: seq<XdpMd> := [];
    var ends: seq<nat> := [];
    var from: nat := 0;
    var k := 0;
    while k < arraySize
      invariant 0 <= k && |packets| == |ends| == k && from <= |words|
      invariant k <= arraySize || k == 0
      invariant from == StartOf(ends, k)
      invariant forall j :: 0 <= j < k ==> Framed(start, words, ends, packets[j], j)
    {
      var e := GetNextPktEnd(words, from);
      if e.None? {
        var ends' := ends + [from];
        assert forall j :: 0 <= j < k ==> StartOf(ends', j) == StartOf(ends, j) && ends'[j] == ends[j];
        packets := packets + [Packet(Offset(start, from), 0)];
        assert Unframed(start, words, ends', packets[k], k);
        return Loaded(packets, ends', true);
      }
      var ends' := ends + [e.value];
      assert forall j :: 0 <= j < k ==> StartOf(ends', j) == StartOf(ends, j) && ends'[j] == ends[j];
      packets := packets + [Packet(Offset(start, from), Offset(start, e.value))];
      assert Framed(start, words, ends', packets[k], k);
      ends, from, k := ends', e.value, k + 1;
    }
    r := Loaded(packets, ends, false);
  }

  /** Consecutive packets touch: each starts at the byte where the one before it ends. */
  lemma Contiguous(start: U64, words: seq<U16>, ends: seq<nat>, p: XdpMd, q: XdpMd, k: nat)
    requires k + 1 < |ends|
    requires Framed(start, words, ends, p, k)
    requires Framed(start, words, ends, q, k + 1) || Unframed(start, words, ends, q, k + 1)
    ensures q.data == p.dataEnd
  {
  }

  /** The end of a packet is determined by where it starts. */
  lemma FirstStopUnique(words: seq<U16>, from: nat, e1: nat, e2: nat)
    requires FirstStopAt(words, from, e1) && FirstStopAt(words, from, e2)
    ensures e1 == e2
  {
  }
}

=== FILE: printk.dfy ===
/**
  The `bpf_printk` helper of the bare-metal runtime (helper number 6). The
  program's pointers are offsets into its own read-only data unless they
  point into the runtime's stack, so they are rebased first. The format is
  then scanned by a three-state machine: S0 copies literal characters, S1
  reads a decimal width after '%', S2 prints one conversion (d, x, s or c)
  using the next argument and goes back to S0.

  Memory is a function from an address to the characters readable from it;
  a scan that runs off what is readable, or asks for more arguments than the
  caller passed, stops with a reason instead of reading undefined memory.
 */
module Printk {
  import opened Isa
  import opened Digits
  import opened Uart
  import opened Wrappers

  /** Addresses the linker script provides. */
  datatype Layout = Layout(stackBottom: U64, stackTop: U64, rodataStart: U64, rodataStr1Start: U64)

  predicate InStack(l: Layout, ptr: U64) {
    l.stackBottom <= ptr <= l.stackTop
  }

  /** `get_or_rebase_arg`: a pointer outside the stack is moved by `base`; a stack pointer is kept. */
  function GetOrRebaseArg(l: Layout, ptr: U64, base: U64): (r: U64)
    ensures (r - ptr) % TwoTo64 == if InStack(l, ptr) then 0 else base
  {
    if ptr < l.stackBottom || ptr > l.stackTop then (base + ptr) % TwoTo64 else ptr
  }

  /** Rebasing is undone by moving back: the offset into the section is recovered. */
  lemma RebaseRecoversOffset(l: Layout, ptr: U64, base: U64)
    requires !InStack(l, ptr)
    ensures (GetOrRebaseArg(l, ptr, base) - base) % TwoTo64 == ptr
  {
  }

  type Memory = U64 -> seq<char>

  /**
    Why a scan ended: at the format's NUL or its size, off the readable
    format, for want of an argument, off a readable string, or (in the
    examples' variant) on a format pointer that relocates to NULL.
   */
  datatype Stop = Finished | FormatOverrun | ArgsExhausted | StringOverrun | NullFormat

  /** The characters sent to the UART, the number of arguments consumed, and why the scan ended. */
  datatype Printed = Printed(out: seq<char>, used: nat, stop: Stop)

  datatype Phase = S0 | S1(width: int) | S2(width: int)

  function Rank(ph: Phase): nat {
    match ph
    case S0 => 0
    case S1(_) => 1
    case S2(_) => 0
  }

  predicate Consumes(c: char) {
    c == 'd' || c == 'x' || c == 's' || c == 'c'
  }

  /** A C `int` read from the low 32 bits of an argument. */
  function Int32Of(arg: U64): I32 {
    var lo := arg % TwoTo32;
    if lo >= 0x8000_0000 then lo - TwoTo32 else lo
  }

  /**
    The text of one consuming conversion, or None when a string runs off
    readable memory. `%d` goes through the runtime's `itoa`, so the signed
    decimal text comes out for every `int` except -2^31, which prints "-(".
   */
  function Conversion(l: Layout, mem: Memory, c: char, width: int, arg: U64): (r: Option<seq<char>>)
    requires Consumes(c)
    ensures c != 's' ==> r.Some?
    ensures c == 'd' && Int32Of(arg) != IntMin ==> r == Some(SignedDecimal(Int32Of(arg)))
    ensures c == 'd' && Int32Of(arg) == IntMin ==> r == Some("-(")
  {
    if c == 'd' then
      DecimalText(Int32Of(arg));
      Some(CString(ItoaAsWritten(Int32Of(arg))))
    else if c == 'x' then Some(PadLeft(Hex(arg % TwoTo32), width))
    else if c == 's' then
      var text := mem(GetOrRebaseArg(l, arg, l.rodataStr1Start));
      if HasNul(text) then Some(CString(text)) else None
    else Some([(arg % 256) as char])
  }

  /** What `itoa` leaves in the buffer, read as a C string. */
  lemma DecimalText(n: I32)
    ensures HasNul(ItoaAsWritten(n))
    ensures n != IntMin ==> CString(ItoaAsWritten(n)) == SignedDecimal(n)
    ensures n == IntMin ==> CString(ItoaAsWritten(n)) == "-("
  {
    if n == IntMin {
      ItoaAsWrittenIntMin();
      CStringOfTerminated("-(", []);
      assert "-(" + [Nul] + [] == "-(" + [Nul];
    } else {
      ItoaAsWrittenAgrees(n);
      CStringOfTerminated(SignedDecimal(n), []);
      assert SignedDecimal(n) + [Nul] + [] == SignedDecimal(n) + [Nul];
    }
  }

  function Prepend(text: seq<char>, p: Printed): (r: Printed)
    ensures r.used == p.used && r.stop == p.stop && r.out == text + p.out
  {
    p.(out := text + p.out)
  }

  /**
    The format state machine from index `i`, with `used` arguments already
    consumed. In S0 the '%' test comes before the NUL and the `fmtSize`
    tests, so a directive at or after `fmtSize` is still carried out; the
    width accumulates as `width * 10 + digit` and starts again from 0 at
    every directive; a conversion character other than d, x, s and c
    consumes nothing and prints nothing.
   */
  function Scan(l: Layout, mem: Memory, fmt: seq<char>, fmtSize: U64, args: seq<U64>, i: nat, used: nat, ph: Phase): (r: Printed)
    requires i <= |fmt| && used <= |args|
    ensures used <= r.used <= |args|
    ensures r.stop == ArgsExhausted ==> r.used == |args|
    ensures r.stop == StringOverrun ==> r.used > used
    ensures r.stop != NullFormat
    decreases |fmt| - i, Rank(ph)
  {
    if i == |fmt| then Printed([], used, FormatOverrun)
    else
      var c := fmt[i];
      match ph
      case S0 =>
        if c == '%' then Scan(l, mem, fmt, fmtSize, args, i + 1, used, S1(0))
        else if c == Nul || i >= fmtSize then Printed([], used, Finished)
        else Prepend([c], Scan(l, mem, fmt, fmtSize, args, i + 1, used, S0))
      case S1(w) =>
        if IsDigit(c) then Scan(l, mem, fmt, fmtSize, args, i + 1, used, S1(w * 10 + DigitValue(c)))
        else Scan(l, mem, fmt, fmtSize, args, i, used, S2(w))
      case S2(w) =>
        if !Consumes(c) then Scan(l, mem, fmt, fmtSize, args, i + 1, used, S0)
        else if used == |args| then Printed([], used, ArgsExhausted)
        else
          var text := Conversion(l, mem, c, w, args[used]);
          if text.None? then Printed([], used + 1, StringOverrun)
          else Prepend(text.value, Scan(l, mem, fmt, fmtSize, args, i + 1, used + 1, S0))
  }

  /** `_bpf_helper_ext_0006`: the format pointer is rebased against the read-only data, then scanned. */
  function BpfPrintk(l: Layout, mem: Memory, fmt: U64, fmtSize: U64, args: seq<U64>): (r: Printed)
    ensures r.used <= |args|
  {
    Scan(l, mem, mem(GetOrRebaseArg(l, fmt, l.rodataStart)), fmtSize, args, 0, 0, S0)
  }

  // Properties of the scanner.

  /**
    A run of literal characters (no '%', no NUL) that lies below `fmtSize`
    is copied to the output unchanged, and the scan goes on after it.
   */
  lemma {:induction false} LiteralRun(l: Layout, mem: Memory, fmt: seq<char>, fmtSize: U64, args: seq<U64>, i: nat, j: nat, used: nat)
    requires i <= j <= |fmt| && j <= fmtSize && used <= |args|
    requires forall k :: i <= k < j ==> fmt[k] != '%' && fmt[k] != Nul
    ensures Scan(l, mem, fmt, fmtSize, args, i, used, S0) == Prepend(fmt[i..j], Scan(l, mem, fmt, fmtSize, args, j, used, S0))
    decreases j - i
  {
    if i < j {
      LiteralRun(l, mem, fmt, fmtSize, args, i + 1, j, used);
      assert fmt[i..j] == [fmt[i]] + fmt[i + 1..j];
    } else {
      assert fmt[i..j] == [];
    }
  }

  /**
    A format with no directive prints its text up to the NUL, cut at
    `fmtSize`, and consumes no argument.
   */
  lemma PlainText(l: Layout, mem: Memory, text: seq<char>, rest: seq<char>, fmtSize: U64, args: seq<U64>)
    requires '%' !in text && Nul !in text
    ensures var n := if |text| <= fmtSize then |text| else fmtSize;
      Scan(l, mem, text + [Nul] + rest, fmtSize, args, 0, 0, S0) == Printed(text[..n], 0, Finished)
  {
    var fmt := text + [Nul] + rest;
    var n := if |text| <= fmtSize then |text| else fmtSize;
    LiteralRun(l, mem, fmt, fmtSize, args, 0, n, 0);
    assert fmt[0..n] == text[..n];
  }

  /** The width digits fold left to right, `width * 10 + digit`. */
  function FoldWidth(w: int, ds: seq<char>): int
    decreases |ds|
  {
    if |ds| == 0 then w else FoldWidth(w * 10 + DigitValue(ds[0]), ds[1..])
  }

  /** In S1 a run of digits is read into the width; the first non-digit is handled in S2. */
  lemma {:induction false} WidthRun(l: Layout, mem: Memory, fmt: seq<char>, fmtSize: U64, args: seq<U64>, i: nat, j: nat, used: nat, w: int)
    requires i <= j < |fmt| && used <= |args|
    requires forall k :: i <= k < j ==> IsDigit(fmt[k])
    requires !IsDigit(fmt[j])
    ensures Scan(l, mem, fmt, fmtSize, args, i, used, S1(w)) == Scan(l, mem, fmt, fmtSize, args, j, used, S2(FoldWidth(w, fmt[i..j])))
    decreases j - i
  {
    if i < j {
      var w' := w * 10 + DigitValue(fmt[i]);
      assert Scan(l, mem, fmt, fmtSize, args, i, used, S1(w)) == Scan(l, mem, fmt, fmtSize, args, i + 1, used, S1(w'));
      WidthRun(l, mem, fmt, fmtSize, args, i + 1, j, used, w');
      assert fmt[i..j][0] == fmt[i] && fmt[i..j][1..] == fmt[i + 1..j];
      assert FoldWidth(w, fmt[i..j]) == FoldWidth(w', fmt[i + 1..j]);
    } else {
      assert fmt[i..j] == [];
    }
  }

  /** Folding from the left gives the decimal value of the digits. */
  lemma {:induction false} FoldWidthIsDecimal(w: int, ds: seq<char>)
    ensures FoldWidth(w, ds) == w * Pow10(|ds|) + ParseDecimal(ds)
    decreases |ds|
  {
    if |ds| > 0 {
      var d, p, rest := DigitValue(ds[0]), Pow10(|ds| - 1), ds[1..];
      assert FoldWidth(w, ds) == FoldWidth(w * 10 + d, rest);
      FoldWidthIsDecimal(w * 10 + d, rest);
      ParseDecimalHead(ds);
      assert Pow10(|ds|) == 10 * p;
      ShiftDigit(w, d, p, ParseDecimal(rest));
    }
  }

  lemma ShiftDigit(w: int, d: int, p: int, q: int)
    ensures (w * 10 + d) * p + q == w * (10 * p) + (d * p + q)
  {
  }

  lemma ShiftHead(d: int, p: int, q: int, last: int)
    ensures (d * p + q) * 10 + last == d * (10 * p) + (q * 10 + last)
  {
  }

  lemma {:induction false} ParseDecimalHead(ds: seq<char>)
    requires |ds| > 0
    ensures ParseDecimal(ds) == DigitValue(ds[0]) * Pow10(|ds| - 1) + ParseDecimal(ds[1..])
    decreases |ds|
  {
    if |ds| > 1 {
      var init, rest := ds[..|ds| - 1], ds[1..];
      var d, p, last := DigitValue(ds[0]), Pow10(|ds| - 2), DigitValue(ds[|ds| - 1]);
      ParseDecimalHead(init);
      assert init[0] == ds[0];
      assert init[1..] == rest[..|rest| - 1];
      assert ParseDecimal(ds) == ParseDecimal(init) * 10 + last;
      assert ParseDecimal(rest) == ParseDecimal(init[1..]) * 10 + last;
      assert Pow10(|ds| - 1) == 10 * p;
      ShiftHead(d, p, ParseDecimal(init[1..]), last);
    } else {
      assert ds[1..] == [];
      assert ds[..0] == [];
    }
  }

  /**
    `%<digits>x` prints the low 32 bits of the argument in hex, left-padded
    to the width the digits spell.
   */
  lemma HexWidth(l: Layout, mem: Memory, ds: seq<char>, fmtSize: U64, v: U64)
    requires forall k :: 0 <= k < |ds| ==> IsDigit(ds[k])
    ensures Scan(l, mem, "%" + ds + "x" + [Nul], fmtSize, [v], 0, 0, S0)
      == Printed(PadLeft(Hex(v % TwoTo32), ParseDecimal(ds)), 1, Finished)
  {
    var fmt := "%" + ds + "x" + [Nul];
    var n := |ds|;
    HexFormatShape(ds);
    WidthRun(l, mem, fmt, fmtSize, [v], 1, n + 1, 0, 0);
    FoldWidthIsDecimal(0, ds);
    HexDirectiveAtEnd(l, mem, fmt, fmtSize, v, n + 1, ParseDecimal(ds));
  }

  lemma HexFormatShape(ds: seq<char>)
    requires forall k :: 0 <= k < |ds| ==> IsDigit(ds[k])
    ensures var fmt := "%" + ds + "x" + [Nul];
      |fmt| == |ds| + 3 && fmt[0] == '%' && fmt[|ds| + 1] == 'x' && fmt[|ds| + 2] == Nul
      && fmt[1..|ds| + 1] == ds && (forall k :: 1 <= k < |ds| + 1 ==> IsDigit(fmt[k]))
  {
    var fmt := "%" + ds + "x" + [Nul];
    assert fmt[1..|ds| + 1] == ds;
    forall k | 1 <= k < |ds| + 1
      ensures IsDigit(fmt[k])
    {
      assert fmt[k] == ds[k - 1];
    }
  }

  /** A final `x` conversion followed by the NUL ends the scan with one argument used. */
  lemma HexDirectiveAtEnd(l: Layout, mem: Memory, fmt: seq<char>, fmtSize: U64, v: U64, j: nat, w: int)
    requires j + 2 == |fmt| && fmt[j] == 'x' && fmt[j + 1] == Nul
    ensures Scan(l, mem, fmt, fmtSize, [v], j, 0, S2(w)) == Printed(PadLeft(Hex(v % TwoTo32), w), 1, Finished)
  {
    var tail := Scan(l, mem, fmt, fmtSize, [v], j + 1, 1, S0);
    assert tail == Printed([], 1, Finished);
    assert Conversion(l, mem, 'x', w, v) == Some(PadLeft(Hex(v % TwoTo32), w));
  }

  /**
    A directive is carried out even where it starts at or past `fmtSize`:
    with size 1, "a%c" prints 'a' and then the character argument.
   */
  lemma DirectivePastSize(l: Layout, mem: Memory)
    ensures Scan(l, mem, "a%c" + [Nul], 1, [0x42], 0, 0, S0) == Printed("aB", 1, Finished)
  {
    var fmt := "a%c" + [Nul];
    assert fmt[0] == 'a' && fmt[1] == '%' && fmt[2] == 'c' && fmt[3] == Nul;
    assert Scan(l, mem, fmt, 1, [0x42], 3, 1, S0) == Printed([], 1, Finished);
    assert Conversion(l, mem, 'c', 0, 0x42) == Some(['B']);
    assert Scan(l, mem, fmt, 1, [0x42], 2, 0, S2(0)) == Printed(['B'], 1, Finished);
    assert Scan(l, mem, fmt, 1, [0x42], 1, 0, S0) == Printed(['B'], 1, Finished);
  }

  /** An unknown conversion consumes nothing: "%q%d" prints only the one argument. */
  lemma UnknownConversionSkipped(l: Layout, mem: Memory)
    ensures Scan(l, mem, "%q%d" + [Nul], 8, [7], 0, 0, S0) == Printed("7", 1, Finished)
  {
    var fmt := "%q%d" + [Nul];
    assert fmt[1] == 'q' && fmt[3] == 'd' && fmt[4] == Nul;
    assert Scan(l, mem, fmt, 8, [7], 5 - 1, 1, S0) == Printed([], 1, Finished);
    assert Int32Of(7) == 7;
    assert SignedDecimal(7) == "7";
    assert Conversion(l, mem, 'd', 0, 7) == Some("7");
    assert Scan(l, mem, fmt, 8, [7], 3, 0, S2(0)) == Printed("7", 1, Finished);
    assert Scan(l, mem, fmt, 8, [7], 1, 0, S2(0)) == Scan(l, mem, fmt, 8, [7], 2, 0, S0);
  }

  /**
    S2 on a consuming conversion: with no argument left the scan stops, a
    string that runs off readable memory stops it after taking its
    argument, and otherwise the conversion's text comes first and the scan
    goes on in S0 with one more argument used.
   */
  lemma ConversionStep(l: Layout, mem: Memory, fmt: seq<char>, fmtSize: U64, args: seq<U64>, i: nat, used: nat, w: int)
    requires i < |fmt| && used <= |args| && Consumes(fmt[i])
    ensures used == |args| ==> Scan(l, mem, fmt, fmtSize, args, i, used, S2(w)) == Printed([], used, ArgsExhausted)
    ensures used < |args| && Conversion(l, mem, fmt[i], w, args[used]).None? ==>
      Scan(l, mem, fmt, fmtSize, args, i, used, S2(w)) == Printed([], used + 1, StringOverrun)
    ensures used < |args| && Conversion(l, mem, fmt[i], w, args[used]).Some? ==>
      Scan(l, mem, fmt, fmtSize, args, i, used, S2(w))
        == Prepend(Conversion(l, mem, fmt[i], w, args[used]).value, Scan(l, mem, fmt, fmtSize, args, i + 1, used + 1, S0))
  {
  }

  /**
    A whole directive from S0: '%', a run of width digits, then one
    character. It is carried out wherever it starts, with the width the
    digits spell. A character other than d, x, s and c is skipped with
    nothing printed and no argument used; a consuming one prints its
    conversion of the next argument, or stops the scan as `ConversionStep`
    says.
   */
  lemma Directive(l: Layout, mem: Memory, fmt: seq<char>, fmtSize: U64, args: seq<U64>, i: nat, j: nat, used: nat)
    requires i < j < |fmt| && fmt[i] == '%' && used <= |args|
    requires forall k :: i < k < j ==> IsDigit(fmt[k])
    requires !IsDigit(fmt[j])
    ensures !Consumes(fmt[j]) ==> Scan(l, mem, fmt, fmtSize, args, i, used, S0) == Scan(l, mem, fmt, fmtSize, args, j + 1, used, S0)
    ensures Consumes(fmt[j]) ==>
      Scan(l, mem, fmt, fmtSize, args, i, used, S0) == Scan(l, mem, fmt, fmtSize, args, j, used, S2(ParseDecimal(fmt[i + 1..j])))
  {
    assert Scan(l, mem, fmt, fmtSize, args, i, used, S0) == Scan(l, mem, fmt, fmtSize, args, i + 1, used, S1(0));
    WidthRun(l, mem, fmt, fmtSize, args, i + 1, j, used, 0);
    FoldWidthIsDecimal(0, fmt[i + 1..j]);
  }

  /**
    The width does not carry over to the next directive: after a
    conversion, a '%' starts S1 again from width 0.
   */
  lemma WidthResets(l: Layout, mem: Memory, fmt: seq<char>, fmtSize: U64, args: seq<U64>, i: nat, used: nat, w: int)
    requires i + 1 < |fmt| && used < |args|
    requires Consumes(fmt[i]) && fmt[i + 1] == '%'
    requires Conversion(l, mem, fmt[i], w, args[used]).Some?
    ensures Scan(l, mem, fmt, fmtSize, args, i, used, S2(w))
      == Prepend(Conversion(l, mem, fmt[i], w, args[used]).value, Scan(l, mem, fmt, fmtSize, args, i + 2, used + 1, S1(0)))
  {
  }
}

=== FILE: printk_variant.dfy ===
/**
  The `bpf_printk` helper of the examples' bare-metal runtime. Its scanner
  is the runtime's (module Printk); only the choice of the format pointer
  differs. A pointer below the start of the QEMU RAM is relocated into the
  read-only data without looking at the stack, a relocation that lands on
  NULL prints a fixed complaint and returns, and any other pointer is read
  where it points.
 */
module PrintkVariant {
  import opened Isa
  import opened Digits
  import opened Uart
  import opened Printk

  const BaseAddressQemuRv64: U64 := 0x8000_0000

  const EmptyFormatMessage: seq<char> := "called _bpf_helper_ext_0006 with empty pointer as fmt\n"

  function Relocated(l: Layout, fmt: U64): U64 {
    (l.rodataStart + fmt) % TwoTo64
  }

  function BpfPrintk(l: Layout, mem: Memory, fmt: U64, fmtSize: U64, args: seq<U64>): (r: Printed)
    ensures fmt < BaseAddressQemuRv64 && Relocated(l, fmt) == 0 <==> r.stop == NullFormat
    ensures r.stop == NullFormat ==> r == Printed(EmptyFormatMessage, 0, NullFormat)
    ensures fmt >= BaseAddressQemuRv64 ==> r == Scan(l, mem, mem(fmt), fmtSize, args, 0, 0, S0)
    ensures fmt < BaseAddressQemuRv64 && Relocated(l, fmt) != 0 ==> r == Scan(l, mem, mem(Relocated(l, fmt)), fmtSize, args, 0, 0, S0)
  {
    if fmt < BaseAddressQemuRv64 then
      if Relocated(l, fmt) == 0 then Printed(EmptyFormatMessage, 0, NullFormat)
      else ScanFrom(l, mem, Relocated(l, fmt), fmtSize, args)
    else ScanFrom(l, mem, fmt, fmtSize, args)
  }

  function ScanFrom(l: Layout, mem: Memory, at: U64, fmtSize: U64, args: seq<U64>): (r: Printed)
    ensures r.used <= |args| && r.stop != NullFormat
  {
    Scan(l, mem, mem(at), fmtSize, args, 0, 0, S0)
  }

  /**
    For a format offset that is not a stack address and does not relocate
    to NULL, the two helpers print the same thing.
   */
  lemma AgreesWithRuntime(l: Layout, mem: Memory, fmt: U64, fmtSize: U64, args: seq<U64>)
    requires fmt < BaseAddressQemuRv64 && !InStack(l, fmt) && Relocated(l, fmt) != 0
    ensures BpfPrintk(l, mem, fmt, fmtSize, args) == Printk.BpfPrintk(l, mem, fmt, fmtSize, args)
  {
  }
}

=== FILE: symbols.dfy ===
/**
  The link-time symbol of an external helper: "_bpf_helper_ext_" followed by
  the helper index in decimal, zero-padded to at least four digits (a
  `%04` conversion of an unsigned 32-bit index).
 */
module Symbols {
  import opened Digits

  const Prefix: seq<char> := "_bpf_helper_ext_"

  /** The digits after the prefix. */
  function IndexDigits(idx: nat): (d: seq<char>)
    ensures idx < 10000 ==> |d| == 4
    ensures idx >= 10000 ==> d == Decimal(idx)
    ensures ParseDecimal(d) == idx
    ensures forall k :: 0 <= k < |d| ==> IsDigit(d[k])
  {
    PaddedDecimal(idx);
    PadLeft(Decimal(idx), 4)
  }

  lemma PaddedDecimal(idx: nat)
    ensures idx < 10000 ==> |PadLeft(Decimal(idx), 4)| == 4
    ensures idx >= 10000 ==> PadLeft(Decimal(idx), 4) == Decimal(idx)
    ensures ParseDecimal(PadLeft(Decimal(idx), 4)) == idx
  {
    var s := Decimal(idx);
    ParseDecimalOfDecimal(idx);
    if idx < 10000 {
      assert Pow10(4) == 10000;
      DecimalLength(idx, 4);
      ParseDecimalLeadingZeros(4 - |s|, s);
    } else {
      assert Pow10(4) == 10000;
      DecimalLengthAtLeast(idx, 4);
    }
  }

  function ExtFuncSym(idx: nat): (name: seq<char>)
    requires idx < 0x1_0000_0000
    ensures |name| >= |Prefix| && name[..|Prefix|] == Prefix
    ensures name[|Prefix|..] == IndexDigits(idx)
  {
    Prefix + IndexDigits(idx)
  }

  /** The index can be read back from the symbol. */
  function IndexOfSym(name: seq<char>): nat {
    if |name| >= |Prefix| then ParseDecimal(name[|Prefix|..]) else 0
  }

  lemma SymRoundTrip(idx: nat)
    requires idx < 0x1_0000_0000
    ensures IndexOfSym(ExtFuncSym(idx)) == idx
  {
  }

  /** Distinct helpers get distinct symbols. */
  lemma SymInjective(a: nat, b: nat)
    requires a < 0x1_0000_0000 && b < 0x1_0000_0000
    ensures ExtFuncSym(a) == ExtFuncSym(b) <==> a == b
  {
    if ExtFuncSym(a) == ExtFuncSym(b) {
      SymRoundTrip(a);
      SymRoundTrip(b);
    }
  }

  /** Every symbol fits the formatter's 32-byte buffer with its terminating NUL. */
  lemma {:induction false} SymFitsBuffer(idx: nat)
    requires idx < 0x1_0000_0000
    ensures |ExtFuncSym(idx)| + 1 <= 32
  {
    assert Pow10(10) == 10000000000;
    if idx >= 10000 {
      DecimalLength(idx, 10);
    }
  }

  /** Indices below 10000 give symbols of exactly twenty characters. */
  lemma SmallIndexLength(idx: nat)
    requires idx < 10000
    ensures |ExtFuncSym(idx)| == 20
  {
  }

  /** A small index is zero-padded to four digits. */
  lemma ExampleSymPadded()
    ensures ExtFuncSym(6) == "_bpf_helper_ext_0006"
  {
    assert IndexDigits(6) == "0006" by {
      assert Decimal(6) == "6";
      assert Zeros(3) == "000";
    }
  }

  /** An index of five or more digits is written out in full, never truncated. */
  lemma ExampleSymWide()
    ensures ExtFuncSym(12345) == "_bpf_helper_ext_12345"
  {
    FiveDigits();
  }

  lemma FiveDigits()
    ensures Decimal(12345) == "12345"
  {
    assert Decimal(1) == "1";
    assert Decimal(12) == Decimal(1) + "2";
    assert Decimal(123) == Decimal(12) + "3";
    assert Decimal(1234) == Decimal(123) + "4";
    assert Decimal(12345) == Decimal(1234) + "5";
    assert "1" + "2" + "3" + "4" + "5" == "12345";
  }
}

=== FILE: taint.dfy ===
/**
  The context-pointer tracking of the translation loop: one flag per
  register saying "this register still holds the context pointer the program
  was entered with". Only r1 starts flagged. Every instruction clears the
  flag of its destination field (stores and jumps included) and a register
  move then copies the source's flag, so the pass is a forward scan in
  program order that looks at no control flow.
 */
module Taint {
  import opened Wrappers
  import opened Isa

  const NumRegs: nat := 11

  /** A register move, 32- or 64-bit. */
  predicate IsRegMove(i: Insn) {
    i.code == OP_MOV_REG || i.code == OP_MOV64_REG
  }

  /** At entry only r1, the context argument, is flagged. */
  function Initial(): (t: seq<bool>)
    ensures |t| == NumRegs
    ensures forall r :: 0 <= r < NumRegs ==> (t[r] <==> r == 1)
  {
    seq(NumRegs, r => r == 1)
  }

  /** The flags after one instruction. */
  function UpdateArray(t: seq<bool>, i: Insn): (r: seq<bool>)
    requires |t| == NumRegs && RegsOk(i)
    ensures |r| == NumRegs
    ensures forall k :: 0 <= k < NumRegs && k != i.dst ==> r[k] == t[k]
    ensures r[i.dst] <==> IsRegMove(i) && i.src != i.dst && t[i.src]
  {
    var cleared := t[i.dst := false];
    if IsRegMove(i) && cleared[i.src] then cleared[i.dst := true] else cleared
  }

  /** An atomic fetch: the old memory word goes to the source register. */
  predicate FetchesIntoSrc(i: Insn) {
    Classify(i.code).Some? && Classify(i.code).value.AtomicK? &&
    (i.imm == ATOMIC_ADD + FETCH || i.imm == ATOMIC_AND + FETCH ||
     i.imm == ATOMIC_OR + FETCH || i.imm == ATOMIC_XOR + FETCH)
  }

  /** Compare-and-exchange and helper calls leave their result in r0. */
  predicate WritesR0(i: Insn) {
    Classify(i.code).Some? &&
    ((Classify(i.code).value.AtomicK? && i.imm == CMPXCHG) ||
     (Classify(i.code).value.CallK? && i.src != 1))
  }

  /** The registers the lowering of `i` may overwrite: the destination field, plus the fetch target and r0. */
  function Clobbered(i: Insn): set<nat> {
    {i.dst as nat} + (if FetchesIntoSrc(i) then {i.src as nat} else {}) + (if WritesR0(i) then {0} else {})
  }

  /**
    The flags after one instruction with every overwritten register
    cleared, the copy taken before the clear, and only the 64-bit move
    propagating (a 32-bit move keeps only the low half of the address).
   */
  function UpdateFixed(t: seq<bool>, i: Insn): (r: seq<bool>)
    requires |t| == NumRegs && RegsOk(i)
    ensures |r| == NumRegs
    ensures forall k :: 0 <= k < NumRegs && k !in Clobbered(i) ==> r[k] == t[k]
    ensures forall k :: 0 <= k < NumRegs && k in Clobbered(i) && k != i.dst ==> !r[k]
    ensures r[i.dst] <==> i.code == OP_MOV64_REG && t[i.src]
  {
    var cleared := seq(NumRegs, k requires 0 <= k < NumRegs => t[k] && k !in Clobbered(i));
    if i.code == OP_MOV64_REG && t[i.src] then cleared[i.dst := true] else cleared
  }

  /** With the copy taken first, a 64-bit move of a register onto itself keeps its flag. */
  lemma FixedMovSelfKeepsTaint(t: seq<bool>, i: Insn)
    requires |t| == NumRegs && RegsOk(i) && i.code == OP_MOV64_REG && i.src == i.dst
    ensures UpdateFixed(t, i)[i.dst] == t[i.dst]
    ensures UpdateFixed(t, i) == t
  {
    var r := UpdateFixed(t, i);
    assert Clobbered(i) == {i.dst as nat} by {
      assert Classify(OP_MOV64_REG) == Some(AluK(Mov, true, true));
    }
    assert forall k :: 0 <= k < NumRegs ==> r[k] == t[k];
  }

  /** A move of a register onto itself loses the flag, because the clear comes first. */
  lemma MovSelfDropsTaint(t: seq<bool>, i: Insn)
    requires |t| == NumRegs && RegsOk(i) && i.src == i.dst
    ensures !UpdateArray(t, i)[i.dst]
  {
  }

  /** The flags after a straight-line run of instructions. */
  function Track(t: seq<bool>, insns: seq<Insn>): (r: seq<bool>)
    requires |t| == NumRegs
    requires forall k :: 0 <= k < |insns| ==> RegsOk(insns[k])
    ensures |r| == NumRegs
    decreases |insns|
  {
    if |insns| == 0 then t else Track(UpdateArray(t, insns[0]), insns[1..])
  }

  // Soundness against a concrete register file.

  /** Every flagged register holds the context pointer `ctx`. */
  predicate Sound(t: seq<bool>, regs: seq<U64>, ctx: U64)
    requires |t| == NumRegs && |regs| == NumRegs
  {
    forall k :: 0 <= k < NumRegs && t[k] ==> regs[k] == ctx
  }

  /** At entry r1 holds the context, so the initial flags are sound. */
  lemma InitialSound(regs: seq<U64>)
    requires |regs| == NumRegs
    ensures Sound(Initial(), regs, regs[1])
  {
  }

  /**
    A copy of the context survives the loss of the original: after
    `mov64 r2, r1; add64 r1, 8` only r2 is flagged.
   */
  lemma CopyKeepsTaint()
    ensures Track(Initial(), [Insn(OP_MOV64_REG, 2, 1, 0, 0), Insn(0x07, 1, 0, 0, 8)])
      == seq(NumRegs, r => r == 2)
  {
    var s1 := UpdateArray(Initial(), Insn(OP_MOV64_REG, 2, 1, 0, 0));
    var s2 := UpdateArray(s1, Insn(0x07, 1, 0, 0, 8));
    var insns := [Insn(OP_MOV64_REG, 2, 1, 0, 0), Insn(0x07, 1, 0, 0, 8)];
    assert insns[1..] == [insns[1]];
    assert Track(s2, []) == s2;
    assert Track(s1, [insns[1]]) == s2;
    assert Track(Initial(), insns) == Track(s1, insns[1..]);
    assert s2 == seq(NumRegs, r => r == 2);
  }
}

=== FILE: taint_sound.dfy ===
/**
  The context-pointer flags against the machine. A flag is sound when the
  flagged register holds the context pointer; the rebased 32-bit load
  relies on it. Each instruction's lowering writes exactly the registers
  `Taint.Clobbered` names, so the corrected update keeps the flags sound
  on every straight-line run, while the pass as written loses soundness
  when an atomic fetch or compare-and-exchange or helper call overwrites a
  flagged register other than the destination field, or when a 32-bit move
  copies a context pointer that does not fit in 32 bits.
 */
module TaintSound {
  import opened Wrappers
  import opened Isa
  import Alu
  import opened Memory
  import opened Translator
  import opened Machine
  import Taint

  /**
    What running the lowering of `insns[pc]` does to the registers: those
    outside `Taint.Clobbered` keep their value, a 64-bit move copies the
    source and a 32-bit move copies its low half.
   */
  lemma LoweredWrites(cfg: Config, env: Env, insns: seq<Insn>, keys: set<nat>, rets: set<nat>, t: seq<bool>, pc: nat, s: State, s': State)
    requires pc < |insns| && |t| == Taint.NumRegs && Valid(s)
    requires LowerInsn(cfg, insns, keys, rets, t, pc).Success?
    requires ExecOps(env, LowerInsn(cfg, insns, keys, rets, t, pc).value.ops, s) == Some(s')
    ensures forall k :: 0 <= k < 11 && k !in Taint.Clobbered(insns[pc]) ==> s'.regs[k] == s.regs[k]
    ensures insns[pc].code == OP_MOV64_REG ==> s'.regs[insns[pc].dst] == s.regs[insns[pc].src]
    ensures insns[pc].code == OP_MOV_REG ==> s'.regs[insns[pc].dst] == s.regs[insns[pc].src] % TwoTo32
  {
    var i := insns[pc];
    var ops := LowerInsn(cfg, insns, keys, rets, t, pc).value.ops;
    if |ops| == 0 {
      assert s' == s;
    } else {
      OneOp(cfg, insns, keys, rets, t, pc);
      ExecOne(env, ops[0], s);
      OpWrites(env, ops[0], s, s', i);
    }
  }

  /** A lowering with operations has exactly one, and it names the instruction's registers. */
  lemma OneOp(cfg: Config, insns: seq<Insn>, keys: set<nat>, rets: set<nat>, t: seq<bool>, pc: nat)
    requires pc < |insns| && |t| == Taint.NumRegs
    requires LowerInsn(cfg, insns, keys, rets, t, pc).Success?
    requires |LowerInsn(cfg, insns, keys, rets, t, pc).value.ops| > 0
    ensures var ops := LowerInsn(cfg, insns, keys, rets, t, pc).value.ops;
      |ops| == 1 && OpOk(ops[0]) && OpFor(ops[0], insns[pc])
  {
    var i := insns[pc];
    if !(i.code == OP_LDXW && t[i.src]) {
      LddwOpcode(i.code);
      var k := Classify(i.code).value;
      EncodeClassify(i.code);
      match k
      case AluK(op, is64, useReg) =>
        assert i.code == OP_MOV64_REG <==> op == Mov && is64 && useReg;
        assert i.code == OP_MOV_REG <==> op == Mov && !is64 && useReg;
      case CallK(_) =>
        assert i.src != 1;
      case JaK =>
      case JmpK(_, _, _) =>
      case ExitK =>
      case _ =>
        assert i.code != OP_MOV64_REG && i.code != OP_MOV_REG;
    }
  }

  /** The operation an instruction lowers to writes into the registers its fields name. */
  predicate OpFor(o: Op, i: Insn) {
    match o
    case Arith(op, is64, dst, operand) =>
      dst == i.dst &&
      (i.code == OP_MOV64_REG ==> op == Mov && is64 && operand == Reg(i.src)) &&
      (i.code == OP_MOV_REG ==> op == Mov && !is64 && operand == Reg(i.src))
    case Negate(_, dst) => dst == i.dst && i.code != OP_MOV64_REG && i.code != OP_MOV_REG
    case Swap(_, _, dst) => dst == i.dst && i.code != OP_MOV64_REG && i.code != OP_MOV_REG
    case Load(_, dst, _, _) => dst == i.dst && i.code != OP_MOV64_REG && i.code != OP_MOV_REG
    case PacketLoad(dst, _, _) => dst == i.dst && i.code != OP_MOV64_REG && i.code != OP_MOV_REG
    case Store(_, _, _, _) => i.code != OP_MOV64_REG && i.code != OP_MOV_REG
    case Const(dst, _) => dst == i.dst && i.code != OP_MOV64_REG && i.code != OP_MOV_REG
    case MapValue(dst, _, _) => dst == i.dst && i.code != OP_MOV64_REG && i.code != OP_MOV_REG
    case HelperCall(_) => Taint.WritesR0(i) && i.code != OP_MOV64_REG && i.code != OP_MOV_REG
    case Atomic(_, _, _, src, _, fetch) => src == i.src && (fetch ==> Taint.FetchesIntoSrc(i)) && i.code != OP_MOV64_REG && i.code != OP_MOV_REG
    case CmpXchg(_, _, _, _) => Taint.WritesR0(i) && i.code != OP_MOV64_REG && i.code != OP_MOV_REG
  }

  /** The registers one operation writes, for the instruction it was lowered from. */
  lemma OpWrites(env: Env, o: Op, s: State, s': State, i: Insn)
    requires Valid(s) && OpOk(o) && OpFor(o, i) && ExecOp(env, o, s) == Some(s')
    ensures forall k :: 0 <= k < 11 && k !in Taint.Clobbered(i) ==> s'.regs[k] == s.regs[k]
    ensures i.code == OP_MOV64_REG ==> s'.regs[i.dst] == s.regs[i.src]
    ensures i.code == OP_MOV_REG ==> s'.regs[i.dst] == s.regs[i.src] % TwoTo32
  {
  }

  // One instruction.

  /**
    The cases the pass as written gets wrong: an atomic fetch into a
    flagged source, a write of r0 while r0 is flagged, and a 32-bit copy
    of a context pointer above 4 GiB. In each, the register is not the
    destination field, or its copy is truncated.
   */
  predicate Hazard(t: seq<bool>, i: Insn, ctx: U64)
    requires |t| == Taint.NumRegs && RegsOk(i)
  {
    (Taint.FetchesIntoSrc(i) && i.src != i.dst && t[i.src]) ||
    (Taint.WritesR0(i) && i.dst != 0 && t[0]) ||
    (i.code == OP_MOV_REG && i.src != i.dst && t[i.src] && ctx >= TwoTo32)
  }

  /** What `LoweredWrites` says about a register file `b` after `a`, as one fact. */
  predicate WritesOnly(i: Insn, a: seq<U64>, b: seq<U64>)
    requires |a| == Taint.NumRegs && |b| == Taint.NumRegs && RegsOk(i)
  {
    (forall k :: 0 <= k < 11 && k !in Taint.Clobbered(i) ==> b[k] == a[k]) &&
    (i.code == OP_MOV64_REG ==> b[i.dst] == a[i.src]) &&
    (i.code == OP_MOV_REG ==> b[i.dst] == a[i.src] % TwoTo32)
  }

  /** The as-written update against registers that change only where `WritesOnly` allows. */
  lemma UpdateSound(t: seq<bool>, i: Insn, a: seq<U64>, b: seq<U64>, ctx: U64)
    requires |t| == Taint.NumRegs && |a| == Taint.NumRegs && |b| == Taint.NumRegs && RegsOk(i)
    requires WritesOnly(i, a, b) && Taint.Sound(t, a, ctx) && !Hazard(t, i, ctx)
    ensures Taint.Sound(Taint.UpdateArray(t, i), b, ctx)
  {
    var t' := Taint.UpdateArray(t, i);
    forall k | 0 <= k < Taint.NumRegs && t'[k]
      ensures b[k] == ctx
    {
      if k != i.dst {
        assert k !in Taint.Clobbered(i);
      }
    }
  }

  /** The corrected update against registers that change only where `WritesOnly` allows. */
  lemma UpdateFixedSound(t: seq<bool>, i: Insn, a: seq<U64>, b: seq<U64>, ctx: U64)
    requires |t| == Taint.NumRegs && |a| == Taint.NumRegs && |b| == Taint.NumRegs && RegsOk(i)
    requires WritesOnly(i, a, b) && Taint.Sound(t, a, ctx)
    ensures Taint.Sound(Taint.UpdateFixed(t, i), b, ctx)
  {
  }

  /** Outside the hazards, one instruction keeps the flags of the pass as written sound. */
  lemma StepSound(cfg: Config, env: Env, insns: seq<Insn>, keys: set<nat>, rets: set<nat>, t: seq<bool>, pc: nat, s: State, s': State, ctx: U64)
    requires pc < |insns| && |t| == Taint.NumRegs && Valid(s)
    requires LowerInsn(cfg, insns, keys, rets, t, pc).Success?
    requires ExecOps(env, LowerInsn(cfg, insns, keys, rets, t, pc).value.ops, s) == Some(s')
    requires Sound(t, s.regs, ctx) && !Hazard(t, insns[pc], ctx)
    ensures Taint.Sound(Taint.UpdateArray(t, insns[pc]), s'.regs, ctx)
  {
    LoweredWrites(cfg, env, insns, keys, rets, t, pc, s, s');
    UpdateSound(t, insns[pc], s.regs, s'.regs, ctx);
  }

  /** The corrected update keeps the flags sound across any instruction. */
  lemma StepSoundFixed(cfg: Config, env: Env, insns: seq<Insn>, keys: set<nat>, rets: set<nat>, t: seq<bool>, pc: nat, s: State, s': State, ctx: U64)
    requires pc < |insns| && |t| == Taint.NumRegs && Valid(s)
    requires LowerInsn(cfg, insns, keys, rets, t, pc).Success?
    requires ExecOps(env, LowerInsn(cfg, insns, keys, rets, t, pc).value.ops, s) == Some(s')
    requires Sound(t, s.regs, ctx)
    ensures Taint.Sound(Taint.UpdateFixed(t, insns[pc]), s'.regs, ctx)
  {
    LoweredWrites(cfg, env, insns, keys, rets, t, pc, s, s');
    UpdateFixedSound(t, insns[pc], s.regs, s'.regs, ctx);
  }

  /** Flags of the right length that hold only for registers with the context pointer. */
  predicate Sound(t: seq<bool>, regs: seq<U64>, ctx: U64) {
    |t| == Taint.NumRegs && |regs| == Taint.NumRegs && Taint.Sound(t, regs, ctx)
  }

  // Straight-line runs.

  /**
    Runs the instructions from `pc` in program order, lowering each with
    the current flags and updating the flags after it (as written, or
    corrected when `fixed`), up to the first terminator or the end. None
    when an instruction does not lower or its operations have no meaning.
   */
  function Straight(cfg: Config, env: Env, insns: seq<Insn>, keys: set<nat>, rets: set<nat>, fixed: bool, t: seq<bool>, pc: nat, s: State): (r: Option<(seq<bool>, State)>)
    requires |t| == Taint.NumRegs && Valid(s)
    ensures r.Some? ==> |r.value.0| == Taint.NumRegs && Valid(r.value.1)
    decreases |insns| - pc
  {
    if Continues(cfg, env, insns, keys, rets, t, pc, s) then
      var a := After(cfg, env, insns, keys, rets, fixed, t, pc, s);
      Straight(cfg, env, insns, keys, rets, fixed, a.0, a.1, a.2)
    else if pc >= |insns| then Some((t, s))
    else
      var l := LowerInsn(cfg, insns, keys, rets, t, pc);
      if l.Success? && l.value.term.Some? then Some((t, s)) else None
  }

  /** An instruction that can meet a hazard of the pass as written, for a context pointer `ctx`. */
  predicate Risky(i: Insn, ctx: U64) {
    (Taint.FetchesIntoSrc(i) && i.src != i.dst) ||
    (Taint.WritesR0(i) && i.dst != 0) ||
    (i.code == OP_MOV_REG && i.src != i.dst && ctx >= TwoTo32)
  }

  /** The flags after one instruction, with the update `fixed` selects. */
  function Next(fixed: bool, t: seq<bool>, i: Insn): (r: seq<bool>)
    requires |t| == Taint.NumRegs && RegsOk(i)
    ensures |r| == Taint.NumRegs
  {
    if fixed then Taint.UpdateFixed(t, i) else Taint.UpdateArray(t, i)
  }

  /** One step of a straight-line run keeps the flags sound, under the same condition as the run. */
  lemma StepEither(cfg: Config, env: Env, insns: seq<Insn>, keys: set<nat>, rets: set<nat>, fixed: bool, t: seq<bool>, pc: nat, s: State, s': State, ctx: U64)
    requires pc < |insns| && |t| == Taint.NumRegs && Valid(s) && Sound(t, s.regs, ctx)
    requires LowerInsn(cfg, insns, keys, rets, t, pc).Success?
    requires ExecOps(env, LowerInsn(cfg, insns, keys, rets, t, pc).value.ops, s) == Some(s')
    requires !fixed ==> !Risky(insns[pc], ctx)
    ensures Sound(Next(fixed, t, insns[pc]), s'.regs, ctx)
  {
    if fixed {
      StepSoundFixed(cfg, env, insns, keys, rets, t, pc, s, s', ctx);
    } else {
      StepSound(cfg, env, insns, keys, rets, t, pc, s, s', ctx);
    }
  }

  /** Whether the run goes on past `pc`: the instruction lowers without a terminator and its operations run. */
  predicate Continues(cfg: Config, env: Env, insns: seq<Insn>, keys: set<nat>, rets: set<nat>, t: seq<bool>, pc: nat, s: State)
    requires |t| == Taint.NumRegs && Valid(s)
  {
    pc < |insns| &&
    LowerInsn(cfg, insns, keys, rets, t, pc).Success? &&
    LowerInsn(cfg, insns, keys, rets, t, pc).value.term.None? &&
    ExecOps(env, LowerInsn(cfg, insns, keys, rets, t, pc).value.ops, s).Some?
  }

  /** The flags, position and state after one instruction of a run that goes on. */
  function After(cfg: Config, env: Env, insns: seq<Insn>, keys: set<nat>, rets: set<nat>, fixed: bool, t: seq<bool>, pc: nat, s: State): (r: (seq<bool>, nat, State))
    requires |t| == Taint.NumRegs && Valid(s) && Continues(cfg, env, insns, keys, rets, t, pc, s)
    ensures |r.0| == Taint.NumRegs && r.1 > pc && Valid(r.2)
  {
    var l := LowerInsn(cfg, insns, keys, rets, t, pc).value;
    (Next(fixed, t, insns[pc]), pc + l.width, ExecOps(env, l.ops, s).value)
  }

  /** A run either stops where it is, with the flags and state it has, or goes on after one instruction. */
  lemma StraightUnfold(cfg: Config, env: Env, insns: seq<Insn>, keys: set<nat>, rets: set<nat>, fixed: bool, t: seq<bool>, pc: nat, s: State)
    requires |t| == Taint.NumRegs && Valid(s)
    ensures var r := Straight(cfg, env, insns, keys, rets, fixed, t, pc, s);
      !Continues(cfg, env, insns, keys, rets, t, pc, s) ==> r.None? || r == Some((t, s))
    ensures Continues(cfg, env, insns, keys, rets, t, pc, s) ==>
      var a := After(cfg, env, insns, keys, rets, fixed, t, pc, s);
      Straight(cfg, env, insns, keys, rets, fixed, t, pc, s) == Straight(cfg, env, insns, keys, rets, fixed, a.0, a.1, a.2)
  {
  }

  /** One instruction of a run keeps sound flags sound, under the same condition as the run. */
  lemma AfterSound(cfg: Config, env: Env, insns: seq<Insn>, keys: set<nat>, rets: set<nat>, fixed: bool, t: seq<bool>, pc: nat, s: State, ctx: U64)
    requires |t| == Taint.NumRegs && Valid(s) && Sound(t, s.regs, ctx)
    requires Continues(cfg, env, insns, keys, rets, t, pc, s)
    requires !fixed ==> !Risky(insns[pc], ctx)
    ensures var a := After(cfg, env, insns, keys, rets, fixed, t, pc, s);
      Sound(a.0, a.2.regs, ctx)
  {
    var l := LowerInsn(cfg, insns, keys, rets, t, pc).value;
    StepEither(cfg, env, insns, keys, rets, fixed, t, pc, s, ExecOps(env, l.ops, s).value, ctx);
  }

  /**
    Flags that are sound at the start stay sound along a straight-line
    run: always with the corrected update, and with the pass as written
    when no instruction of the run is risky.
   */
  lemma {:induction false} StraightSound(cfg: Config, env: Env, insns: seq<Insn>, keys: set<nat>, rets: set<nat>, fixed: bool, t: seq<bool>, pc: nat, s: State, ctx: U64)
    requires |t| == Taint.NumRegs && Valid(s) && Sound(t, s.regs, ctx)
    requires !fixed ==> forall k :: pc <= k < |insns| ==> !Risky(insns[k], ctx)
    ensures var r := Straight(cfg, env, insns, keys, rets, fixed, t, pc, s);
      r.Some? ==> Sound(r.value.0, r.value.1.regs, ctx)
    decreases |insns| - pc
  {
    StraightUnfold(cfg, env, insns, keys, rets, fixed, t, pc, s);
    if Continues(cfg, env, insns, keys, rets, t, pc, s) {
      var a := After(cfg, env, insns, keys, rets, fixed, t, pc, s);
      AfterSound(cfg, env, insns, keys, rets, fixed, t, pc, s, ctx);
      StraightSound(cfg, env, insns, keys, rets, fixed, a.0, a.1, a.2, ctx);
    }
  }

  /** From program entry, where r1 holds the context, both passes start sound. */
  lemma EntrySound(cfg: Config, env: Env, insns: seq<Insn>, keys: set<nat>, rets: set<nat>, s: State)
    requires Valid(s) && forall k :: 0 <= k < |insns| ==> !Risky(insns[k], s.regs[1])
    ensures var r := Straight(cfg, env, insns, keys, rets, false, Taint.Initial(), 0, s);
      r.Some? ==> Sound(r.value.0, r.value.1.regs, s.regs[1])
    ensures var r := Straight(cfg, env, insns, keys, rets, true, Taint.Initial(), 0, s);
      r.Some? ==> Sound(r.value.0, r.value.1.regs, s.regs[1])
  {
    Taint.InitialSound(s.regs);
    StraightSound(cfg, env, insns, keys, rets, false, Taint.Initial(), 0, s, s.regs[1]);
    StraightSound(cfg, env, insns, keys, rets, true, Taint.Initial(), 0, s, s.regs[1]);
  }

  // The hazards, exhibited.

  lemma AddrNoOffset(s: State, b: nat)
    requires Valid(s) && b <= MaxReg
    ensures Addr(s, b, 0) == s.regs[b]
  {
  }

  /**
    `atomic64 fetch_add [r2+0], r1` with r1 flagged: the old memory word
    goes to r1, which the pass as written keeps flagged.
   */
  lemma FetchKeepsStaleFlag(cfg: Config, env: Env, s: State)
    requires Valid(s)
    requires var v := LoadLE(s.mem, s.regs[2], 8); v.Some? && v.value != s.regs[1]
    ensures var insns := [Insn(0xdb, 2, 1, 0, ATOMIC_ADD + FETCH)];
      var l := LowerInsn(cfg, insns, {}, {}, Taint.Initial(), 0);
      l.Success? && ExecOps(env, l.value.ops, s).Some? &&
      var s' := ExecOps(env, l.value.ops, s).value;
      Sound(Taint.Initial(), s.regs, s.regs[1]) &&
      !Sound(Taint.UpdateArray(Taint.Initial(), insns[0]), s'.regs, s.regs[1]) &&
      Sound(Taint.UpdateFixed(Taint.Initial(), insns[0]), s'.regs, s.regs[1])
  {
    var insns := [Insn(0xdb, 2, 1, 0, ATOMIC_ADD + FETCH)];
    Taint.InitialSound(s.regs);
    assert Classify(0xdb) == Some(AtomicK(true));
    var o := Atomic(AtomicAdd, true, 2, 1, 0, true);
    assert LowerInsn(cfg, insns, {}, {}, Taint.Initial(), 0) == Success(One(o));
    ExecOne(env, o, s);
    AddrNoOffset(s, 2);
    var s' := ExecOps(env, [o], s).value;
    assert s'.regs[1] == LoadLE(s.mem, s.regs[2], 8).value;
    assert Taint.UpdateArray(Taint.Initial(), insns[0])[1];
    StepSoundFixed(cfg, env, insns, {}, {}, Taint.Initial(), 0, s, s', s.regs[1]);
  }

  /**
    `cmpxchg64 [r2+0], r3` while r0 holds a flagged copy of the context:
    r0 receives the old memory word and stays flagged as written.
   */
  lemma CmpXchgKeepsStaleFlag(cfg: Config, env: Env, s: State, t: seq<bool>)
    requires Valid(s) && t == Taint.Initial()[0 := true] && s.regs[0] == s.regs[1]
    requires var v := LoadLE(s.mem, s.regs[2], 8); v.Some? && v.value != s.regs[1]
    ensures var insns := [Insn(0xdb, 2, 3, 0, CMPXCHG)];
      var l := LowerInsn(cfg, insns, {}, {}, t, 0);
      l.Success? && ExecOps(env, l.value.ops, s).Some? &&
      var s' := ExecOps(env, l.value.ops, s).value;
      Sound(t, s.regs, s.regs[1]) &&
      !Sound(Taint.UpdateArray(t, insns[0]), s'.regs, s.regs[1]) &&
      Sound(Taint.UpdateFixed(t, insns[0]), s'.regs, s.regs[1])
  {
    var insns := [Insn(0xdb, 2, 3, 0, CMPXCHG)];
    assert Classify(0xdb) == Some(AtomicK(true));
    var o := CmpXchg(true, 2, 3, 0);
    assert LowerInsn(cfg, insns, {}, {}, t, 0) == Success(One(o));
    ExecOne(env, o, s);
    AddrNoOffset(s, 2);
    var s' := ExecOps(env, [o], s).value;
    assert s'.regs[0] == LoadLE(s.mem, s.regs[2], 8).value;
    assert Taint.UpdateArray(t, insns[0])[0];
    assert Sound(t, s.regs, s.regs[1]);
    StepSoundFixed(cfg, env, insns, {}, {}, t, 0, s, s', s.regs[1]);
  }

  /**
    `mov32 r2, r1` with a context pointer above 4 GiB: r2 receives only the
    low half, and the pass as written flags it.
   */
  lemma Mov32KeepsFlagOnTruncated(cfg: Config, env: Env, s: State)
    requires Valid(s) && s.regs[1] >= TwoTo32
    ensures var insns := [Insn(OP_MOV_REG, 2, 1, 0, 0)];
      var l := LowerInsn(cfg, insns, {}, {}, Taint.Initial(), 0);
      l.Success? && ExecOps(env, l.value.ops, s).Some? &&
      var s' := ExecOps(env, l.value.ops, s).value;
      Sound(Taint.Initial(), s.regs, s.regs[1]) &&
      !Sound(Taint.UpdateArray(Taint.Initial(), insns[0]), s'.regs, s.regs[1]) &&
      Sound(Taint.UpdateFixed(Taint.Initial(), insns[0]), s'.regs, s.regs[1])
  {
    var insns := [Insn(OP_MOV_REG, 2, 1, 0, 0)];
    Taint.InitialSound(s.regs);
    assert Classify(OP_MOV_REG) == Some(AluK(Mov, false, true));
    var o := Arith(Mov, false, 2, Reg(1));
    assert LowerInsn(cfg, insns, {}, {}, Taint.Initial(), 0) == Success(One(o));
    ExecOne(env, o, s);
    var s' := ExecOps(env, [o], s).value;
    assert s'.regs[2] == s.regs[1] % TwoTo32;
    assert Taint.UpdateArray(Taint.Initial(), insns[0])[2];
    StepSoundFixed(cfg, env, insns, {}, {}, Taint.Initial(), 0, s, s', s.regs[1]);
  }

  /**
    After `mov64 r1, r1` the pass as written has dropped r1's flag, so a
    following `ldxw r0, [r1+0]` is an ordinary load instead of a rebased
    packet load; the corrected update keeps the flag and rebases it.
   */
  lemma MovSelfSkipsRebase(cfg: Config, keys: set<nat>, rets: set<nat>)
    ensures var insns := [Insn(OP_MOV64_REG, 1, 1, 0, 0), Insn(OP_LDXW, 0, 1, 0, 0)];
      LowerInsn(cfg, insns, keys, rets, Taint.UpdateArray(Taint.Initial(), insns[0]), 1) == Success(One(Load(W, 0, 1, 0))) &&
      LowerInsn(cfg, insns, keys, rets, Taint.UpdateFixed(Taint.Initial(), insns[0]), 1) == Success(One(PacketLoad(0, 1, 0)))
  {
    var insns := [Insn(OP_MOV64_REG, 1, 1, 0, 0), Insn(OP_LDXW, 0, 1, 0, 0)];
    Taint.MovSelfDropsTaint(Taint.Initial(), insns[0]);
    Taint.FixedMovSelfKeepsTaint(Taint.Initial(), insns[0]);
    assert Classify(OP_LDXW) == Some(LdxK(W));
  }

  /**
    The flags follow program order, not control flow: in
    `jeq r3, 0, +1; mov64 r2, r1; ldxw r0, [r2+0]` the flags the load is
    lowered with mark r2 from the move, so the load is rebased as a packet
    load, yet when r3 is 0 the jump goes to the load without running the
    move and r2 need not hold the context pointer.
   */
  lemma JumpSkipsCopy(cfg: Config, keys: set<nat>, rets: set<nat>, s: State, ctx: U64)
    requires Valid(s) && s.regs[3] == 0 && s.regs[2] != ctx && 1 in keys && 2 in keys
    ensures var insns := [Insn(0x15, 3, 0, 1, 0), Insn(OP_MOV64_REG, 2, 1, 0, 0), Insn(OP_LDXW, 0, 2, 0, 0)];
      var t := Taint.UpdateArray(Taint.UpdateArray(Taint.Initial(), insns[0]), insns[1]);
      var l := LowerInsn(cfg, insns, keys, rets, Taint.Initial(), 0);
      l.Success? && l.value.ops == [] && l.value.term.Some? &&
      ExecTerm(l.value.term.value, s, rets) == Jump(2, s) &&
      LowerInsn(cfg, insns, keys, rets, t, 2) == Success(One(PacketLoad(0, 2, 0))) &&
      !Taint.Sound(t, s.regs, ctx)
  {
    var insns := [Insn(0x15, 3, 0, 1, 0), Insn(OP_MOV64_REG, 2, 1, 0, 0), Insn(OP_LDXW, 0, 2, 0, 0)];
    assert Classify(0x15) == Some(JmpK(Eq, false, false));
    assert Blocks.JumpTarget(insns, 0) == 2;
    var t := Taint.UpdateArray(Taint.UpdateArray(Taint.Initial(), insns[0]), insns[1]);
    assert t[2];
  }
}

=== FILE: translator.dfy ===
/**
  The translation of an instruction list into a program of basic blocks.
  The blocks are abstract: each is a list of straight-line operations and
  one terminator, keyed by the index of its first instruction. The
  translation walks the instructions once in order. It switches to a new
  block at every marked index, rejects registers above r10, rebases 32-bit
  loads through the context pointer, lowers each instruction by its opcode,
  and finally closes every block left without a terminator with a branch
  to the next block.
 */
module Translator {
  import opened Wrappers
  import opened Isa
  import Alu
  import Lddw
  import Blocks
  import Taint
  import ExtTable

  /**
    What the translation depends on besides the instructions: the jump test,
    the acceptance tests of the byte-swap and helper-call emitters, the wide
    load callbacks, whether map values are patched at translation time, and
    the wide load helper names that were declared.
   */
  datatype Config = Config(
    isJmp: Insn -> bool,
    endianOk: Insn -> bool,
    helperOk: U32 -> bool,
    resolvers: Lddw.Resolvers,
    patchMapVal: bool,
    lddwHelpers: seq<seq<char>>)

  datatype Operand = Reg(r: nat) | Imm(v: U64)

  datatype AtomicOp = AtomicAdd | AtomicAnd | AtomicOr | AtomicXor | AtomicXchg

  /** The straight-line operations a block can hold. */
  datatype Op =
    | Arith(op: AluOp, is64: bool, dst: nat, operand: Operand)
    | Negate(is64: bool, dst: nat)
    | Swap(toBig: bool, width: U32, dst: nat)
    | Load(size: Size, dst: nat, base: nat, off: int)
    | PacketLoad(dst: nat, base: nat, off: int)
    | Store(size: Size, base: nat, off: int, val: Operand)
    | Const(dst: nat, value: U64)
    | MapValue(dst: nat, mapPtr: U64, addend: U64)
    | HelperCall(index: U32)
    | Atomic(aop: AtomicOp, is64: bool, base: nat, src: nat, off: int, fetch: bool)
    | CmpXchg(is64: bool, base: nat, src: nat, off: int)

  /** How a block ends. Targets are block keys. */
  datatype Term =
    | Goto(target: nat)
    | Branch(cmp: CmpOp, is32: bool, dst: nat, operand: Operand, target: nat, next: nat)
    | Call(ret: nat, target: nat)
    | Exit

  /** A block while it is being filled, and once it is closed. */
  datatype Partial = Partial(ops: seq<Op>, term: Option<Term>)
  datatype Block = Block(ops: seq<Op>, term: Term)

  /** The translated program: blocks by first instruction, entered at 0, and the return blocks of local calls. */
  datatype Program = Program(blocks: map<nat, Block>, retBlocks: set<nat>)

  datatype Error =
    | NoInstructions                            // "No instructions provided"
    | BlockNotFound(pc: nat)                    // "... marked block begin, but no BasicBlock* found"
    | IllegalRegister(pc: nat)                  // "Illegal src reg/dst reg at pc ..."
    | WideLoadFailed(pc: nat, reason: Lddw.LddwError)
    | EndianFailed(pc: nat)
    | JumpTargetMissing(pc: nat)
    | ReturnBlockMissing(pc: nat)
    | HelperCallFailed(pc: nat)
    | UnsupportedAtomic(pc: nat, imm: U32)      // "Unsupported atomic operation: ..."
    | UnsupportedOpcode(pc: nat, code: Byte)    // "Unsupported or illegal opcode: ..."
    | InvalidModule                             // "Invalid module generated"
  {
    /** The error is raised by the instruction at `p`. */
    predicate At(p: nat) {
      !NoInstructions? && !InvalidModule? && pc == p
    }
  }

  /** The indices the loop counter can reach: it is 16 bits wide. */
  const MaxInsns: nat := 65535

  /** Instruction slots the instruction at `pc` occupies. */
  function Width(insns: seq<Insn>, pc: nat): (w: nat)
    requires pc < |insns|
    ensures w == 1 || w == 2
  {
    if insns[pc].code == OP_LDDW then 2 else 1
  }

  /** Where a local call lands: one past the call, moved by the signed immediate. */
  function CallTarget(insns: seq<Insn>, pc: nat): int
    requires pc < |insns|
  {
    pc + Signed(insns[pc].imm, TwoTo32) + 1
  }

  function Starts(marks: seq<bool>): (s: set<nat>)
    ensures forall k :: k in s <==> 0 <= k < |marks| && marks[k]
  {
    set k: nat | k < |marks| && marks[k]
  }

  predicate OperandOk(o: Operand) {
    o.Reg? ==> o.r <= MaxReg
  }

  /** Every register an operation names is r0..r10. */
  predicate OpOk(o: Op) {
    match o
    case Arith(_, _, dst, operand) => dst <= MaxReg && OperandOk(operand)
    case Negate(_, dst) => dst <= MaxReg
    case Swap(_, _, dst) => dst <= MaxReg
    case Load(_, dst, base, _) => dst <= MaxReg && base <= MaxReg
    case PacketLoad(dst, base, _) => dst <= MaxReg && base <= MaxReg
    case Store(_, base, _, val) => base <= MaxReg && OperandOk(val)
    case Const(dst, _) => dst <= MaxReg
    case MapValue(dst, _, _) => dst <= MaxReg
    case HelperCall(_) => true
    case Atomic(_, _, base, src, _, _) => base <= MaxReg && src <= MaxReg
    case CmpXchg(_, base, src, _) => base <= MaxReg && src <= MaxReg
  }

  /** A terminator only names existing blocks, and a call's return block is a registered one. */
  predicate TermOk(t: Term, keys: set<nat>, rets: set<nat>) {
    match t
    case Goto(x) => x in keys
    case Branch(_, _, dst, operand, x, y) => dst <= MaxReg && OperandOk(operand) && x in keys && y in keys
    case Call(ret, x) => ret in rets && x in keys
    case Exit => true
  }

  /** What one instruction contributes to its block. */
  datatype Emission = Emission(ops: seq<Op>, term: Option<Term>, width: nat)

  predicate EmissionOk(e: Emission, keys: set<nat>, rets: set<nat>) {
    (forall k :: 0 <= k < |e.ops| ==> OpOk(e.ops[k])) &&
    (e.term.Some? ==> TermOk(e.term.value, keys, rets))
  }

  /** An emission that reads no packet: the rebased load comes only from the flag check. */
  predicate Plain(e: Emission) {
    forall k :: 0 <= k < |e.ops| ==> !e.ops[k].PacketLoad?
  }

  function One(o: Op): Emission { Emission([o], None, 1) }

  function Ends(t: Term): Emission { Emission([], Some(t), 1) }

  /** The atomic operation an immediate selects, with its fetch flag; None for the error default. */
  function AtomicOf(imm: U32): Option<(AtomicOp, bool)> {
    if imm == ATOMIC_ADD then Some((AtomicAdd, false))
    else if imm == ATOMIC_ADD + FETCH then Some((AtomicAdd, true))
    else if imm == ATOMIC_AND then Some((AtomicAnd, false))
    else if imm == ATOMIC_AND + FETCH then Some((AtomicAnd, true))
    else if imm == ATOMIC_OR then Some((AtomicOr, false))
    else if imm == ATOMIC_OR + FETCH then Some((AtomicOr, true))
    else if imm == ATOMIC_XOR then Some((AtomicXor, false))
    else if imm == ATOMIC_XOR + FETCH then Some((AtomicXor, true))
    else if imm == XCHG then Some((AtomicXchg, false))
    else None
  }

  /**
    The lowering of one instruction by its opcode (the translator's main
    switch). `keys` are the block starts and `rets` the return blocks.
   */
  function Emit(cfg: Config, insns: seq<Insn>, keys: set<nat>, rets: set<nat>, pc: nat): (r: Result<Emission, Error>)
    requires pc < |insns| && RegsOk(insns[pc])
    ensures r.Success? ==> r.value.width == Width(insns, pc) && EmissionOk(r.value, keys, rets) && Plain(r.value)
    ensures r.Failure? ==> r.error.At(pc) && !r.error.BlockNotFound?
    ensures Classify(insns[pc].code).None? ==> r == Failure(UnsupportedOpcode(pc, insns[pc].code))
    ensures Classify(insns[pc].code) == Some(LdxK(W)) ==> r == Success(One(Load(W, insns[pc].dst, insns[pc].src, SignedOff(insns[pc]))))
  {
    var i := insns[pc];
    LddwOpcode(i.code);
    match Classify(i.code)
    case None => Failure(UnsupportedOpcode(pc, i.code))
    case Some(k) =>
      match k
      case AluK(op, is64, useReg) =>
        Success(One(Arith(op, is64, i.dst, if useReg then Reg(i.src) else Imm(Alu.ImmOperand(is64, i.imm)))))
      case NegK(is64) => Success(One(Negate(is64, i.dst)))
      case EndK(toBig) =>
        if cfg.endianOk(i) then Success(One(Swap(toBig, i.imm, i.dst))) else Failure(EndianFailed(pc))
      case LdxK(s) => Success(One(Load(s, i.dst, i.src, SignedOff(i))))
      case StK(s) => Success(One(Store(s, i.dst, SignedOff(i), Imm(Sext32(i.imm)))))
      case StxK(s) => Success(One(Store(s, i.dst, SignedOff(i), Reg(i.src))))
      case LddwK => EmitWide(cfg, insns, pc)
      case JaK => EmitJump(insns, keys, pc)
      case JmpK(cmp, is32, useReg) => EmitBranch(insns, keys, pc, cmp, is32, useReg)
      case CallK(_) => EmitCall(cfg, insns, keys, rets, pc)
      case ExitK => Success(Ends(Exit))
      case AtomicK(is64) => EmitAtomic(insns, pc, is64)
  }

  /** Only opcode 0x18 selects the wide load. */
  lemma LddwOpcode(code: Byte)
    ensures Classify(code) == Some(LddwK) <==> code == OP_LDDW
  {
    if Classify(code) == Some(LddwK) {
      EncodeClassify(code);
    }
  }

  /** The wide load helper is declared when its name was handed to the translation. */
  predicate MapValDeclared(cfg: Config) {
    ExtTable.LddwHelperMapVal in cfg.lddwHelpers
  }

  /**
    A wide load: one constant or map-value operation into the destination,
    two slots; it fails exactly when the wide load's validation or
    relocation does, with that reason.
   */
  function EmitWide(cfg: Config, insns: seq<Insn>, pc: nat): (r: Result<Emission, Error>)
    requires pc < |insns| && RegsOk(insns[pc])
    ensures var load := Lddw.Lower(cfg.resolvers, cfg.patchMapVal, MapValDeclared(cfg), insns, pc);
      (r.Failure? <==> load.Failure?) &&
      (r.Failure? ==> r.error == WideLoadFailed(pc, load.error)) &&
      (r.Success? ==> (|r.value.ops| == 0 <==> load.value.NoStore?))
    ensures r.Success? ==> r.value.width == 2 && r.value.term.None? && |r.value.ops| <= 1 && Plain(r.value)
    ensures r.Success? ==> forall k :: 0 <= k < |r.value.ops| ==> OpOk(r.value.ops[k])
    ensures r.Success? ==> forall k :: 0 <= k < |r.value.ops| ==>
      (r.value.ops[k].Const? || r.value.ops[k].MapValue?) && r.value.ops[k].dst == insns[pc].dst
  {
    var i := insns[pc];
    var load := Lddw.Lower(cfg.resolvers, cfg.patchMapVal, MapValDeclared(cfg), insns, pc);
    if load.Failure? then Failure(WideLoadFailed(pc, load.error))
    else if load.value.StoreConst? then Success(Emission([Const(i.dst, load.value.value)], None, 2))
    else if load.value.CallMapVal? then Success(Emission([MapValue(i.dst, load.value.mapPtr, load.value.addend)], None, 2))
    else Success(Emission([], None, 2))
  }

  /** An unconditional jump to the block at its target. */
  function EmitJump(insns: seq<Insn>, keys: set<nat>, pc: nat): (r: Result<Emission, Error>)
    requires pc < |insns|
    ensures r.Success? <==> Blocks.JumpTarget(insns, pc) in keys
    ensures r.Success? ==> r == Success(Ends(Goto(Blocks.JumpTarget(insns, pc))))
    ensures r.Failure? ==> r == Failure(JumpTargetMissing(pc))
  {
    var t := Blocks.JumpTarget(insns, pc);
    if t >= 0 && t in keys then Success(Ends(Goto(t))) else Failure(JumpTargetMissing(pc))
  }

  /** A conditional jump: to its target when the comparison holds, else to the next instruction's block. */
  function EmitBranch(insns: seq<Insn>, keys: set<nat>, pc: nat, cmp: CmpOp, is32: bool, useReg: bool): (r: Result<Emission, Error>)
    requires pc < |insns| && RegsOk(insns[pc])
    ensures r.Success? <==> Blocks.JumpTarget(insns, pc) in keys && pc + 1 in keys
    ensures r.Success? ==> r.value.width == 1 && r.value.ops == [] && r.value.term.Some?
    ensures r.Success? ==> r.value.term.value.Branch? && TermOk(r.value.term.value, keys, {})
    ensures r.Success? ==> r.value.term.value.target == Blocks.JumpTarget(insns, pc) && r.value.term.value.next == pc + 1
    ensures r.Failure? ==> r == Failure(JumpTargetMissing(pc))
  {
    var i := insns[pc];
    var t := Blocks.JumpTarget(insns, pc);
    if t >= 0 && t in keys && pc + 1 in keys then
      Success(Ends(Branch(cmp, is32, i.dst, if useReg then Reg(i.src) else Imm(Alu.ImmOperand(!is32, i.imm)), t, pc + 1)))
    else Failure(JumpTargetMissing(pc))
  }

  /**
    A call: with source register 1 a program-local call, which needs the
    return block after it and a block at its target; otherwise a helper call.
   */
  function EmitCall(cfg: Config, insns: seq<Insn>, keys: set<nat>, rets: set<nat>, pc: nat): (r: Result<Emission, Error>)
    requires pc < |insns|
    ensures insns[pc].src == 1 && pc + 1 !in rets ==> r == Failure(ReturnBlockMissing(pc))
    ensures insns[pc].src == 1 && pc + 1 in rets ==>
      (r.Success? <==> CallTarget(insns, pc) in keys) &&
      (r.Success? ==> r == Success(Ends(Call(pc + 1, CallTarget(insns, pc))))) &&
      (r.Failure? ==> r == Failure(JumpTargetMissing(pc)))
    ensures insns[pc].src != 1 ==>
      r == if cfg.helperOk(insns[pc].imm) then Success(One(HelperCall(insns[pc].imm))) else Failure(HelperCallFailed(pc))
  {
    var i := insns[pc];
    if i.src == 1 then
      var t := CallTarget(insns, pc);
      if pc + 1 !in rets then Failure(ReturnBlockMissing(pc))
      else if t >= 0 && t in keys then Success(Ends(Call(pc + 1, t)))
      else Failure(JumpTargetMissing(pc))
    else if cfg.helperOk(i.imm) then Success(One(HelperCall(i.imm)))
    else Failure(HelperCallFailed(pc))
  }

  /** An atomic memory operation selected by the immediate. */
  function EmitAtomic(insns: seq<Insn>, pc: nat, is64: bool): (r: Result<Emission, Error>)
    requires pc < |insns| && RegsOk(insns[pc])
    ensures r.Failure? <==> insns[pc].imm != CMPXCHG && AtomicOf(insns[pc].imm).None?
    ensures r.Failure? ==> r == Failure(UnsupportedAtomic(pc, insns[pc].imm))
    ensures r.Success? ==> r.value.width == 1 && r.value.term.None? && |r.value.ops| == 1 && OpOk(r.value.ops[0]) && Plain(r.value)
    ensures insns[pc].imm == CMPXCHG ==> r == Success(One(CmpXchg(is64, insns[pc].dst, insns[pc].src, SignedOff(insns[pc]))))
  {
    var i := insns[pc];
    if i.imm == CMPXCHG then Success(One(CmpXchg(is64, i.dst, i.src, SignedOff(i))))
    else match AtomicOf(i.imm)
      case Some((aop, fetch)) => Success(One(Atomic(aop, is64, i.dst, i.src, SignedOff(i), fetch)))
      case None => Failure(UnsupportedAtomic(pc, i.imm))
  }

  /**
    One step of the loop after the block switch: the register check, then
    the rebased 32-bit load through a flagged register, then the switch.
   */
  function LowerInsn(cfg: Config, insns: seq<Insn>, keys: set<nat>, rets: set<nat>, taint: seq<bool>, pc: nat): (r: Result<Emission, Error>)
    requires pc < |insns| && |taint| == Taint.NumRegs
    ensures !RegsOk(insns[pc]) ==> r == Failure(IllegalRegister(pc))
    ensures RegsOk(insns[pc]) && insns[pc].code == OP_LDXW && taint[insns[pc].src] ==>
      r == Success(One(PacketLoad(insns[pc].dst, insns[pc].src, SignedOff(insns[pc]))))
    ensures r.Success? ==> RegsOk(insns[pc]) && r.value.width == Width(insns, pc) && EmissionOk(r.value, keys, rets)
    ensures r.Success? ==> forall k :: 0 <= k < |r.value.ops| && r.value.ops[k].PacketLoad? ==>
      insns[pc].code == OP_LDXW && taint[insns[pc].src]
    ensures r.Failure? ==> r.error.At(pc) && !r.error.BlockNotFound?
  {
    var i := insns[pc];
    if !RegsOk(i) then Failure(IllegalRegister(pc))
    else if i.code == OP_LDXW && taint[i.src] then Success(One(PacketLoad(i.dst, i.src, SignedOff(i))))
    else Emit(cfg, insns, keys, rets, pc)
  }

  /** The state of the loop: the current block, the blocks so far, the flags, and whether a block was written past its terminator. */
  datatype Builder = Builder(cur: nat, blocks: map<nat, Partial>, taint: seq<bool>, broken: bool)

  predicate BuilderOk(b: Builder, keys: set<nat>, rets: set<nat>) {
    b.blocks.Keys == keys && b.cur in keys && |b.taint| == Taint.NumRegs &&
    forall k {:trigger b.blocks[k]} :: k in b.blocks ==> PartialOk(b.blocks[k], keys, rets)
  }

  predicate PartialOk(p: Partial, keys: set<nat>, rets: set<nat>) {
    (forall k :: 0 <= k < |p.ops| ==> OpOk(p.ops[k])) &&
    (p.term.Some? ==> TermOk(p.term.value, keys, rets))
  }

  /**
    Appends an emission to the current block. Anything emitted into a block
    that already ends in a terminator makes the module invalid.
   */
  function Append(b: Builder, e: Emission): (r: Builder)
    requires b.cur in b.blocks
    ensures r.blocks.Keys == b.blocks.Keys && r.cur == b.cur && r.taint == b.taint
    ensures forall k :: k in b.blocks && k != b.cur ==> r.blocks[k] == b.blocks[k]
    ensures r.broken <==> b.broken || (b.blocks[b.cur].term.Some? && (|e.ops| > 0 || e.term.Some?))
    ensures !r.broken ==> r.blocks[b.cur].ops == b.blocks[b.cur].ops + e.ops
  {
    var blk := b.blocks[b.cur];
    if blk.term.Some? && (|e.ops| > 0 || e.term.Some?) then b.(broken := true)
    else b.(blocks := b.blocks[b.cur := Partial(blk.ops + e.ops, if blk.term.Some? then blk.term else e.term)])
  }

  lemma AppendOk(b: Builder, e: Emission, keys: set<nat>, rets: set<nat>)
    requires BuilderOk(b, keys, rets) && EmissionOk(e, keys, rets)
    ensures BuilderOk(Append(b, e), keys, rets)
  {
    var r := Append(b, e);
    forall k | k in r.blocks
      ensures PartialOk(r.blocks[k], keys, rets)
    {
      if k == b.cur && !r.broken && r != b {
        var p := r.blocks[k];
        assert p.ops == b.blocks[k].ops + e.ops;
        forall j | 0 <= j < |p.ops|
          ensures OpOk(p.ops[j])
        {
          if j < |b.blocks[k].ops| {
            assert p.ops[j] == b.blocks[k].ops[j];
          } else {
            assert p.ops[j] == e.ops[j - |b.blocks[k].ops|];
          }
        }
      }
    }
  }

  /**
    The translation loop from `pc` on. It fails exactly when an instruction
    it visits raises an error, and then with the first such error.
   */
  function Walk(cfg: Config, insns: seq<Insn>, marks: seq<bool>, rets: set<nat>, b: Builder, pc: nat): (r: Result<Builder, Error>)
    requires |marks| == |insns| && BuilderOk(b, Starts(marks), rets)
    ensures r.Success? ==> BuilderOk(r.value, Starts(marks), rets)
    ensures r.Failure? <==> FirstError(cfg, insns, Starts(marks), rets, pc).Some?
    ensures r.Failure? ==> r.error == FirstError(cfg, insns, Starts(marks), rets, pc).value
    decreases |insns| - pc, 2
  {
    if pc >= |insns| then Success(b)
    else if marks[pc] && pc !in b.blocks then Failure(BlockNotFound(pc))
    else Step(cfg, insns, marks, rets, Enter(marks, b, pc), pc)
  }

  /** One turn of the loop after the block switch: the instruction is lowered with the current flags. */
  function Step(cfg: Config, insns: seq<Insn>, marks: seq<bool>, rets: set<nat>, b: Builder, pc: nat): (r: Result<Builder, Error>)
    requires |marks| == |insns| && BuilderOk(b, Starts(marks), rets) && pc < |insns|
    ensures r.Success? ==> BuilderOk(r.value, Starts(marks), rets)
    ensures r.Failure? <==> FirstError(cfg, insns, Starts(marks), rets, pc).Some?
    ensures r.Failure? ==> r.error == FirstError(cfg, insns, Starts(marks), rets, pc).value
    decreases |insns| - pc, 1
  {
    FirstErrorStep(cfg, insns, Starts(marks), rets, b.taint, pc);
    Continue(cfg, insns, marks, rets, b, pc, LowerInsn(cfg, insns, Starts(marks), rets, b.taint, pc))
  }

  /**
    The rest of one turn of the loop, given the lowering `l` of the
    instruction at `pc`: its error, or its emission appended and the walk
    resumed past the instruction.
   */
  function Continue(cfg: Config, insns: seq<Insn>, marks: seq<bool>, rets: set<nat>, b: Builder, pc: nat, l: Result<Emission, Error>): (r: Result<Builder, Error>)
    requires |marks| == |insns| && BuilderOk(b, Starts(marks), rets) && pc < |insns|
    requires l.Success? ==> RegsOk(insns[pc]) && l.value.width >= 1 && EmissionOk(l.value, Starts(marks), rets)
    requires l.Success? ==> FirstError(cfg, insns, Starts(marks), rets, pc) == FirstError(cfg, insns, Starts(marks), rets, pc + l.value.width)
    requires l.Failure? ==> FirstError(cfg, insns, Starts(marks), rets, pc) == Some(l.error)
    ensures r.Success? ==> BuilderOk(r.value, Starts(marks), rets)
    ensures r.Failure? <==> FirstError(cfg, insns, Starts(marks), rets, pc).Some?
    ensures r.Failure? ==> r.error == FirstError(cfg, insns, Starts(marks), rets, pc).value
    decreases |insns| - pc, 0
  {
    match l
    case Failure(e) => Failure(e)
    case Success(em) => Walk(cfg, insns, marks, rets, Advance(b, em, insns[pc], Starts(marks), rets), pc + em.width)
  }

  /** A block start makes its block the current one. */
  function Enter(marks: seq<bool>, b: Builder, pc: nat): Builder
    requires pc < |marks|
  {
    if marks[pc] then b.(cur := pc) else b
  }

  /** The builder after an instruction's emission: appended, and the flags updated. */
  function Advance(b: Builder, em: Emission, i: Insn, keys: set<nat>, rets: set<nat>): (r: Builder)
    requires BuilderOk(b, keys, rets) && EmissionOk(em, keys, rets) && RegsOk(i)
    ensures BuilderOk(r, keys, rets)
  {
    AppendOk(b, em, keys, rets);
    Append(b, em).(taint := Taint.UpdateArray(b.taint, i))
  }

  /** The first block start after `k`. */
  function NextStart(marks: seq<bool>, k: nat): (r: Option<nat>)
    ensures r.Some? ==> k < r.value < |marks| && marks[r.value] && forall j :: k < j < r.value ==> !marks[j]
    ensures r.None? ==> forall j :: k < j < |marks| ==> !marks[j]
    decreases |marks| - k
  {
    if k + 1 >= |marks| then None
    else if marks[k + 1] then Some(k + 1)
    else NextStart(marks, k + 1)
  }

  /** A block without terminator falls through to the next block; the last block has nowhere to go. */
  predicate Unclosable(marks: seq<bool>, b: Builder, k: nat)
    requires k in b.blocks
  {
    b.blocks[k].term.None? && NextStart(marks, k).None?
  }

  function Close(p: Partial, next: Option<nat>): Block
    requires p.term.Some? || next.Some?
  {
    Block(p.ops, if p.term.Some? then p.term.value else Goto(next.value))
  }

  /** The fall-through pass and the module check. */
  function Finalize(marks: seq<bool>, b: Builder, rets: set<nat>): (r: Result<Program, Error>)
    requires BuilderOk(b, Starts(marks), rets)
    ensures r.Failure? ==> r.error == InvalidModule
    ensures r.Failure? <==> b.broken || exists k :: k in b.blocks && Unclosable(marks, b, k)
    ensures r.Success? ==> r.value.blocks.Keys == Starts(marks) && r.value.retBlocks == rets
    ensures r.Success? ==> forall k {:trigger r.value.blocks[k]} :: k in r.value.blocks ==>
      r.value.blocks[k].ops == b.blocks[k].ops &&
      TermOk(r.value.blocks[k].term, Starts(marks), rets) &&
      (b.blocks[k].term.Some? ==> r.value.blocks[k].term == b.blocks[k].term.value) &&
      (b.blocks[k].term.None? ==> r.value.blocks[k].term == Goto(NextStart(marks, k).value))
  {
    if b.broken || exists k :: k in b.blocks && Unclosable(marks, b, k) then Failure(InvalidModule)
    else Success(Program(map k | k in b.blocks :: Close(b.blocks[k], NextStart(marks, k)), rets))
  }

  /**
    The whole translation, with the return blocks the block creation loop
    registers (its `i > 1` guard).
   */
  function Translate(cfg: Config, insns: seq<Insn>): (r: Result<Program, Error>)
    requires |insns| <= MaxInsns
    ensures r == Failure(NoInstructions) <==> |insns| == 0
    ensures r.Success? ==> r.value.retBlocks == Blocks.RetBlocksAsWritten(cfg.isJmp, insns)
  {
    TranslateWith(cfg, insns, Blocks.RetBlocksAsWritten(cfg.isJmp, insns))
  }

  /** The translation with the `i >= 1` guard, under which every local call has its return block. */
  function TranslateFixed(cfg: Config, insns: seq<Insn>): (r: Result<Program, Error>)
    requires |insns| <= MaxInsns
    ensures r == Failure(NoInstructions) <==> |insns| == 0
    ensures r.Success? ==> r.value.retBlocks == Blocks.RetBlocks(cfg.isJmp, insns)
  {
    TranslateWith(cfg, insns, Blocks.RetBlocks(cfg.isJmp, insns))
  }

  /**
    The translation given the set of registered return blocks: the block
    creation, the walk over the instructions, and the final pass.
   */
  function TranslateWith(cfg: Config, insns: seq<Insn>, rets: set<nat>): (r: Result<Program, Error>)
    requires |insns| <= MaxInsns && rets <= Starts(Blocks.BlockBegin(cfg.isJmp, insns))
    ensures r == Failure(NoInstructions) <==> |insns| == 0
    ensures r.Failure? ==> !r.error.BlockNotFound?
    ensures r.Success? ==>
      r.value.blocks.Keys == Starts(Blocks.BlockBegin(cfg.isJmp, insns)) &&
      0 in r.value.blocks &&
      r.value.retBlocks == rets &&
      WellFormed(r.value)
    ensures |insns| > 0 ==>
      var fe := FirstError(cfg, insns, Starts(Blocks.BlockBegin(cfg.isJmp, insns)), rets, 0);
      (fe.Some? ==> r == Failure(fe.value)) &&
      (fe.None? ==> r.Success? || r == Failure(InvalidModule))
  {
    if |insns| == 0 then Failure(NoInstructions)
    else
      var marks := Blocks.BlockBegin(cfg.isJmp, insns);
      var b := Builder(0, map k | k in Starts(marks) :: Partial([], None), Taint.Initial(), false);
      match Walk(cfg, insns, marks, rets, b, 0)
      case Failure(e) => Failure(e)
      case Success(b') =>
        var r := Finalize(marks, b', rets);
        if r.Success? then
          WellFormedOf(r.value, marks, rets);
          r
        else r
  }

  /** Both guards register the same return blocks unless a local call sits at index 0. */
  lemma RetGuardsAgree(cfg: Config, insns: seq<Insn>)
    requires |insns| <= MaxInsns
    requires |insns| < 2 || !IsLocalCall(insns[0])
    ensures Blocks.RetBlocksAsWritten(cfg.isJmp, insns) == Blocks.RetBlocks(cfg.isJmp, insns)
    ensures Translate(cfg, insns) == TranslateFixed(cfg, insns)
  {
    Blocks.RetBlocksDifferOnlyAtOne(cfg.isJmp, insns);
    assert 1 !in Blocks.RetBlocks(cfg.isJmp, insns);
  }

  /**
    A local call at index 0 whose return block exists is rejected as
    written, because index 1 is never registered; the corrected guard
    registers it and the call lowers.
   */
  lemma CallAtZeroRejected(cfg: Config)
    requires cfg.isJmp(Insn(OP_CALL, 0, 1, 0, 0))
    ensures var insns := [Insn(OP_CALL, 0, 1, 0, 0), Insn(OP_EXIT, 0, 0, 0, 0)];
      Translate(cfg, insns) == Failure(ReturnBlockMissing(0)) &&
      FirstError(cfg, insns, Starts(Blocks.BlockBegin(cfg.isJmp, insns)), Blocks.RetBlocks(cfg.isJmp, insns), 0).None?
  {
    var insns := [Insn(OP_CALL, 0, 1, 0, 0), Insn(OP_EXIT, 0, 0, 0, 0)];
    Blocks.CallAtZeroHasNoReturnBlock(cfg.isJmp);
    var keys := Starts(Blocks.BlockBegin(cfg.isJmp, insns));
    assert 0 in keys && 1 in keys;
    assert Classify(OP_CALL) == Some(CallK(false));
    assert Classify(OP_EXIT) == Some(ExitK);
    assert ErrorFrom(cfg, insns, keys, Blocks.RetBlocksAsWritten(cfg.isJmp, insns), 0) == Some(ReturnBlockMissing(0));
    var rets := Blocks.RetBlocks(cfg.isJmp, insns);
    assert CallTarget(insns, 0) == 1;
    assert Check(cfg, insns, keys, rets, 1).None?;
    assert FirstError(cfg, insns, keys, rets, 2).None?;
    assert ErrorFrom(cfg, insns, keys, rets, 1).None?;
    assert FirstError(cfg, insns, keys, rets, 1).None?;
    assert Check(cfg, insns, keys, rets, 0).None?;
    assert ErrorFrom(cfg, insns, keys, rets, 0).None?;
  }

  /** Every block's operations name registers r0..r10 and its terminator names existing blocks. */
  predicate WellFormed(p: Program) {
    p.retBlocks <= p.blocks.Keys &&
    forall k {:trigger p.blocks[k]} :: k in p.blocks ==>
      (forall j :: 0 <= j < |p.blocks[k].ops| ==> OpOk(p.blocks[k].ops[j])) &&
      TermOk(p.blocks[k].term, p.blocks.Keys, p.retBlocks)
  }

  lemma WellFormedOf(p: Program, marks: seq<bool>, rets: set<nat>)
    requires p.blocks.Keys == Starts(marks) && p.retBlocks == rets && rets <= Starts(marks)
    requires forall k {:trigger p.blocks[k]} :: k in p.blocks ==>
      (forall j :: 0 <= j < |p.blocks[k].ops| ==> OpOk(p.blocks[k].ops[j])) &&
      TermOk(p.blocks[k].term, Starts(marks), rets)
    ensures WellFormed(p)
  {
  }

  // The order in which errors are reported.

  /** The error the instruction at `pc` raises, if any; the flags play no part. */
  function Check(cfg: Config, insns: seq<Insn>, keys: set<nat>, rets: set<nat>, pc: nat): Option<Error>
    requires pc < |insns|
  {
    if !RegsOk(insns[pc]) then Some(IllegalRegister(pc))
    else
      var e := Emit(cfg, insns, keys, rets, pc);
      if e.Failure? then Some(e.error) else None
  }

  /** A flagged 32-bit load never fails where the unflagged one would not, and vice versa. */
  lemma LowerInsnMatchesCheck(cfg: Config, insns: seq<Insn>, keys: set<nat>, rets: set<nat>, taint: seq<bool>, pc: nat)
    requires pc < |insns| && |taint| == Taint.NumRegs
    ensures LowerInsn(cfg, insns, keys, rets, taint, pc).Failure? <==> Check(cfg, insns, keys, rets, pc).Some?
    ensures LowerInsn(cfg, insns, keys, rets, taint, pc).Failure? ==>
      LowerInsn(cfg, insns, keys, rets, taint, pc).error == Check(cfg, insns, keys, rets, pc).value
  {
    if RegsOk(insns[pc]) && insns[pc].code == OP_LDXW {
      assert Classify(OP_LDXW) == Some(LdxK(W));
    }
  }

  /** The first error along the instructions the loop visits from `pc` on (a wide load covers two slots). */
  function FirstError(cfg: Config, insns: seq<Insn>, keys: set<nat>, rets: set<nat>, pc: nat): (r: Option<Error>)
    ensures r.Some? ==> !r.value.NoInstructions? && !r.value.InvalidModule? && !r.value.BlockNotFound?
    decreases |insns| - pc, 1
  {
    if pc >= |insns| then None else ErrorFrom(cfg, insns, keys, rets, pc)
  }

  /** The error of the instruction at `pc`, or else the first error after it. */
  function ErrorFrom(cfg: Config, insns: seq<Insn>, keys: set<nat>, rets: set<nat>, pc: nat): (r: Option<Error>)
    requires pc < |insns|
    ensures r.Some? ==> !r.value.NoInstructions? && !r.value.InvalidModule? && !r.value.BlockNotFound?
    decreases |insns| - pc, 0
  {
    var c := Check(cfg, insns, keys, rets, pc);
    if c.Some? then c else FirstError(cfg, insns, keys, rets, pc + Width(insns, pc))
  }

  /** The first error from `pc` on is the lowering's own error, or else the first error after it. */
  lemma FirstErrorStep(cfg: Config, insns: seq<Insn>, keys: set<nat>, rets: set<nat>, taint: seq<bool>, pc: nat)
    requires pc < |insns| && |taint| == Taint.NumRegs
    ensures var l := LowerInsn(cfg, insns, keys, rets, taint, pc);
      (l.Failure? ==> FirstError(cfg, insns, keys, rets, pc) == Some(l.error)) &&
      (l.Success? ==> FirstError(cfg, insns, keys, rets, pc) == FirstError(cfg, insns, keys, rets, pc + l.value.width))
  {
    LowerInsnMatchesCheck(cfg, insns, keys, rets, taint, pc);
  }

  /** An out-of-range register in the first instruction is reported whatever follows. */
  lemma BadRegisterFirst(cfg: Config, insns: seq<Insn>)
    requires 1 <= |insns| <= MaxInsns && !RegsOk(insns[0])
    ensures Translate(cfg, insns) == Failure(IllegalRegister(0))
  {
    var keys := Starts(Blocks.BlockBegin(cfg.isJmp, insns));
    assert ErrorFrom(cfg, insns, keys, Blocks.RetBlocksAsWritten(cfg.isJmp, insns), 0) == Some(IllegalRegister(0));
  }
}

=== FILE: uart.dfy ===
/**
  The text routines of the bare-metal runtime. Character buffers are
  sequences; a C string is a buffer holding a NUL, read up to the first
  one. Each formatting routine writes its text at the start of the buffer
  and leaves the rest of it alone, so it is stated against a reference
  rendering: the decimal or upper-case hexadecimal digits of the value.
  Output to the UART is the sequence of characters written.
 */
module Uart {
  import opened Isa
  import opened Digits

  const Nul: char := '\0'
  const IntMin: int := -0x8000_0000

  /** A C `int`. */
  type I32 = x: int | IntMin <= x < 0x8000_0000

  /** A buffer holding a C string. */
  predicate HasNul(buf: seq<char>) {
    exists k :: 0 <= k < |buf| && buf[k] == Nul
  }

  /** Index of the first NUL. */
  function FirstNul(buf: seq<char>): (n: nat)
    requires HasNul(buf)
    ensures n < |buf| && buf[n] == Nul
    ensures forall k :: 0 <= k < n ==> buf[k] != Nul
  {
    if buf[0] == Nul then 0
    else
      var k :| 0 <= k < |buf| && buf[k] == Nul;
      assert buf[1..][k - 1] == Nul;
      1 + FirstNul(buf[1..])
  }

  /** The characters of the C string in `buf`. */
  function CString(buf: seq<char>): (s: seq<char>)
    requires HasNul(buf)
    ensures Nul !in s
  {
    buf[..FirstNul(buf)]
  }

  /** A C string's text is its own C string once terminated. */
  lemma CStringOfTerminated(s: seq<char>, rest: seq<char>)
    requires Nul !in s
    ensures HasNul(s + [Nul] + rest) && CString(s + [Nul] + rest) == s
  {
    var b := s + [Nul] + rest;
    assert b[|s|] == Nul;
    assert forall k :: 0 <= k < |s| ==> b[k] == s[k];
  }

  /** `strlen`: the index of the first NUL. */
  method Strlen(buf: seq<char>) returns (n: int)
    requires HasNul(buf)
    ensures n == FirstNul(buf) && n == |CString(buf)|
  {
    n := 0;
    while buf[n] != Nul
      invariant 0 <= n <= FirstNul(buf)
      decreases FirstNul(buf) - n
    {
      n := n + 1;
    }
  }

  /**
    `uart_puts`: every character before the NUL goes to the UART, in order,
    and their number is returned.
   */
  method UartPuts(buf: seq<char>) returns (out: seq<char>, size: int)
    requires HasNul(buf)
    ensures out == CString(buf) && size == |out|
    ensures Nul !in out
  {
    out := [];
    size := 0;
    var i := 0;
    while buf[i] != Nul
      invariant 0 <= i <= FirstNul(buf)
      invariant out == buf[..i] && size == i
      decreases FirstNul(buf) - i
    {
      out := out + [buf[i]];
      size := size + 1;
      i := i + 1;
    }
  }

  /**
    `strcpy`: the source string and its NUL are copied to the start of the
    destination, whose remaining characters are untouched; the destination
    must have room.
   */
  method Strcpy(dest: seq<char>, src: seq<char>) returns (d: seq<char>)
    requires HasNul(src) && FirstNul(src) < |dest|
    ensures |d| == |dest|
    ensures d[..FirstNul(src) + 1] == src[..FirstNul(src) + 1]
    ensures d[FirstNul(src) + 1..] == dest[FirstNul(src) + 1..]
    ensures HasNul(d) && CString(d) == CString(src)
  {
    d := dest;
    var i := 0;
    while src[i] != Nul
      invariant 0 <= i <= FirstNul(src)
      invariant |d| == |dest|
      invariant d[..i] == src[..i] && d[i..] == dest[i..]
      decreases FirstNul(src) - i
    {
      d := d[i := src[i]];
      i := i + 1;
    }
    d := d[i := Nul];
    assert d == CString(src) + [Nul] + d[i + 1..];
    CStringOfTerminated(CString(src), d[i + 1..]);
  }

  /**
    `reverse_string`: the first `length` characters are reversed in place by
    swapping from both ends; nothing else changes, and a length below 2
    changes nothing.
   */
  method ReverseString(buf: seq<char>, length: int) returns (r: seq<char>)
    requires length <= |buf|
    ensures |r| == |buf|
    ensures length > 0 ==> r[..length] == Reverse(buf[..length]) && r[length..] == buf[length..]
    ensures length <= 1 ==> r == buf
  {
    r := buf;
    var i := 0;
    while i < length - 1 - i
      invariant 0 <= i && (if length <= 0 then i == 0 else 2 * i <= length)
      invariant SwappedUpTo(r, buf, length, i)
    {
      r := SwapEnds(r, buf, length, i);
      i := i + 1;
    }
    if length > 0 {
      forall k | 0 <= k < length
        ensures r[k] == buf[length - 1 - k]
      {
        if length - i <= k {
          var k' := length - 1 - k;
          assert r[length - 1 - k'] == buf[k'];
        }
      }
    }
  }

  /** The first and last `i` characters of the first `length` are exchanged; the rest are as in `buf`. */
  predicate SwappedUpTo(r: seq<char>, buf: seq<char>, length: int, i: nat)
    requires length <= |buf|
  {
    |r| == |buf|
    && (forall k :: 0 <= k < i && k < length ==> r[k] == buf[length - 1 - k] && r[length - 1 - k] == buf[k])
    && (forall k :: i <= k < length - i ==> r[k] == buf[k])
    && (forall k :: 0 <= k < |buf| && k >= length ==> r[k] == buf[k])
  }

  /** One turn of the swapping loop. */
  method SwapEnds(r: seq<char>, buf: seq<char>, length: int, i: nat) returns (r': seq<char>)
    requires length <= |buf| && i < length - 1 - i && SwappedUpTo(r, buf, length, i)
    ensures SwappedUpTo(r', buf, length, i + 1)
  {
    var j := length - 1 - i;
    var c := r[i];
    r' := r[i := r[j]][j := c];
  }

  lemma ReverseSnoc<T>(s: seq<T>, c: T)
    ensures Reverse(s + [c]) == [c] + Reverse(s)
  {
  }

  // Decimal text.

  /** The text `itoa` is meant to produce: an optional '-', the digits of |n|, and the NUL. */
  function SignedDecimal(n: int): (s: seq<char>)
    ensures |s| >= 1 && Nul !in s
    ensures s[0] == '-' <==> n < 0
  {
    (if n < 0 then "-" else "") + Decimal(if n < 0 then -n else n)
  }

  /** Reading the text back: an optional '-' followed by decimal digits. */
  function ParseSigned(s: seq<char>): int {
    if |s| > 0 && s[0] == '-' then 0 - ParseDecimal(s[1..]) as int else ParseDecimal(s)
  }

  lemma SignedDecimalRoundTrip(n: int)
    ensures ParseSigned(SignedDecimal(n)) == n
  {
    var m := if n < 0 then -n else n;
    ParseDecimalOfDecimal(m);
    if n < 0 {
      assert SignedDecimal(n)[1..] == Decimal(m);
    } else {
      assert SignedDecimal(n) == Decimal(m);
    }
  }

  /**
    `itoa` with the magnitude taken without overflow: digits are produced
    least significant first, then the sign, then the NUL, and the digits and
    sign are reversed in place. The buffer must have room for the text.
   */
  method Itoa(n: I32, buf: seq<char>) returns (r: seq<char>)
    requires |SignedDecimal(n)| < |buf|
    ensures |r| == |buf|
    ensures r[..|SignedDecimal(n)| + 1] == SignedDecimal(n) + [Nul]
    ensures r[|SignedDecimal(n)| + 1..] == buf[|SignedDecimal(n)| + 1..]
    ensures HasNul(r) && CString(r) == SignedDecimal(n)
    ensures ParseSigned(CString(r)) == n
  {
    var m0: nat := if n < 0 then -(n as int) else n;
    var i;
    r, i := DecimalDigitsReversed(m0, buf);
    if n < 0 {
      r, i := PushSign(r, i, Decimal(m0), buf);
    }
    r := TerminateReversed(r, i, SignedDecimal(n), buf);
    CStringOfTerminated(SignedDecimal(n), r[i + 1..]);
    assert r == SignedDecimal(n) + [Nul] + r[i + 1..];
    SignedDecimalRoundTrip(n);
  }

  /** The '-' goes after the reversed digits, so it comes first once the text is reversed. */
  method PushSign(buf: seq<char>, i: nat, digits: seq<char>, orig: seq<char>) returns (r: seq<char>, j: nat)
    requires i < |buf| && |orig| == |buf| && Reverse(buf[..i]) == digits && buf[i..] == orig[i..]
    ensures j == i + 1 && |r| == |buf| && Reverse(r[..j]) == "-" + digits && r[j..] == orig[j..]
  {
    ReverseSnoc(buf[..i], '-');
    r := buf[i := '-'];
    assert r[..i + 1] == buf[..i] + ['-'];
    j := i + 1;
    assert r[j..] == buf[j..];
  }

  /**
    The common tail of `itoa` and `hextoa`: the NUL goes after the text,
    which was written back to front, and the text is reversed in place.
   */
  method TerminateReversed(buf: seq<char>, i: nat, text: seq<char>, orig: seq<char>) returns (r: seq<char>)
    requires i < |buf| && |orig| == |buf| && Reverse(buf[..i]) == text && buf[i..] == orig[i..]
    ensures |r| == |buf| && r[..i + 1] == text + [Nul] && r[i + 1..] == orig[i + 1..]
  {
    r := buf[i := Nul];
    assert r[..i] == buf[..i];
    r := ReverseString(r, i);
    assert r[..i + 1] == r[..i] + [r[i]];
  }

  /** The do-while digit loop of `itoa` on a non-negative value: least significant digit first. */
  method DecimalDigitsReversed(m0: nat, buf: seq<char>) returns (r: seq<char>, i: nat)
    requires |Decimal(m0)| <= |buf|
    ensures i == |Decimal(m0)| && |r| == |buf|
    ensures Reverse(r[..i]) == Decimal(m0)
    ensures r[i..] == buf[i..]
  {
    var m := m0;
    DecimalStep(m);
    var c0 := DigitChar(m % 10);
    assert Reverse(buf[..0]) == [];
    r := PushDigit(buf, 0, c0, buf);
    assert [c0] + [] == [c0];
    i, m := 1, m / 10;
    while m > 0
      invariant 1 <= i <= |Decimal(m0)|
      invariant |r| == |buf|
      invariant Decimal(m0) == (if m > 0 then Decimal(m) else []) + Reverse(r[..i])
      invariant r[i..] == buf[i..]
      invariant m > 0 ==> i + |Decimal(m)| == |Decimal(m0)|
      decreases m
    {
      DecimalStep(m);
      var c := DigitChar(m % 10);
      var rest := if m / 10 > 0 then Decimal(m / 10) else [];
      assert Decimal(m) == rest + [c];
      var r' := PushDigit(r, i, c, buf);
      Regroup(rest, c, Reverse(r[..i]));
      r, i, m := r', i + 1, m / 10;
    }
  }

  /** Writes digit `c` at `cnt`, behind the digits already written in reverse. */
  method PushDigit(r: seq<char>, cnt: nat, c: char, buf: seq<char>) returns (r': seq<char>)
    requires cnt < |r| == |buf| && r[cnt..] == buf[cnt..]
    ensures |r'| == |r| && Reverse(r'[..cnt + 1]) == [c] + Reverse(r[..cnt])
    ensures r'[cnt + 1..] == buf[cnt + 1..]
  {
    ReverseSnoc(r[..cnt], c);
    assert r[cnt := c][..cnt + 1] == r[..cnt] + [c];
    r' := r[cnt := c];
    assert r'[cnt + 1..] == r[cnt + 1..];
  }

  lemma Regroup(x: seq<char>, c: char, y: seq<char>)
    ensures (x + [c]) + y == x + ([c] + y)
  {
  }

  lemma DecimalStep(m: nat)
    ensures m >= 10 ==> Decimal(m) == Decimal(m / 10) + [DigitChar(m % 10)]
    ensures m < 10 ==> Decimal(m) == [DigitChar(m % 10)] && m / 10 == 0
  {
  }

  /**
    The C string `itoa` as written leaves in the buffer reads back as `n`
    exactly when `n` is not -2^31; "-(" reads back as 0.
   */
  lemma ItoaParsesBack(n: I32)
    ensures HasNul(ItoaAsWritten(n))
    ensures ParseSigned(CString(ItoaAsWritten(n))) == n <==> n != IntMin
  {
    if n == IntMin {
      ItoaAsWrittenIntMin();
      CStringOfTerminated("-(", []);
      assert "-(" + [Nul] + [] == "-(" + [Nul];
      assert ParseSigned("-(") == 0;
    } else {
      ItoaAsWrittenAgrees(n);
      CStringOfTerminated(SignedDecimal(n), []);
      assert SignedDecimal(n) + [Nul] + [] == SignedDecimal(n) + [Nul];
      SignedDecimalRoundTrip(n);
    }
  }

  // `itoa` as written: the magnitude is `-n` in 32-bit arithmetic, and `%`
  // and `/` truncate toward zero, as in C.

  function Wrap32(x: int): int {
    var u := x % 0x1_0000_0000;
    if u >= 0x8000_0000 then u - 0x1_0000_0000 else u
  }

  function CDiv(a: int, b: int): int
    requires b > 0
  {
    if a >= 0 then a / b else -((-a) / b)
  }

  function CMod(a: int, b: int): int
    requires b > 0
  {
    a - b * CDiv(a, b)
  }

  /** The do-while digit loop on a C `int`: one digit per turn while the quotient stays positive. */
  function DigitsAsWritten(n: int): (s: seq<char>)
    decreases if n > 0 then n else 0
  {
    var c := (48 + CMod(n, 10)) as char;
    [c] + (if CDiv(n, 10) > 0 then DigitsAsWritten(CDiv(n, 10)) else [])
  }

  function ItoaAsWritten(n: I32): (s: seq<char>)
    ensures |s| >= 2 && s[|s| - 1] == Nul
  {
    var m: int := if n < 0 then Wrap32(-(n as int)) else n;
    Reverse(DigitsAsWritten(m) + (if n < 0 then ['-'] else [])) + [Nul]
  }

  /** For -2^31 the negation wraps back to -2^31; its last digit is '0' - 8 = '(' and the loop stops. */
  lemma ItoaAsWrittenIntMin()
    ensures ItoaAsWritten(IntMin) == "-(" + [Nul]
    ensures SignedDecimal(IntMin) == "-2147483648"
  {
    LastDigitIntMin();
    assert Reverse(['(', '-']) == ['-', '('];
    DecimalExample();
  }

  lemma LastDigitIntMin()
    ensures Wrap32(0x8000_0000) == IntMin
    ensures DigitsAsWritten(IntMin) == ['(']
  {
    assert CDiv(IntMin, 10) == -214748364;
    assert CMod(IntMin, 10) == -8;
  }

  lemma DecimalExample()
    ensures Decimal(2147483648) == "2147483648"
  {
    assert Decimal(2) == "2";
    assert Decimal(21) == "21";
    assert Decimal(214) == "214";
    assert Decimal(2147) == "2147";
    assert Decimal(21474) == "21474";
    assert Decimal(214748) == "214748";
    assert Decimal(2147483) == "2147483";
    assert Decimal(21474836) == "21474836";
    assert Decimal(214748364) == "214748364";
  }

  /** Apart from -2^31 the code as written prints the reference text. */
  lemma ItoaAsWrittenAgrees(n: I32)
    requires n != IntMin
    ensures ItoaAsWritten(n) == SignedDecimal(n) + [Nul]
  {
    var m: nat := if n < 0 then -n else n;
    assert Wrap32(-n) == m || n >= 0;
    DigitsAreReversedDecimal(m);
    if n < 0 {
      ReverseSnoc(DigitsAsWritten(m), '-') ;
      assert Reverse(DigitsAsWritten(m) + ['-']) == ['-'] + Reverse(DigitsAsWritten(m));
    } else {
      assert DigitsAsWritten(m) + [] == DigitsAsWritten(m);
    }
    ReverseReverse(Decimal(m));
  }

  lemma {:induction false} DigitsAreReversedDecimal(m: nat)
    ensures DigitsAsWritten(m) == Reverse(Decimal(m))
    decreases m
  {
    DecimalStep(m);
    if m >= 10 {
      DigitsAreReversedDecimal(m / 10);
      ReverseSnoc(Decimal(m / 10), DigitChar(m % 10));
    }
  }

  lemma ReverseReverse<T>(s: seq<T>)
    ensures Reverse(Reverse(s)) == s
  {
  }

  // Hexadecimal text.

  /**
    `hextoa` of the runtime: upper-case hex digits of a 32-bit value, "0"
    for zero, left-padded with '0' to `fixedSize` digits when that is
    positive and never truncated, then the NUL. The buffer must have room.
   */
  method Hextoa(n: U32, buf: seq<char>, fixedSize: int) returns (r: seq<char>)
    requires |PadLeft(Hex(n), fixedSize)| < |buf|
    ensures |r| == |buf|
    ensures r[..|PadLeft(Hex(n), fixedSize)| + 1] == PadLeft(Hex(n), fixedSize) + [Nul]
    ensures r[|PadLeft(Hex(n), fixedSize)| + 1..] == buf[|PadLeft(Hex(n), fixedSize)| + 1..]
  {
    var cnt;
    r, cnt := HexDigitsReversed(n, buf);
    var padded := PadLeft(Hex(n), fixedSize);
    if fixedSize > 0 {
      r, cnt := PadReversed(r, cnt, Hex(n), fixedSize, buf);
    } else {
      assert Zeros(0) + Hex(n) == Hex(n);
    }
    r := TerminateReversed(r, cnt, padded, buf);
  }

  /** The digit loop of `hextoa`: least significant digit first, '0' for zero. */
  method HexDigitsReversed(n: nat, buf: seq<char>) returns (r: seq<char>, cnt: nat)
    requires |Hex(n)| <= |buf|
    ensures cnt == |Hex(n)| && |r| == |buf|
    ensures Reverse(r[..cnt]) == Hex(n)
    ensures r[cnt..] == buf[cnt..]
  {
    var m := n;
    cnt := 0;
    r := buf;
    if m == 0 {
      r := r[0 := '0'];
      cnt := 1;
      assert Reverse(r[..1]) == Hex(n);
    } else {
      while m > 0
        invariant 0 <= cnt <= |Hex(n)|
        invariant |r| == |buf|
        invariant Hex(n) == (if m > 0 then Hex(m) else []) + Reverse(r[..cnt])
        invariant m > 0 ==> cnt + |Hex(m)| == |Hex(n)|
        invariant r[cnt..] == buf[cnt..]
        decreases m
      {
        HexStep(m);
        var c := HexChar(m % 16);
        var rest := if m / 16 > 0 then Hex(m / 16) else [];
        assert Hex(m) == rest + [c];
        var r' := PushDigit(r, cnt, c, buf);
        Regroup(rest, c, Reverse(r[..cnt]));
        r, cnt, m := r', cnt + 1, m / 16;
      }
    }
  }

  /** The padding loop of `hextoa`: '0' digits after the reversed digits until `width` is reached. */
  method PadReversed(buf: seq<char>, cnt0: nat, h: seq<char>, width: int, orig: seq<char>) returns (r: seq<char>, cnt: nat)
    requires |PadLeft(h, width)| < |buf| && cnt0 == |h| && Reverse(buf[..cnt0]) == h
    requires |orig| == |buf| && buf[cnt0..] == orig[cnt0..]
    ensures cnt == |PadLeft(h, width)| && |r| == |buf|
    ensures Reverse(r[..cnt]) == PadLeft(h, width)
    ensures r[cnt..] == orig[cnt..]
  {
    var k: nat := if width > |h| then width - |h| else 0;
    PadLeftIsZeros(h, width, k);
    r := PadZeros(buf, h, k, orig);
    cnt := cnt0 + k;
  }

  lemma PadLeftIsZeros(h: seq<char>, width: int, k: nat)
    requires k == if width > |h| then width - |h| else 0
    ensures PadLeft(h, width) == Zeros(k) + h
  {
    assert Zeros(0) + h == h;
  }

  /** `k` turns of the padding loop. */
  method PadZeros(buf: seq<char>, h: seq<char>, k: nat, orig: seq<char>) returns (r: seq<char>)
    requires |h| + k < |buf| && |orig| == |buf|
    requires Reverse(buf[..|h|]) == h && buf[|h|..] == orig[|h|..]
    ensures |r| == |buf| && Reverse(r[..|h| + k]) == Zeros(k) + h && r[|h| + k..] == orig[|h| + k..]
    decreases k
  {
    if k == 0 {
      r := buf;
      assert Zeros(0) + h == h;
    } else {
      var r0 := PadZeros(buf, h, k - 1, orig);
      r := PadOne(r0, h, k - 1, orig);
    }
  }

  /** One turn of the padding loop: a '0' after the reversed text. */
  method PadOne(buf: seq<char>, h: seq<char>, k: nat, orig: seq<char>) returns (r: seq<char>)
    requires |h| + k < |buf| && |orig| == |buf|
    requires Reverse(buf[..|h| + k]) == Zeros(k) + h && buf[|h| + k..] == orig[|h| + k..]
    ensures |r| == |buf| && Reverse(r[..|h| + k + 1]) == Zeros(k + 1) + h && r[|h| + k + 1..] == orig[|h| + k + 1..]
  {
    var cnt := |h| + k;
    PadStep(buf[..cnt], k, h);
    r := buf[cnt := '0'];
    assert r[..cnt + 1] == buf[..cnt] + ['0'];
    assert r[cnt + 1..] == buf[cnt + 1..];
  }

  lemma PadStep(pre: seq<char>, k: nat, h: seq<char>)
    requires Reverse(pre) == Zeros(k) + h
    ensures Reverse(pre + ['0']) == Zeros(k + 1) + h
  {
    ReverseSnoc(pre, '0');
    ZerosSnoc(k);
    assert ['0'] + (Zeros(k) + h) == (['0'] + Zeros(k)) + h;
  }

  lemma HexStep(m: nat)
    requires m > 0
    ensures m >= 16 ==> Hex(m) == Hex(m / 16) + [HexChar(m % 16)]
    ensures m < 16 ==> Hex(m) == [HexChar(m % 16)] && m / 16 == 0
  {
  }

  lemma ZerosSnoc(k: nat)
    ensures ['0'] + Zeros(k) == Zeros(k + 1)
  {
  }

  /** What `hextoa` prints reads back as the value, has at least `fixedSize` digits, all upper-case. */
  lemma HextoaParsesBack(n: U32, fixedSize: int)
    ensures ParseHex(PadLeft(Hex(n), fixedSize)) == n
    ensures |PadLeft(Hex(n), fixedSize)| >= fixedSize
    ensures HexText(PadLeft(Hex(n), fixedSize))
  {
    var k := if fixedSize > |Hex(n)| then fixedSize - |Hex(n)| else 0;
    PadLeftIsZeros(Hex(n), fixedSize, k);
    ParseHexOfHex(n);
    ParseHexLeadingZeros(k, Hex(n));
    HexIsUpperCase(n);
    ZerosThenHexText(k, Hex(n));
  }

  lemma ZerosThenHexText(k: nat, h: seq<char>)
    requires HexText(h)
    ensures HexText(Zeros(k) + h)
  {
    var s := Zeros(k) + h;
    forall j | 0 <= j < |s|
      ensures ('0' <= s[j] <= '9') || ('A' <= s[j] <= 'F')
    {
      if j >= k {
        assert s[j] == h[j - k];
      }
    }
  }

}

=== FILE: uart_variant.dfy ===
/**
  The hexadecimal routine of the first QEMU example's UART support: a
  64-bit value, no padding. Its `reverse_string` and `itoa` are those of
  the runtime (module Uart); its `uart_puts` sends the same characters as
  `Uart.UartPuts` but returns no count. For zero it writes the single
  digit and no NUL, so whatever followed in the buffer is still part of the
  string; `Hextoa` below terminates in both cases, as the nonzero path does.
 */
module UartVariant {
  import opened Isa
  import opened Digits
  import opened Uart

  /** As written: zero writes only `buf[0]`. */
  method HextoaAsWritten(n: U64, buf: seq<char>) returns (r: seq<char>)
    requires |Hex(n)| < |buf|
    ensures |r| == |buf|
    ensures n == 0 ==> r == buf[0 := '0']
    ensures n > 0 ==> r[..|Hex(n)| + 1] == Hex(n) + [Nul] && r[|Hex(n)| + 1..] == buf[|Hex(n)| + 1..]
  {
    if n == 0 {
      r := buf[0 := '0'];
      r := ReverseString(r, 1);
    } else {
      var cnt;
      r, cnt := HexDigitsReversed(n, buf);
      r := TerminateReversed(r, cnt, Hex(n), buf);
    }
  }

  /**
    A buffer that held "7F" reads "0F" after `hextoa(0)` as written: the old
    second digit and terminator are still there.
   */
  lemma ZeroKeepsStaleDigits()
    ensures var r := ['7', 'F', Nul][0 := '0'];
      HasNul(r) && CString(r) == "0F" && CString(r) != Hex(0)
  {
    var r := ['7', 'F', Nul][0 := '0'];
    CStringOfTerminated("0F", []);
    assert r == "0F" + [Nul] + [];
  }

  /** Upper-case hex digits of a 64-bit value, "0" for zero, always NUL-terminated. */
  method Hextoa(n: U64, buf: seq<char>) returns (r: seq<char>)
    requires |Hex(n)| < |buf|
    ensures |r| == |buf|
    ensures r[..|Hex(n)| + 1] == Hex(n) + [Nul] && r[|Hex(n)| + 1..] == buf[|Hex(n)| + 1..]
    ensures HasNul(r) && ParseHex(CString(r)) == n
  {
    var cnt;
    r, cnt := HexDigitsReversed(n, buf);
    r := TerminateReversed(r, cnt, Hex(n), buf);
    HexIsText(n);
    CStringOfTerminated(Hex(n), r[|Hex(n)| + 1..]);
    assert r == Hex(n) + [Nul] + r[|Hex(n)| + 1..];
    ParseHexOfHex(n);
  }

  lemma HexIsText(n: nat)
    ensures Nul !in Hex(n)
  {
    HexIsUpperCase(n);
  }
}

=== FILE: vm.dfy ===
/**
  The just-in-time front end. Besides the instructions, the helper table
  and the wide load callbacks it remembers the compiled entry point, so a
  program is compiled at most once: `exec` calls the remembered function,
  and only compiles when there is none. Compilation itself and loading an
  object file belong to the JIT context, which is not part of this model:
  their outcomes are parameters, an entry point being an opaque handle.
 */
module Vm {
  import opened Wrappers
  import opened Isa
  import Loader
  import ExtTable
  import Lddw

  datatype Vm = Vm(
    instructions: seq<Insn>,
    extFuncs: ExtTable.Table,
    errorMsg: seq<char>,
    resolvers: Lddw.Resolvers,
    jitted: Option<nat>)

  function New(): (v: Vm)
    ensures v.instructions == [] && v.jitted.None? && v.resolvers == Lddw.NoResolvers
    ensures |v.extFuncs| == ExtTable.MaxExtFuncs && forall i :: 0 <= i < |v.extFuncs| ==> v.extFuncs[i].None?
  {
    Vm([], ExtTable.Empty(), "", Lddw.NoResolvers, None)
  }

  function GetErrorMessage(v: Vm): seq<char> {
    v.errorMsg
  }

  function RegisterExternalFunction(v: Vm, index: nat, name: seq<char>, fn: nat): (r: (Vm, int))
    ensures r.1 == 0 <==> index < |v.extFuncs| && v.extFuncs[index].None?
    ensures r.1 == -Loader.E2BIG <==> index >= |v.extFuncs|
    ensures r.1 != 0 ==> r.0.extFuncs == v.extFuncs
    ensures r.1 == 0 ==> r.0.extFuncs == v.extFuncs[index := Some(ExtTable.ExtFunc(name, fn))]
    ensures r.0 == v.(extFuncs := r.0.extFuncs, errorMsg := r.0.errorMsg)
  {
    var reg := ExtTable.Register(v.extFuncs, v.errorMsg, index, name, fn);
    (v.(extFuncs := reg.table, errorMsg := reg.errorMsg), reg.ret)
  }

  function LoadCode(v: Vm, code: seq<Byte>): (r: (Vm, int))
    ensures r.1 == 0 <==> |code| % Loader.InsnBytes == 0
    ensures r.1 != 0 ==> r.1 == -Loader.EINVAL && r.0 == v.(errorMsg := Loader.CodeLenMessage)
    ensures r.1 == 0 ==> r.0 == v.(instructions := r.0.instructions) && Loader.EncodeProgram(r.0.instructions) == code
  {
    var l := Loader.LoadCode(v.instructions, v.errorMsg, code);
    (v.(instructions := l.insns, errorMsg := l.errorMsg), l.ret)
  }

  /** `unload_code` empties the instruction list and keeps everything else, the compiled function included. */
  function UnloadCode(v: Vm): (r: Vm)
    ensures r.instructions == [] && r == v.(instructions := [])
  {
    v.(instructions := [])
  }

  /** Unloading then loading a program is the same as loading it. */
  lemma UnloadThenLoad(v: Vm, p: seq<Insn>)
    ensures LoadCode(UnloadCode(v), Loader.EncodeProgram(p)) == LoadCode(v, Loader.EncodeProgram(p))
    ensures LoadCode(v, Loader.EncodeProgram(p)).0.instructions == p
  {
    Loader.ProgramRoundTrip(p);
  }

  /** All five callbacks are replaced, absent ones included. */
  function SetLddwHelpers(v: Vm, mapByFd: Option<U32 -> U64>, mapByIdx: Option<U32 -> U64>, mapVal: Option<U64 -> U64>,
                          varAddr: Option<U32 -> U64>, codeAddr: Option<U32 -> U64>): (r: Vm)
    ensures r.resolvers == Lddw.Resolvers(mapByFd, mapByIdx, mapVal, varAddr, codeAddr)
    ensures r == v.(resolvers := r.resolvers)
  {
    v.(resolvers := Lddw.Resolvers(mapByFd, mapByIdx, mapVal, varAddr, codeAddr))
  }

  /** `compile` records whatever the JIT context produced, failure included. */
  function Compile(v: Vm, compiled: Option<nat>): (r: (Vm, Option<nat>))
    ensures r.1 == compiled && r.0 == v.(jitted := compiled)
  {
    (v.(jitted := compiled), compiled)
  }

  /**
    `load_aot_object`: refused with "Already compiled" while a compiled
    function exists, which is kept; otherwise the loaded entry point becomes
    the compiled function.
   */
  const AlreadyCompiled: seq<char> := "Already compiled"

  function LoadAotObject(v: Vm, loaded: Option<nat>): (r: (Vm, Option<nat>))
    ensures v.jitted.Some? ==> r.1.None? && r.0 == v.(errorMsg := AlreadyCompiled)
    ensures v.jitted.None? ==> r.1 == loaded && r.0 == v.(jitted := loaded)
  {
    if v.jitted.Some? then (v.(errorMsg := AlreadyCompiled), None)
    else (v.(jitted := loaded), loaded)
  }

  /** The outcome of `exec`: the new front end, the status and the program's return value. */
  datatype Executed = Executed(vm: Vm, ret: int, value: Option<U64>)

  /**
    `exec`: calls the compiled function if there is one (`call` gives what
    an entry point returns on this input); otherwise compiles first and
    fails with -1 if that produced nothing.
   */
  function Exec(v: Vm, compiled: Option<nat>, call: nat -> U64): (r: Executed)
    ensures r.ret == 0 <==> v.jitted.Some? || compiled.Some?
    ensures r.ret != 0 ==> r.ret == -1 && r.value.None? && r.vm == v.(jitted := None)
    ensures r.ret == 0 ==> r.vm.jitted.Some? && r.value == Some(call(r.vm.jitted.value))
    ensures v.jitted.Some? ==> r.vm == v
  {
    if v.jitted.Some? then Executed(v, 0, Some(call(v.jitted.value)))
    else
      var (v1, f) := Compile(v, compiled);
      if f.None? then Executed(v1, -1, None)
      else Executed(v1, 0, Some(call(f.value)))
  }

  /**
    A second `exec` neither compiles again nor changes anything: whatever
    compilation would produce now, it returns what the first call's
    function returns.
   */
  lemma ExecCompilesOnce(v: Vm, compiled: Option<nat>, again: Option<nat>, call: nat -> U64)
    requires Exec(v, compiled, call).ret == 0
    ensures var first := Exec(v, compiled, call);
      Exec(first.vm, again, call) == first
  {
  }

  /** Once compiled, an object file can no longer replace the function. */
  lemma ExecThenLoadAotRefused(v: Vm, compiled: Option<nat>, loaded: Option<nat>, call: nat -> U64)
    requires Exec(v, compiled, call).ret == 0
    ensures var e := Exec(v, compiled, call);
      LoadAotObject(e.vm, loaded).1.None? && LoadAotObject(e.vm, loaded).0.jitted == e.vm.jitted
  {
  }
}

=== FILE: wrappers.dfy ===
/** Failure-carrying result types shared by every module of the model. */
module Wrappers {

  datatype Option<+T> = None | Some(value: T) {
    predicate IsFailure() { None? }

    function PropagateFailure<U>(): Option<U>
      requires None?
    {
      None
    }

    function Extract(): T
      requires Some?
    {
      value
    }
  }

  datatype Result<+R, +E> = Success(value: R) | Failure(error: E) {
    predicate IsFailure() { Failure? }

    function PropagateFailure<U>(): Result<U, E>
      requires Failure?
    {
      Failure(error)
    }

    function Extract(): R
      requires Success?
    {
      value
    }
  }
}
